=== FILE: README.md ===
# AMS yacht backend: a Dafny model of its decision core

This project models the decision logic of the AMS yacht monitoring backend and
of its AI watchkeeper in Dafny, and proves properties of that model.

- **Watchkeeper hard rules** (`watchkeeper.dfy`). The watchkeeper's bilge safety
  layer first strips every advisory proposal that drives the bilge pump override.
  It then runs a timed state machine over the high float sensor: float cleared,
  run-time limit, rest window, restart. Finally it turns an empty action list into
  a single no-op.
  - The process-wide timers are an explicit `BilgeState` record.
  - The wall clock is a `now` parameter in whole seconds.
  - The two tuning constants are a `Config`.
  - The random action id is a `ruleId` parameter.
- **AI command endpoint** (`admission.dfy`, `policy.dfy`). Each proposed action
  is executed, rejected or deferred according to the AI control policy table,
  the current devices and the vessel mode.
  - `Decide` is the endpoint as written.
  - `DecideIntended` is the endpoint with its `only_if` check corrected (see Findings).
- **How the two meet** (`safety_chain.dfy`). The override the rules drive has no
  entry in the policy table, so the endpoint rejects every command the rules emit.
- **Hardware addresses** (`unified_io.py`, modelled in `unified_io.dfy`).
  - A hardware id is `kind:rest`.
  - A Modbus rest is `bus:point:index` on a registered bus.
  - A GPIO rest is a pin number.
  - The reading and writing stubs become the effect they would perform.
  - Python's `int()` and `str()` on integers are modelled in `decimal.dfy`.
- **In-memory stores.**
  - Device states per vessel (`devices.dfy`).
  - Scene activation (`scenes.dfy`).
  - The bounded event history (`events.dfy`).
  - The numbered AI watch log (`ai_logs.dfy`).
  - Each is a map updated by a pure function.
- **Profiles.**
  - The JSON vessel profile and its lookups (`profiles.dfy`), with its consistency checks (`profiles_ids.dfy`).
  - The vessel registry of the profile package (`profile_registry.dfy`).
  - The cabin cruiser device tables (`cabin_cruiser.dfy`, `cabin_cruiser_ids.dfy`).

`base.dfy` holds the shared types:
- `Option` and `Result`;
- a JSON-like `Value` with Python truthiness (its `==` is `Decimal.PyEq`, since a float meets an integer through its text);
- `str.split` and `str.startswith`.

`commands.dfy` holds the action and reading records shared by the watchkeeper
and the endpoint. `tables.dfy` holds the step-by-step uniqueness checks used on
the literal tables.

The routers import `get_devices_for_yacht` and `get_scenes_for_yacht` from
`app.yacht_profiles`. Both a module `app/yacht_profiles.py` and a package
`app/yacht_profiles/` carry that name, and Python resolves the import to the
package. The package defines no `get_scenes_for_yacht`, so the scene router's
import would fail. The device and scene routers are therefore modelled against
the functions of `app/yacht_profiles.py`, the only file that defines both.
The package's registry is modelled on its own in `profile_registry.dfy`.

## Model

| member | source | states |
|---|---|---|
| Watchkeeper.StripOverride | ai_watchkeeper.py:80-90 | No surviving proposal is a `set_device_state` on the override. Every survivor comes from the input. Every input action that does not drive the override survives, including other action types naming the override. |
| Watchkeeper.StripOverrideAppend | ai_watchkeeper.py:82-90 | Stripping distributes over concatenation, so the survivors keep their relative order. |
| Watchkeeper.StripOverrideIdempotent | ai_watchkeeper.py:82-90 | Stripping an already stripped list removes nothing more. |
| Watchkeeper.StripOverrideKeepsClean | ai_watchkeeper.py:82-90 | A proposal list with no override command passes through unchanged. |
| Watchkeeper.RuleAction | ai_watchkeeper.py:116-133 | A rule action is a `set_device_state` on the override with priority "critical" and the requested target. It carries an `only_if` exactly when it turns the pump ON, and that condition is `bilge_float_high == True`. |
| Watchkeeper.ManagedStep | ai_watchkeeper.py:105-184 | With both devices present and AI control on, at most one rule action is added. Its command is the one the current phase calls for: OFF when the float cleared with the pump on or the run limit is reached, ON when a high float meets a stopped pump outside a rest window, none otherwise. Timers per phase: both cleared when the float is low; on-since kept, or set to now on first sight, while running; rest window opened at now + rest after a forced stop; unchanged while resting; on-since = now after a restart. |
| Watchkeeper.BilgeStep | ai_watchkeeper.py:92-184 | As ManagedStep. In addition, when a bilge device is missing or the override's `ai_control` is falsy (a non-empty string counts as allowed), no action is added and the timers are unchanged. |
| Watchkeeper.ApplyHardRules | ai_watchkeeper.py:64-184 | The output begins with the stripped proposals and adds at most one rule action after them. The added command is the phase's expected command. The timers follow the phase table above. When managed, on-since is set after the call exactly when the call turned the pump on, or the pump was on and was not turned off. |
| Watchkeeper.RestWindowHolds | ai_watchkeeper.py:166-170 | Inside a rest window, any number of cycles seeing the float high and the pump off add no action and keep the window. |
| Watchkeeper.RunningKeepsStart | ai_watchkeeper.py:109-114 | While the pump runs under the limit with the float high, the on-since timer keeps the time the pump was first seen on. |
| Watchkeeper.DutyCycle | ai_watchkeeper.py:150-180 | After a run-limit stop at time t, a cycle with float high and pump off behaves by its time. Before t + rest it commands nothing and keeps the timers. From t + rest on (comparison strict) it restarts the pump and starts the run timer. |
| Watchkeeper.InjectNoOp | ai_watchkeeper.py:226-239 | A non-empty list is unchanged. An empty one becomes exactly one `no_op` with id "noop-1" and priority "info". |
| Watchkeeper.Cycle | ai_watchkeeper.py:223-241 | A cycle always sends at least one action. |
| Commands.FindDevice | ai_watchkeeper.py:92-93 | Finds nothing exactly when no reading has the id. Otherwise it returns the first reading with that id. |
| Policy.DeviceLevel | app/ai/policy.py:39-41 | Every device level is 0, 1 or 2, and a device missing from the table is level 0. |
| Policy.SceneLevel | app/ai/policy.py:44-46 | Every scene level is 0, 1 or 2, and a scene missing from the table is level 0. |
| Policy.DeviceLevels | app/ai/policy.py:8-28 | Level 2 is exactly `bilge_pump` and `courtesy_lights`. Level 1 is exactly `nav_lights` and `salon_lights`. Every other id is level 0. |
| Policy.SceneLevels | app/ai/policy.py:30-35 | Level 2 is exactly "harbour_mode". Level 1 is exactly "underway", "at_anchor" and "night_mode". |
| Admission.FirstFailing | app/ai/router.py:119-125 | Finds no failing condition exactly when every `only_if` condition holds: the device is present and its state is `==` the expected value as Python compares them, so `True == 1 == 1.0`. Otherwise it returns the first condition, in dictionary order, that does not hold: every condition before it holds. |
| Admission.FloatConditionHolds | app/ai/router.py:119-139 | A condition expecting 12 holds on a sensor reading 12.0. Such a guarded command is executed by the corrected endpoint and answered "Not processed" as written. |
| Admission.Decide | app/ai/router.py:77-199 | The result carries the action's id. It is executed exactly when the action is a no-op, an unguarded command on a present level-2 device, or a scene action on a level-2 scene other than "at_anchor" while underway. It is deferred exactly on a level-1 target. It has an `executed_as` exactly when executed, and an executed `deactivate_scene` is reported as a scene activation. A guarded device command is never executed. A missing level-2 device is "not found". A command without a device id, a scene action without a scene id, or an unlisted type is "Not processed". The reason names its cause: a level-0 target is not controllable, a level-1 target is suggestion-only, and "at_anchor" while underway is refused. A guarded command on a present level-2 device is rejected, naming the first failing condition and its expected value, or as "Not processed" when every condition holds. |
| Admission.DecideIntended | app/ai/router.py:118-158 | For a guarded command on a present level-2 device, it executes exactly when all conditions hold, with reason "executed" and the device write as `executed_as`. Every other action, including a guarded command whose condition fails, gets exactly the as-written result. |
| Admission.GuardedCommandRefused | app/ai/router.py:119-139 | An ON command on `bilge_pump` guarded by `bilge_float_high == True` is rejected as "Not processed" although the float reads True. The corrected check executes it. |
| Admission.DecideAll | app/ai/router.py:77-199 | Exactly one result per action, in input order. |
| Admission.ApplyCommands | app/ai/router.py:58-77 | An action type outside the schema makes the request a 422. A body naming another yacht is a 400 and decides nothing. Otherwise the response echoes the request id and holds one decided result per action, carrying that action's id. |
| SafetyChain.OverrideCommandRejected | app/ai/router.py:101-106 | Any command on the bilge override is rejected as not AI-controllable (level 0), both as written and with the corrected check. |
| SafetyChain.CycleOverrideCommandsRejected | ai_watchkeeper.py:116-133 | Every override command a watchkeeper cycle sends carries the rule id, and the endpoint rejects it, whatever the snapshot, timers or proposals. |
| SafetyChain.PolicyLimitsDiffer | app/ai/policy.py:9-14 | The table's bilge limits (600 s run, 30 s cool-down) are for `bilge_pump`, not the override, and differ from the watchkeeper's 30 s and 20 s. |
| UnifiedIo.InitModbusBuses | app/hardware/unified_io.py:22-27 | The map's keys are exactly the ids of buses whose type starts with "modbus_". Each key maps to the last such bus in list order carrying that id, so a later entry replaces an earlier one. A Modbus bus without an id is a KeyError. |
| UnifiedIo.SplitKind | app/hardware/unified_io.py:48-52 | Succeeds exactly when the id contains ':'. The kind contains no ':'. kind + ":" + rest rebuilds the id, so the rest may contain further colons. |
| UnifiedIo.SplitKindOf | app/hardware/unified_io.py:48-52 | Splitting `kind:rest` with a colon-free kind gives back kind and rest. |
| UnifiedIo.ParseModbusRest | app/hardware/unified_io.py:54-63 | Succeeds exactly when the rest has three ':'-separated parts, the third is an integer, and the first names a registered bus. The errors come in that order: a wrong part count is "invalid rest", then a non-integer index, then an unknown bus. On success the point carries the registered bus entry, the second part as point type, and `int()` of the third part as index. |
| UnifiedIo.ModbusRestRoundTrip | app/hardware/unified_io.py:54-63 | A bus:point:index written from colon-free parts and a registered bus parses back to exactly those parts. |
| UnifiedIo.ParseGpioRest | app/hardware/unified_io.py:74-75 | Succeeds exactly when the rest is an integer, and the pin is that integer. |
| UnifiedIo.SetOutput | app/hardware/unified_io.py:29-36 | Raises exactly when the id has no ':', or the kind is "modbus" with a malformed or unregistered rest, or the kind is "gpio" with a non-integer pin. A GPIO write targets the parsed pin. A Modbus write targets the bus, point type and index the rest parses to. Any other kind does nothing and never raises. |
| UnifiedIo.GetInput | app/hardware/unified_io.py:38-46 | Every reading that does not raise is False. It raises exactly when the split, the Modbus rest or the GPIO pin is malformed. |
| UnifiedIo.ModbusAddressRoundTrip | app/hardware/unified_io.py:29-72 | A Modbus id written from its parts targets exactly that bus point when written, and reads as False. |
| Decimal.ParseIntRoundTrip | app/hardware/unified_io.py:59 | `int(str(i)) == i` for every integer. |
| Decimal.FloatIsIntDenotes | app/ai/router.py:122 | A float `==` an integer is written as that integer's `str` followed by ".0" (or is negative zero), so `int()` of the text before ".0" gives the integer, and no two integers equal the same float. |
| Decimal.ZeroPadDenotes | app/routers/ai.py:102 | Zero padding to a width gives at least that many digits, all decimal, denoting the number. |
| Decimal.ZeroPadInjective | app/routers/ai.py:102 | Different numbers pad to different texts. |
| Events.Prepend | app/routers/events.py:24-45 | The new event comes first. The length grows by one up to 500. The rest is the old history with the oldest event dropped when full. |
| Events.Push | app/routers/events.py:45 | Only the named vessel's history changes, and the 500 bound is kept. |
| Events.RecordEvent | app/routers/events.py:27-45 | The recorded event is the vessel's newest, with `details` of None stored as an empty mapping. |
| Events.PushAllHistory | app/routers/events.py:24-45 | After a run of recordings, the history is the newest 500 of (recorded events, latest first, followed by the earlier history). |
| Events.ListEvents | app/routers/events.py:48-55 | A non-negative limit gives the newest-first prefix of length min(limit, size). A negative limit drops that many oldest events. The result is always a prefix. |
| Events.ListEventsDefault | app/routers/events.py:48-55 | Without a limit the result is the newest min(50, size) events, newest first. |
| AiLogs.InitLogList | app/routers/ai.py:57-60 | The vessel ends up with its existing list, or an empty one if it was new. Other vessels are untouched. |
| AiLogs.InitLogListIdempotent | app/routers/ai.py:57-60 | A second initialisation changes nothing. |
| AiLogs.LogId | app/routers/ai.py:102 | An id is "log-" followed by at least four characters. |
| AiLogs.LogIdDenotes | app/routers/ai.py:102 | After "log-", the id is all digits and denotes the log number. |
| AiLogs.LogIdInjective | app/routers/ai.py:102 | Different numbers give different ids. |
| AiLogs.FirstLogIds | app/routers/ai.py:102 | The first two ids are "log-0001" and "log-0002". |
| AiLogs.AddAiLog | app/routers/ai.py:94-111 | The new log is numbered one past the vessel's count, carries the request's fields and is appended. Earlier logs and other vessels are unchanged. |
| AiLogs.AddKeepsNumbering | app/routers/ai.py:100-110 | If a vessel's logs are numbered 1, 2, 3, ... they still are after an addition. |
| AiLogs.NumberedIdsDistinct | app/routers/ai.py:102 | In such a list no two logs share an id. |
| AiLogs.AddAllNumbered | app/routers/ai.py:94-111 | Any run of additions keeps the numbering and grows the list by one per addition. |
| AiLogs.ListAiLogs | app/routers/ai.py:114-125 | A limit outside 1..200 is a 422. Otherwise the result is the last min(limit, size) logs in insertion order, and the vessel's list is initialised. |
| AiLogs.ListAiLogsDefault | app/routers/ai.py:114-125 | Without a limit the call always succeeds and returns the last min(50, size) logs in insertion order. |
| AiLogs.NewestListedLast | app/routers/ai.py:110-125 | Right after an addition, the new log is the last one listed, whatever the limit. |
| DeviceState.InitialState | app/routers/devices.py:24-26 | A vessel's first state has a key exactly for each device id of its profile, each False. |
| DeviceState.EnsureState | app/routers/devices.py:20-27 | A known vessel's store is unchanged. A new vessel gets its initial state. Other vessels are untouched. |
| DeviceState.EnsureStateIdempotent | app/routers/devices.py:20-27 | A second call finds what the first created. |
| DeviceState.ListDevices | app/routers/devices.py:30-41 | One entry per profile device, in profile order, with its state read from the store (None when absent). Listing initialises the vessel. |
| DeviceState.FirstListingAllOff | app/routers/devices.py:24-41 | On a vessel's first listing every device reads False. |
| DeviceState.SetDeviceState | app/routers/devices.py:49-77 | An unknown device id is a 404 and changes nothing. Otherwise exactly that entry takes the new value, with no type check, and nothing else of any vessel changes. A `device_state_changed` event is recorded first, with the id and the new state, from the request's source or "web_ui". |
| DeviceState.SetThenList | app/routers/devices.py:30-57 | After a write, the written device lists the new state and every other device lists what it did before. |
| SceneActivation.FindScene | app/routers/scenes.py:42-45 | Finds a scene exactly when one has the id, and returns the first such scene. |
| SceneActivation.AppliedOf | app/routers/scenes.py:55-75 | Every action with a non-empty valid device id appears as applied, with its device and state, and every applied entry comes from such an action. Applied ids are valid. When every action applies, all of them are listed. |
| SceneActivation.SkippedOf | app/routers/scenes.py:55-66 | Every action with a missing, empty or unknown device id has its id listed as skipped, and every skipped id comes from such an action. Skipped plus applied equals the number of actions. |
| SceneActivation.ApplyActions | app/routers/scenes.py:52-75 | The applied list is exactly AppliedOf and the skipped list exactly SkippedOf: every action naming a valid device, in scene order, with its state, and the device id of every other action, in order. Their lengths add up to the number of actions. |
| SceneActivation.ApplyActionsLastWrite | app/routers/scenes.py:55-75 | After the loop, a device named by an applicable action holds the state of the last such action. Every other entry is as before. |
| SceneActivation.ActivateScene | app/routers/scenes.py:28-88 | An unknown scene is a 404 and changes nothing. Otherwise the vessel's state is the loop's result over its ensured state, the applied and skipped lists are those of the found scene's actions, no other vessel changes, and the source defaults to "unknown". |
| SceneActivation.ActivationState | app/routers/scenes.py:50-75 | Device by device, an activation leaves the last write of the scene, or else the previous state. |
| SceneActivation.ShippedScenesApplyFully | app/yacht_profiles.py:363-409 | With the shipped profile no scene action is ever skipped. |
| Profiles.Lookup | app/yacht_profiles.py:427-428 | Finds an entry exactly when the key is registered, and returns the entry stored under it. |
| Profiles.CopyFor | app/yacht_profiles.py:430-434 | The copy's `yacht.id` is the requested id. An existing name is kept (`setdefault`); a missing one becomes "Boat <id>". Everything else is copied. |
| Profiles.ProfileForYacht | app/yacht_profiles.py:426-434 | A registered id gets the shared profile. Any other id gets a copy carrying its own id and the default's name "Marex Flexi 21 #001". Devices, scenes and buses are always the default ones. |
| Profiles.DevicesForYacht | app/yacht_profiles.py:437-439 | Every vessel id sees the default device list. |
| Profiles.ScenesForYacht | app/yacht_profiles.py:442-444 | Every vessel id sees the default scenes. |
| Profiles.GetYachtMeta | app/yacht_profiles.py:447-454 | The name is always "Marex Flexi 21 #001" and the buses the default ones. The id is "marex-21-001" for a registered key and the requested id otherwise. |
| Profiles.DefaultKeyReportsOtherId | app/yacht_profiles.py:447-454 | Asking for "default_cabin_cruiser_20_25ft" reports the id "marex-21-001". |
| Profiles.ListKnownYachts | app/yacht_profiles.py:457-467 | One entry per registry key, in order, with the key as id and the profile's name, or the key when there is none. |
| Profiles.KnownYachts | app/yacht_profiles.py:420-423 | Both keys are listed, under the one profile's name. |
| ProfileChecks.LightsListed | app/yacht_profiles.py:32-108 | The light circuits carry exactly the listed light ids, in order. |
| ProfileChecks.LoadsListed | app/yacht_profiles.py:109-218 | The pump and load group carries exactly the listed load ids, in order. |
| ProfileChecks.InputsListed | app/yacht_profiles.py:219-361 | The sensor and input group carries exactly the listed input ids, in order. |
| ProfileChecks.DeviceIdsUnique | app/yacht_profiles.py:31-362 | No two devices of the profile share an id. |
| ProfileChecks.SceneActionsNameLights | app/yacht_profiles.py:363-409 | Every scene action names a light circuit of the profile and sets it to a boolean. |
| ProfileChecks.LightsAreDevices | app/yacht_profiles.py:31-108 | The light circuits are the first devices of the profile, so their ids are device ids. |
| ProfileRegistry.Find | app/yacht_profiles/__init__.py:24-26 | Finds an entry exactly when the vessel is registered; otherwise a KeyError. The entry is the one stored under the key. |
| ProfileRegistry.ProfileFor | app/yacht_profiles/__init__.py:23-26 | The profile id stored for a registered vessel, else a KeyError. |
| ProfileRegistry.MetaFor | app/yacht_profiles/__init__.py:29-39 | `{id, name, profile_id}` straight from the registry, with the key as id; a KeyError when unknown. |
| ProfileRegistry.ListYachts | app/yacht_profiles/__init__.py:42-46 | One record per key, in order, holding that key's entry. |
| ProfileRegistry.ListYachtsAgreesWithMeta | app/yacht_profiles/__init__.py:42-46 | Each listed record is what `get_yacht_meta` reports for its key, and every registered vessel is listed. |
| ProfileRegistry.DevicesFor | app/yacht_profiles/__init__.py:49-62 | An unknown vessel is a KeyError. A vessel on another profile is a ValueError naming it. A vessel on the cabin cruiser profile gets its device definitions. |
| ProfileRegistry.ShippedRegistry | app/yacht_profiles/__init__.py:9-20 | "marex-21-001" gets the cabin cruiser definitions and every other id is unknown; the listing is that one vessel, "Marex Flexi 21" on the cabin cruiser profile. |
| CabinCruiser.OutputChannels | app/yacht_profiles/default_cabin_cruiser_20_25ft.py:22-174 | The 16 outputs sit on DO1-DO16 in order, each id as the header's convention names it. |
| CabinCruiser.InputChannels | app/yacht_profiles/default_cabin_cruiser_20_25ft.py:179-308 | The 16 digital inputs sit on DI1-DI16 in order, as documented. |
| CabinCruiser.AnalogChannels | app/yacht_profiles/default_cabin_cruiser_20_25ft.py:313-380 | The 8 analog inputs sit on AI1-AI8 in order, as documented. |
| CabinCruiser.GetDevicesForProfile | app/yacht_profiles/default_cabin_cruiser_20_25ft.py:386-398 | Any id but the profile's is a ValueError. Otherwise the result is the 40 definitions: outputs, then digital inputs, then analog inputs. |
| CabinCruiserIds.IdsUnique | app/yacht_profiles/default_cabin_cruiser_20_25ft.py:44-386 | No id occurs twice across the three tables. |
| CabinCruiserIds.OverrideIsDo12 | app/yacht_profiles/default_cabin_cruiser_20_25ft.py:133-141 | `bilge_pump_auto_override` is defined, on DO12, with `ai_control` True. |

## Left out

- The code has no sensor latch or debounce, no enforcement of navigation or anchor lights by vessel mode, and no filter dropping commands whose target state already holds, so none is modelled. The bilge rules test `ai_control` for truthiness rather than as a three-valued permission. Both constant sets (30 s / 20 s in the watchkeeper, 600 s / 30 s in the policy table) are kept as written.
- Module resolution is not modelled. Python resolves `app.yacht_profiles` to the package. So `app/routers/devices.py:8` would bind the package's `get_devices_for_yacht`, which raises KeyError for every vessel but "marex-21-001" and returns the 40 cabin cruiser definitions for that one. The import of `get_scenes_for_yacht` at `app/routers/scenes.py:7` would fail, and with it the router import at `main.py:18`, so the application would not start. The routers are modelled against `app/yacht_profiles.py` instead.
- Network and model I/O:
  - fetching the snapshot, posting commands and logs, and the polling loop;
  - the OpenAI call and prompt text;
  - the `state_snapshot` and `ai_chat` endpoints;
  - the endpoint's snapshot builder.
- Setting a device and activating a scene inside the AI command endpoint are the abstract outcome `executed_as`. The modules performing them are not part of this model.
- The endpoint's device map and mode come from collaborators outside this model; they are a `Context` parameter.
- SQLite persistence, the hardware manager, `main.py`, the thin API wrappers, the device and scene forwarding helpers of the AI package, and the sensor simulator are not part of this model. The `/ai/logs` handlers in `main.py` are registered after the AI router, so the router's handlers are the ones modelled.
- Wall clock, `uuid` action ids and event timestamps are parameters (`now`, `ruleId`).
  - Times are whole seconds, so sub-second run times are not modelled.
  - `int(run_seconds)` is the run time itself.
- `print` output of the hardware shim is not modelled.
- Floats are kept as their text and never computed with.
- Decimal.PyEq: a float written in exponent notation (magnitude 10^16 or more) is taken as unequal to every integer and boolean. Python compares the binary value exactly, and deciding that from the text needs IEEE-754 rounding, which is not modelled. Below 10^16 the comparison is exact.
- JSON `null` and a missing key are both `None` in the bus records. The source differs on two entries the shipped profiles do not contain: `"type": null` raises AttributeError at `app/hardware/unified_io.py:25` where the model skips the bus, and a Modbus bus with `"id": null` is stored under the key `None` where the model reports a missing id.
- Python's `int()` is modelled for ASCII text: surrounding whitespace, a sign, digits with single underscores. Unicode digits and whitespace beyond the ASCII separators are left out.
- Request validation of `priority` and of other fields of the endpoint's schema is left out. Only the action `type` check (HTTP 422) is modelled.
- The watchkeeper writes its guard as `only_if: {bilge_float_high: true}`, while the endpoint's schema reads `only_if.device_state_equals`. The model keeps the guard as its list of device conditions. Both forms end in rejection for the override, which is level 0.
- Reading a vessel's events creates an empty list in the source (`defaultdict`). The model reads an absent vessel as empty instead, which returns the same answer.
- A scene without an `actions` key is treated as one with none. This does not arise in the shipped profile.
- Log timestamps are kept as the client's text.
- Profile fields the core never reads (bus host, port, vendor beyond the record, device names in the package tables) are carried as data only.
- Watchkeeper.Cycle: states only that the output is never empty; what the output holds is stated by ApplyHardRules and InjectNoOp.

## Findings

| source | as written | input that shows it | evidently intended | confidence | as-written member | corrected member |
|---|---|---|---|---|---|---|
| app/ai/router.py:79-139 | The status starts as "rejected" and is tested again after the `only_if` loop. So a guarded command is rejected ("Not processed") even when every condition holds. | `set_device_state` on `bilge_pump` with `only_if {bilge_float_high: True}`, devices `{bilge_pump: False, bilge_float_high: True}` | A guarded command whose conditions all hold proceeds like an unguarded one and is executed. | not executed | Admission.GuardedCommandRefused | Admission.DecideIntended |

=== FILE: admission.dfy ===
/** The backend's AI command endpoint (`apply_ai_commands` in
    app/ai/router.py): each proposed action is executed, rejected or deferred
    according to the policy levels, the current devices and the vessel mode.
    Setting a device or activating a scene is an abstract "executed" outcome. */
module Admission {
  import opened Base
  import opened Commands
  import Policy
  import Decimal

  datatype Status = Executed | Rejected | Deferred

  /** Why an action got its status (the endpoint's `reason` texts). */
  datatype Reason =
    | NoOpAcknowledged
    | DeviceNotControllable(deviceId: string)
    | DeviceSuggestionOnly(deviceId: string)
    | DeviceNotFound(deviceId: string)
    | ConditionFailed(dependsOn: string, expected: Value)
    | NotProcessed
    | DeviceExecuted
    | SceneNotControllable(sceneId: string)
    | SceneSuggestionOnly(sceneId: string)
    | AnchorWhileUnderway
    | SceneActivated

  /** The `executed_as` record; its `source` is always "ai_watchkeeper". */
  datatype ExecutedAs =
    | ExecNoOp
    | ExecSetDevice(deviceId: string, target: Value)
    | ExecActivateScene(sceneId: string)

  datatype ResultItem = ResultItem(actionId: string, status: Status, reason: Reason,
                                   executedAs: Option<ExecutedAs>)

  datatype Request = Request(yachtId: string, requestId: string, actions: seq<Action>)

  datatype Response = Response(requestId: string, yachtId: string, results: seq<ResultItem>)

  /** HTTP 422 (an action `type` outside the schema) and HTTP 400 (the body
      names another yacht). */
  datatype Error = Unprocessable | YachtMismatch

  /** The current devices (`{d.id: d.state}`) and mode, fetched by the
      endpoint from collaborators that are not part of this model. */
  datatype Context = Context(devices: map<string, Value>, mode: Option<string>)

  /** The first `only_if` condition that does not hold, in dictionary order. */
  function FirstFailing(conds: seq<(string, Value)>, devices: map<string, Value>): (r: Option<(string, Value)>)
    ensures r.None? <==> forall i :: 0 <= i < |conds| ==> Holds(conds[i], devices)
    ensures r.Some? ==> r.value in conds && !Holds(r.value, devices)
    ensures r.Some? ==> exists k :: 0 <= k < |conds| && conds[k] == r.value
                                    && forall j :: 0 <= j < k ==> Holds(conds[j], devices)
  {
    if |conds| == 0 then None
    else if !Holds(conds[0], devices) then Some(conds[0])
    else FirstFailing(conds[1..], devices)
  }

  predicate Holds(cond: (string, Value), devices: map<string, Value>) {
    cond.0 in devices && Decimal.PyEq(devices[cond.0], cond.1)
  }

  predicate IsScene(a: Action) {
    a.kind == ActivateScene || a.kind == DeactivateScene
  }

  /** The outcome for an action that names a device (as written). */
  function DecideDevice(a: Action, d: string, ctx: Context): ResultItem {
    var level := Policy.DeviceLevel(d);
    if level == 0 then ResultItem(a.actionId, Rejected, DeviceNotControllable(d), None)
    else if level == 1 then ResultItem(a.actionId, Deferred, DeviceSuggestionOnly(d), None)
    else if d !in ctx.devices then ResultItem(a.actionId, Rejected, DeviceNotFound(d), None)
    else if a.onlyIf.Some? then
      // the status starts as "rejected" and is tested again after the
      // condition loop, so a guarded action never reaches execution
      match FirstFailing(a.onlyIf.value, ctx.devices)
      case Some(c) => ResultItem(a.actionId, Rejected, ConditionFailed(c.0, c.1), None)
      case None => ResultItem(a.actionId, Rejected, NotProcessed, None)
    else ResultItem(a.actionId, Executed, DeviceExecuted, Some(ExecSetDevice(d, a.targetState)))
  }

  /** The outcome for a scene action. */
  function DecideScene(a: Action, sc: string, ctx: Context): ResultItem {
    var level := Policy.SceneLevel(sc);
    if level == 0 then ResultItem(a.actionId, Rejected, SceneNotControllable(sc), None)
    else if level == 1 then ResultItem(a.actionId, Deferred, SceneSuggestionOnly(sc), None)
    else if ctx.mode == Some("underway") && sc == "at_anchor" then
      ResultItem(a.actionId, Rejected, AnchorWhileUnderway, None)
    else ResultItem(a.actionId, Executed, SceneActivated, Some(ExecActivateScene(sc)))
  }

  /** What the policy lets through, stated on its own: a no-op; a device
      command on an allowed, present device without an `only_if`; a scene
      action on an allowed scene, except "at_anchor" while underway. */
  predicate ExecutableAsWritten(a: Action, ctx: Context) {
    || a.kind == NoOp
    || (&& a.kind == SetDeviceState && Present(a.deviceId)
        && Policy.DeviceLevel(a.deviceId.value) >= 2
        && a.deviceId.value in ctx.devices && a.onlyIf.None?)
    || (&& IsScene(a) && Present(a.sceneId)
        && Policy.SceneLevel(a.sceneId.value) >= 2
        && !(ctx.mode == Some("underway") && a.sceneId.value == "at_anchor"))
  }

  /** Suggestion-only targets are deferred. */
  predicate DeferredByPolicy(a: Action) {
    || (a.kind == SetDeviceState && Present(a.deviceId) && Policy.DeviceLevel(a.deviceId.value) == 1)
    || (IsScene(a) && Present(a.sceneId) && Policy.SceneLevel(a.sceneId.value) == 1)
  }

  /** One iteration of the endpoint's loop, as the code is written. */
  function Decide(a: Action, ctx: Context): (r: ResultItem)
    ensures r.actionId == a.actionId
    ensures r.status == Executed <==> ExecutableAsWritten(a, ctx)
    ensures r.status == Deferred <==> DeferredByPolicy(a)
    ensures r.executedAs.Some? <==> r.status == Executed
    ensures a.onlyIf.Some? && a.kind == SetDeviceState ==> r.status != Executed
    ensures r.status == Executed && a.kind == NoOp ==> r.executedAs == Some(ExecNoOp)
    ensures r.status == Executed && a.kind == SetDeviceState && a.deviceId.Some? ==>
              r.executedAs == Some(ExecSetDevice(a.deviceId.value, a.targetState))
    ensures r.status == Executed && IsScene(a) && a.sceneId.Some? ==>
              r.executedAs == Some(ExecActivateScene(a.sceneId.value))
    ensures (&& a.kind == SetDeviceState && Present(a.deviceId)
             && Policy.DeviceLevel(a.deviceId.value) >= 2 && a.deviceId.value !in ctx.devices)
            ==> r.status == Rejected && r.reason == DeviceNotFound(a.deviceId.value)
    ensures ((a.kind == SetDeviceState && !Present(a.deviceId)) || (IsScene(a) && !Present(a.sceneId))
             || a.kind.Unlisted?) ==> r.status == Rejected && r.reason == NotProcessed
    ensures a.kind == SetDeviceState && Present(a.deviceId) && Policy.DeviceLevel(a.deviceId.value) == 0 ==>
              r.reason == DeviceNotControllable(a.deviceId.value)
    ensures a.kind == SetDeviceState && Present(a.deviceId) && Policy.DeviceLevel(a.deviceId.value) == 1 ==>
              r.reason == DeviceSuggestionOnly(a.deviceId.value)
    ensures (&& a.kind == SetDeviceState && Present(a.deviceId)
             && Policy.DeviceLevel(a.deviceId.value) >= 2 && a.deviceId.value in ctx.devices && a.onlyIf.Some?)
            ==> r.status == Rejected
                && r.reason == (match FirstFailing(a.onlyIf.value, ctx.devices)
                                case Some(c) => ConditionFailed(c.0, c.1)
                                case None => NotProcessed)
    ensures IsScene(a) && Present(a.sceneId) && Policy.SceneLevel(a.sceneId.value) == 0 ==>
              r.reason == SceneNotControllable(a.sceneId.value)
    ensures IsScene(a) && Present(a.sceneId) && Policy.SceneLevel(a.sceneId.value) == 1 ==>
              r.reason == SceneSuggestionOnly(a.sceneId.value)
    ensures (&& IsScene(a) && Present(a.sceneId) && Policy.SceneLevel(a.sceneId.value) >= 2
             && ctx.mode == Some("underway") && a.sceneId.value == "at_anchor")
            ==> r.status == Rejected && r.reason == AnchorWhileUnderway
  {
    if a.kind == NoOp then ResultItem(a.actionId, Executed, NoOpAcknowledged, Some(ExecNoOp))
    else if a.kind == SetDeviceState && Present(a.deviceId) then DecideDevice(a, a.deviceId.value, ctx)
    else if IsScene(a) && Present(a.sceneId) then DecideScene(a, a.sceneId.value, ctx)
    else ResultItem(a.actionId, Rejected, NotProcessed, None)
  }

  /** The one case the corrected check decides differently: a guarded
      command on a present, allowed device whose conditions all hold. */
  predicate CorrectedBranch(a: Action, ctx: Context) {
    && a.kind == SetDeviceState && Present(a.deviceId) && a.onlyIf.Some?
    && Policy.DeviceLevel(a.deviceId.value) >= 2 && a.deviceId.value in ctx.devices
    && FirstFailing(a.onlyIf.value, ctx.devices).None?
  }

  /** The loop body with the `only_if` check as evidently intended: a guarded
      action whose conditions all hold proceeds like an unguarded one. */
  function DecideIntended(a: Action, ctx: Context): (r: ResultItem)
    ensures r.actionId == a.actionId
    ensures a.onlyIf.None? ==> r == Decide(a, ctx)
    ensures !CorrectedBranch(a, ctx) ==> r == Decide(a, ctx)
    ensures a.kind == SetDeviceState && Present(a.deviceId) && a.onlyIf.Some?
            && Policy.DeviceLevel(a.deviceId.value) >= 2 && a.deviceId.value in ctx.devices ==>
              (r.status == Executed <==>
                 forall i :: 0 <= i < |a.onlyIf.value| ==> Holds(a.onlyIf.value[i], ctx.devices))
    ensures r.status == Executed && a.kind == SetDeviceState && a.deviceId.Some? ==>
              r.executedAs == Some(ExecSetDevice(a.deviceId.value, a.targetState))
    ensures r.status == Executed && a.kind == SetDeviceState && a.onlyIf.Some? ==> r.reason == DeviceExecuted
  {
    if CorrectedBranch(a, ctx) then ResultItem(a.actionId, Executed, DeviceExecuted, Some(ExecSetDevice(a.deviceId.value, a.targetState)))
    else Decide(a, ctx)
  }

  /** The as-written check refuses a guarded command even when its guard
      holds: the bilge pump started with the float confirmed high. */
  lemma GuardedCommandRefused()
    ensures var a := Action("a1", SetDeviceState, Some("bilge_pump"), None, VBool(true), "critical",
                            Some([("bilge_float_high", VBool(true))]), "");
            var ctx := Context(map["bilge_pump" := VBool(false), "bilge_float_high" := VBool(true)], None);
            && Decide(a, ctx) == ResultItem("a1", Rejected, NotProcessed, None)
            && DecideIntended(a, ctx).status == Executed
  {
    var ctx := Context(map["bilge_pump" := VBool(false), "bilge_float_high" := VBool(true)], None);
    assert Holds(("bilge_float_high", VBool(true)), ctx.devices);
  }

  /** A condition on a float sensor holds when the sensor reads the float equal
      to the expected integer (`12.0 != 12` is false in Python): the corrected
      endpoint executes the command, and the endpoint as written answers
      "Not processed" rather than naming the condition. */
  lemma FloatConditionHolds()
    ensures var a := Action("a2", SetDeviceState, Some("bilge_pump"), None, VBool(true), "critical",
                            Some([("battery_voltage_house", VInt(12))]), "");
            var ctx := Context(map["bilge_pump" := VBool(false), "battery_voltage_house" := VFloat("12.0")], None);
            && FirstFailing(a.onlyIf.value, ctx.devices).None?
            && Decide(a, ctx) == ResultItem("a2", Rejected, NotProcessed, None)
            && DecideIntended(a, ctx).status == Executed
  {
  }

  /** The per-action results, one per action, in order. */
  function DecideAll(actions: seq<Action>, ctx: Context): (r: seq<ResultItem>)
    ensures |r| == |actions|
    ensures forall i :: 0 <= i < |actions| ==> r[i] == Decide(actions[i], ctx)
  {
    if |actions| == 0 then [] else [Decide(actions[0], ctx)] + DecideAll(actions[1..], ctx)
  }

  /** `apply_ai_commands`. Schema validation refuses an unknown action type
      before the handler runs; the handler then refuses a body for another
      yacht before looking at any action. */
  function ApplyCommands(yachtId: string, req: Request, ctx: Context): (r: Result<Response, Error>)
    ensures (exists i :: 0 <= i < |req.actions| && req.actions[i].kind.Unlisted?) ==> r == Err(Unprocessable)
    ensures r.Ok? <==> req.yachtId == yachtId && forall i :: 0 <= i < |req.actions| ==> !req.actions[i].kind.Unlisted?
    ensures r.Ok? ==> r.value.yachtId == yachtId && r.value.requestId == req.requestId
    ensures r.Ok? ==> |r.value.results| == |req.actions|
    ensures r.Ok? ==> forall i :: 0 <= i < |req.actions| ==>
              r.value.results[i].actionId == req.actions[i].actionId
              && r.value.results[i] == Decide(req.actions[i], ctx)
  {
    if exists i :: 0 <= i < |req.actions| && req.actions[i].kind.Unlisted? then Err(Unprocessable)
    else if req.yachtId != yachtId then Err(YachtMismatch)
    else Ok(Response(req.requestId, yachtId, DecideAll(req.actions, ctx)))
  }
}

=== FILE: ai_logs.dfy ===
/** The watchkeeper log of the AI router (app/routers/ai.py): per vessel, an
    append-only list of cycle summaries numbered `log-0001`, `log-0002`, ... */
module AiLogs {
  import opened Base
  import Decimal

  /** An incoming log (`AIWatchLogIn`). The timestamp is kept as the text the
      client sent; it is stored and returned, never computed with. Each action
      is an opaque JSON object. */
  datatype LogIn = LogIn(generatedAt: string, summary: string, actions: seq<map<string, Value>>,
                         mode: Option<string>)

  /** A stored log (`AIWatchLogOut`): the incoming fields plus an id. */
  datatype LogEntry = LogEntry(id: string, generatedAt: string, summary: string,
                               actions: seq<map<string, Value>>, mode: Option<string>)

  /** `AI_LOGS`: per vessel, its logs, oldest first. */
  type LogStore = map<string, seq<LogEntry>>

  function Logs(store: LogStore, yachtId: string): seq<LogEntry> {
    if yachtId in store then store[yachtId] else []
  }

  /** `_init_log_list`: a vessel seen for the first time gets an empty list. */
  function InitLogList(store: LogStore, yachtId: string): (r: (LogStore, seq<LogEntry>))
    ensures yachtId in r.0 && r.0[yachtId] == r.1 == Logs(store, yachtId)
    ensures yachtId in store ==> r.0 == store
    ensures forall y :: y != yachtId ==> (y in r.0 <==> y in store)
    ensures forall y :: y != yachtId && y in store ==> r.0[y] == store[y]
  {
    if yachtId in store then (store, store[yachtId]) else (store[yachtId := []], [])
  }

  lemma InitLogListIdempotent(store: LogStore, yachtId: string)
    ensures InitLogList(InitLogList(store, yachtId).0, yachtId) == InitLogList(store, yachtId)
  {
  }

  const IdWidth: nat := 4

  /** The id of the n-th log of a vessel: `f"log-{n:04d}"`. */
  function LogId(n: nat): (id: string)
    ensures |id| >= 4 + IdWidth && id[..4] == "log-"
  {
    Decimal.ZeroPadDenotes(n, IdWidth);
    "log-" + Decimal.ZeroPad(n, IdWidth)
  }

  /** After the prefix, the id is a run of digits denoting `n`. */
  lemma LogIdDenotes(n: nat)
    ensures Decimal.AllDigits(LogId(n)[4..]) && Decimal.DigitsValue(LogId(n)[4..]) == n
  {
    Decimal.ZeroPadDenotes(n, IdWidth);
    assert LogId(n)[4..] == Decimal.ZeroPad(n, IdWidth);
  }

  /** Distinct numbers give distinct ids. */
  lemma LogIdInjective(n: nat, m: nat)
    requires LogId(n) == LogId(m)
    ensures n == m
  {
    LogIdDenotes(n);
    LogIdDenotes(m);
  }

  lemma FirstLogIds()
    ensures LogId(1) == "log-0001" && LogId(2) == "log-0002"
  {
    assert Decimal.NatToDigits(1) == "1";
    assert Decimal.NatToDigits(2) == "2";
  }

  /** The i-th log (counting from 1) carries the id of number i. */
  predicate WellNumbered(logs: seq<LogEntry>) {
    forall i :: 0 <= i < |logs| ==> logs[i].id == LogId(i + 1)
  }

  /** `add_ai_log`: the new log is numbered one past the vessel's count and
      appended; every other vessel's list is untouched. */
  function AddAiLog(store: LogStore, yachtId: string, log: LogIn): (r: (LogStore, LogEntry))
    ensures r.1 == LogEntry(LogId(|Logs(store, yachtId)| + 1), log.generatedAt, log.summary, log.actions, log.mode)
    ensures yachtId in r.0 && r.0[yachtId] == Logs(store, yachtId) + [r.1]
    ensures forall y :: y != yachtId ==> (y in r.0 <==> y in store)
    ensures forall y :: y != yachtId && y in store ==> r.0[y] == store[y]
  {
    var (store1, logs) := InitLogList(store, yachtId);
    var entry := LogEntry(LogId(|logs| + 1), log.generatedAt, log.summary, log.actions, log.mode);
    (store1[yachtId := logs + [entry]], entry)
  }

  /** Adding keeps a vessel's list numbered 1, 2, 3, ... */
  lemma AddKeepsNumbering(store: LogStore, yachtId: string, log: LogIn)
    requires WellNumbered(Logs(store, yachtId))
    ensures WellNumbered(AddAiLog(store, yachtId, log).0[yachtId])
  {
  }

  /** In a well numbered list no two logs share an id. */
  lemma NumberedIdsDistinct(logs: seq<LogEntry>)
    requires WellNumbered(logs)
    ensures forall i, j :: 0 <= i < j < |logs| ==> logs[i].id != logs[j].id
  {
    forall i, j | 0 <= i < j < |logs|
      ensures logs[i].id != logs[j].id
    {
      if logs[i].id == logs[j].id {
        LogIdInjective(i + 1, j + 1);
      }
    }
  }

  /** Several `add_ai_log` calls in a row, oldest first. */
  function AddAll(store: LogStore, yachtId: string, logs: seq<LogIn>): (r: LogStore)
    decreases |logs|
  {
    if |logs| == 0 then store else AddAll(AddAiLog(store, yachtId, logs[0]).0, yachtId, logs[1..])
  }

  /** Any run of additions keeps a well numbered list well numbered, and
      grows it by one log per addition. */
  lemma {:induction false} AddAllNumbered(store: LogStore, yachtId: string, logs: seq<LogIn>)
    requires WellNumbered(Logs(store, yachtId))
    ensures WellNumbered(Logs(AddAll(store, yachtId, logs), yachtId))
    ensures |Logs(AddAll(store, yachtId, logs), yachtId)| == |Logs(store, yachtId)| + |logs|
    decreases |logs|
  {
    if |logs| > 0 {
      var next := AddAiLog(store, yachtId, logs[0]).0;
      AddKeepsNumbering(store, yachtId, logs[0]);
      assert Logs(next, yachtId) == next[yachtId];
      AddAllNumbered(next, yachtId, logs[1..]);
    }
  }

  /** FastAPI's `Query(50, ge=1, le=200)`: the limit defaults to 50, and one
      outside 1..200 is a 422. */
  const DefaultLimit: int := 50
  const MaxLimit: int := 200

  datatype QueryError = LimitOutOfRange(limit: int)  // HTTP 422

  /** `list_ai_logs`: the vessel's newest `limit` logs, oldest first
      (`log_list[-limit:]`). */
  function ListAiLogs(store: LogStore, yachtId: string, limit: int): (r: Result<(LogStore, seq<LogEntry>), QueryError>)
    ensures r.Err? <==> limit < 1 || limit > MaxLimit
    ensures r.Err? ==> r.error == LimitOutOfRange(limit)
    ensures r.Ok? ==> r.value.0 == InitLogList(store, yachtId).0
    ensures r.Ok? ==> var n := |Logs(store, yachtId)|;
                      |r.value.1| == (if limit < n then limit else n) &&
                      r.value.1 == Logs(store, yachtId)[n - |r.value.1|..]
  {
    if limit < 1 || limit > MaxLimit then Err(LimitOutOfRange(limit))
    else
      var (store1, logs) := InitLogList(store, yachtId);
      Ok((store1, if limit >= |logs| then logs else logs[|logs| - limit..]))
  }

  /** `list_ai_logs` called without a `limit`: the default is in range, so the
      call always answers, with the newest 50 logs or all of them. */
  function ListAiLogsDefault(store: LogStore, yachtId: string): (r: (LogStore, seq<LogEntry>))
    ensures r.0 == InitLogList(store, yachtId).0
    ensures var n := |Logs(store, yachtId)|;
            |r.1| == (if n < DefaultLimit then n else DefaultLimit) && r.1 == Logs(store, yachtId)[n - |r.1|..]
  {
    ListAiLogs(store, yachtId, DefaultLimit).value
  }

  /** The newest log is the last one listed, whatever the limit. */
  lemma NewestListedLast(store: LogStore, yachtId: string, log: LogIn, limit: int)
    requires 1 <= limit <= MaxLimit
    ensures var after := AddAiLog(store, yachtId, log);
            var listed := ListAiLogs(after.0, yachtId, limit).value.1;
            |listed| >= 1 && listed[|listed| - 1] == after.1
  {
  }
}

=== FILE: base.dfy ===
/** Shared vocabulary of the model: optional values, results, the loosely typed
    state values the backend passes around as JSON, and the few Python string
    operations the core relies on (`str.split`, `str.startswith`). */
module Base {

  /** An optional value; `None` stands for Python's `None` or a missing key. */
  datatype Option<+T> = None | Some(value: T) {
    function GetOr(default: T): T {
      match this
      case Some(v) => v
      case None => default
    }
  }

  /** The outcome of an operation that the source lets raise an exception or
      answer with an HTTP error. */
  datatype Result<+R, +E> = Ok(value: R) | Err(error: E)

  /** A device state or other JSON scalar (`StateValue` in the backend's schema).
      A float is kept as its Python `repr`, and is never computed with;
      `Decimal.PyEq` compares values as Python's `==` does. */
  datatype Value =
    | VNone
    | VBool(b: bool)
    | VInt(i: int)
    | VFloat(repr: string)
    | VStr(s: string)

  /** Python truthiness of a value. */
  predicate Truthy(v: Value) {
    match v
    case VNone => false
    case VBool(b) => b
    case VInt(i) => i != 0
    case VFloat(r) => r != "0.0" && r != "-0.0"
    case VStr(s) => s != ""
  }

  /** Python truthiness of an optional string (`None` and `""` are falsy). */
  predicate Present(s: Option<string>) {
    s.Some? && s.value != ""
  }

  /** Python's `x is True`: only the boolean singleton `True` qualifies. */
  predicate IsTrue(v: Value) {
    v == VBool(true)
  }

  /** Python's `s.startswith(p)`. */
  predicate StartsWith(s: string, p: string) {
    |p| <= |s| && s[..|p|] == p
  }

  /** Python's `s.split(sep)` for a one-character separator: the pieces
      between consecutive separators, always at least one. */
  function Split(s: string, sep: char): (parts: seq<string>)
    ensures |parts| >= 1
    ensures forall i :: 0 <= i < |parts| ==> sep !in parts[i]
    ensures |parts| == Count(s, sep) + 1
    decreases |s|
  {
    if sep !in s then [s]
    else
      var k := FirstIndex(s, sep);
      assert s == s[..k] + ([sep] + s[k + 1..]);
      CountAppend(s[..k], [sep] + s[k + 1..], sep);
      CountAppend([sep], s[k + 1..], sep);
      [s[..k]] + Split(s[k + 1..], sep)
  }

  /** Number of occurrences of `c` in `s`. */
  function Count(s: string, c: char): nat
    ensures Count(s, c) == 0 <==> c !in s
    decreases |s|
  {
    if |s| == 0 then 0 else (if s[0] == c then 1 else 0) + Count(s[1..], c)
  }

  lemma {:induction false} CountAppend(a: string, b: string, c: char)
    ensures Count(a + b, c) == Count(a, c) + Count(b, c)
    decreases |a|
  {
    if |a| == 0 {
      assert a + b == b;
    } else {
      assert (a + b)[1..] == a[1..] + b;
      CountAppend(a[1..], b, c);
    }
  }

  /** Index of the first `c` in `s`. */
  function FirstIndex(s: string, c: char): (k: nat)
    requires c in s
    ensures k < |s| && s[k] == c && c !in s[..k]
  {
    if s[0] == c then 0 else 1 + FirstIndex(s[1..], c)
  }

  /** Python's `sep.join(parts)`. */
  function Join(parts: seq<string>, sep: char): string
    requires |parts| >= 1
  {
    if |parts| == 1 then parts[0] else parts[0] + [sep] + Join(parts[1..], sep)
  }

  lemma Join3(a: string, b: string, c: string, sep: char)
    ensures Join([a, b, c], sep) == a + [sep] + b + [sep] + c
  {
    assert [a, b, c][1..] == [b, c];
    assert [b, c][1..] == [c];
    assert Join([c], sep) == c;
    assert Join([b, c], sep) == b + [sep] + c;
    assert Join([a, b, c], sep) == a + [sep] + (b + [sep] + c);
  }

  /** `Split` undoes `Join` when no piece contains the separator. */
  lemma {:induction false} SplitJoin(parts: seq<string>, sep: char)
    requires |parts| >= 1
    requires forall i :: 0 <= i < |parts| ==> sep !in parts[i]
    ensures Split(Join(parts, sep), sep) == parts
    decreases |parts|
  {
    if |parts| > 1 {
      var s := Join(parts, sep);
      var tail := Join(parts[1..], sep);
      assert s == parts[0] + [sep] + tail;
      assert s[|parts[0]|] == sep;
      FirstIndexAfterFree(parts[0], tail, sep);
      assert s[..|parts[0]|] == parts[0];
      assert s[|parts[0]| + 1..] == tail;
      SplitJoin(parts[1..], sep);
      assert parts == [parts[0]] + parts[1..];
    }
  }

  lemma FirstIndexAfterFree(a: string, b: string, c: char)
    requires c !in a
    ensures c in a + [c] + b && FirstIndex(a + [c] + b, c) == |a|
  {
    var s := a + [c] + b;
    assert s[|a|] == c;
  }

  /** `Join` undoes `Split`. */
  lemma {:induction false} JoinSplit(s: string, sep: char)
    ensures Join(Split(s, sep), sep) == s
    decreases |s|
  {
    if sep in s {
      var k := FirstIndex(s, sep);
      JoinSplit(s[k + 1..], sep);
      var parts := Split(s, sep);
      assert parts[1..] == Split(s[k + 1..], sep);
      assert s == s[..k] + [sep] + s[k + 1..];
    }
  }
}

=== FILE: cabin_cruiser.dfy ===
/** The generic I/O profile of a 20-25 ft cabin cruiser
    (app/yacht_profiles/default_cabin_cruiser_20_25ft.py): three device tables
    keyed by channel, and the lookup that hands them out. */
module CabinCruiser {
  import opened Base
  import Tables

  const ProfileId: string := "default_cabin_cruiser_20_25ft"

  datatype IoKind = DigitalOut | DigitalIn | AnalogIn

  /** The `io` entry: which kind of terminal, and its 1-based channel. */
  datatype Io = Io(kind: IoKind, channel: int)

  /** One device definition. Only the outputs carry an `ai_control` key. */
  datatype Definition = Definition(id: string, name: string, devType: string, zone: string,
                                   io: Io, aiControl: Option<bool>)

  const DigitalOutputs: seq<Definition> := [
    Definition("nav_lights", "Navigation Lights", "light", "EXTERIOR", Io(DigitalOut, 1), Some(true)),
    Definition("anchor_light", "Anchor Light", "light", "EXTERIOR", Io(DigitalOut, 2), Some(true)),
    Definition("cabin_lights", "Cabin Lights", "light", "CABIN", Io(DigitalOut, 3), Some(false)),
    Definition("cockpit_lights", "Cockpit Lights", "light", "COCKPIT", Io(DigitalOut, 4), Some(false)),
    Definition("deck_flood", "Deck Floodlight", "light", "DECK", Io(DigitalOut, 5), Some(false)),
    Definition("bilge_pump_main", "Bilge Pump \U{2013} Main", "pump", "BILGE", Io(DigitalOut, 6), Some(false)),
    Definition("fw_pump", "Fresh Water Pump", "pump", "SYSTEMS", Io(DigitalOut, 7), Some(false)),
    Definition("fridge_12v", "Fridge 12V", "load", "GALLEY", Io(DigitalOut, 8), Some(false)),
    Definition("blower", "Engine Room Blower", "fan", "ENGINE_ROOM", Io(DigitalOut, 9), Some(false)),
    Definition("horn", "Horn", "aux", "HELM", Io(DigitalOut, 10), Some(false)),
    Definition("wiper", "Wiper", "aux", "HELM", Io(DigitalOut, 11), Some(false)),
    Definition("bilge_pump_auto_override", "Bilge Pump Auto Override", "pump_control", "BILGE", Io(DigitalOut, 12), Some(true)),
    Definition("aux_lights", "Auxiliary Lights", "light", "EXTERIOR", Io(DigitalOut, 13), Some(false)),
    Definition("custom_output_1", "Custom Output 1", "aux", "CUSTOM", Io(DigitalOut, 14), Some(false)),
    Definition("custom_output_2", "Custom Output 2", "aux", "CUSTOM", Io(DigitalOut, 15), Some(false)),
    Definition("custom_output_3", "Custom Output 3", "aux", "CUSTOM", Io(DigitalOut, 16), Some(false))
  ]

  const DigitalInputs: seq<Definition> := [
    Definition("nav_switch", "Nav Lights Switch", "switch", "HELM", Io(DigitalIn, 1), None),
    Definition("anchor_switch", "Anchor Light Switch", "switch", "HELM", Io(DigitalIn, 2), None),
    Definition("cabin_light_switch", "Cabin Lights Switch", "switch", "CABIN", Io(DigitalIn, 3), None),
    Definition("cockpit_light_switch", "Cockpit Lights Switch", "switch", "COCKPIT", Io(DigitalIn, 4), None),
    Definition("bilge_float_high", "Bilge Float \U{2013} High", "sensor", "BILGE", Io(DigitalIn, 5), None),
    Definition("bilge_float_low", "Bilge Float \U{2013} Low", "sensor", "BILGE", Io(DigitalIn, 6), None),
    Definition("shore_power_present", "Shore Power Present", "sensor", "ELECTRICAL", Io(DigitalIn, 7), None),
    Definition("ignition_on", "Ignition On", "sensor", "ENGINE_ROOM", Io(DigitalIn, 8), None),
    Definition("engine_running", "Engine Running", "sensor", "ENGINE_ROOM", Io(DigitalIn, 9), None),
    Definition("door_reed_cabin", "Cabin Door Reed", "sensor", "CABIN", Io(DigitalIn, 10), None),
    Definition("smoke_fire_alarm", "Smoke / Fire Alarm", "alarm", "CABIN", Io(DigitalIn, 11), None),
    Definition("co_alarm", "CO Alarm", "alarm", "CABIN", Io(DigitalIn, 12), None),
    Definition("custom_input_1", "Custom Input 1", "sensor", "CUSTOM", Io(DigitalIn, 13), None),
    Definition("custom_input_2", "Custom Input 2", "sensor", "CUSTOM", Io(DigitalIn, 14), None),
    Definition("custom_input_3", "Custom Input 3", "sensor", "CUSTOM", Io(DigitalIn, 15), None),
    Definition("custom_input_4", "Custom Input 4", "sensor", "CUSTOM", Io(DigitalIn, 16), None)
  ]

  const AnalogInputs: seq<Definition> := [
    Definition("house_batt_v", "House Battery Voltage", "analog", "ELECTRICAL", Io(AnalogIn, 1), None),
    Definition("start_batt_v", "Start Battery Voltage", "analog", "ELECTRICAL", Io(AnalogIn, 2), None),
    Definition("fuel_level", "Fuel Level", "tank", "TANKS", Io(AnalogIn, 3), None),
    Definition("fresh_water_level", "Fresh Water Level", "tank", "TANKS", Io(AnalogIn, 4), None),
    Definition("engine_temp", "Engine Temperature", "analog", "ENGINE_ROOM", Io(AnalogIn, 5), None),
    Definition("cabin_temp", "Cabin Temperature", "analog", "CABIN", Io(AnalogIn, 6), None),
    Definition("custom_ain_1", "Custom Analog 1", "analog", "CUSTOM", Io(AnalogIn, 7), None),
    Definition("custom_ain_2", "Custom Analog 2", "analog", "CUSTOM", Io(AnalogIn, 8), None)
  ]

  const DeviceDefinitions: seq<Definition> := DigitalOutputs + DigitalInputs + AnalogInputs

  /** The channel assignment the file documents in its header comments:
      entry k names the device on channel k + 1. The header describes DI13-16
      only as custom digital inputs; the table names them custom_input_1-4. */
  const OutputConvention: seq<string> := [
    "nav_lights", "anchor_light", "cabin_lights", "cockpit_lights", "deck_flood",
    "bilge_pump_main", "fw_pump", "fridge_12v", "blower", "horn", "wiper",
    "bilge_pump_auto_override", "aux_lights", "custom_output_1", "custom_output_2",
    "custom_output_3"
  ]

  const InputConvention: seq<string> := [
    "nav_switch", "anchor_switch", "cabin_light_switch", "cockpit_light_switch",
    "bilge_float_high", "bilge_float_low", "shore_power_present", "ignition_on", "engine_running",
    "door_reed_cabin", "smoke_fire_alarm", "co_alarm", "custom_input_1", "custom_input_2",
    "custom_input_3", "custom_input_4"
  ]

  const AnalogConvention: seq<string> := [
    "house_batt_v", "start_batt_v", "fuel_level", "fresh_water_level", "engine_temp", "cabin_temp",
    "custom_ain_1", "custom_ain_2"
  ]

  /** The ids of `defs`, in order. */
  function Ids(defs: seq<Definition>): seq<string> {
    Tables.Keys(defs, (d: Definition) => d.id)
  }

  /** Entry i sits on channel i + 1 of `kind` and carries the id `names[i]`. */
  predicate Documented(defs: seq<Definition>, kind: IoKind, names: seq<string>, i: nat)
    requires i < |defs|
  {
    defs[i].io == Io(kind, i + 1) && i < |names| && defs[i].id == names[i]
  }

  /** Every entry from index `k` on is documented, checked one at a time. */
  predicate FollowsFrom(defs: seq<Definition>, kind: IoKind, names: seq<string>, k: nat)
    decreases |defs| - k
  {
    k >= |defs| || (Documented(defs, kind, names, k) && FollowsFrom(defs, kind, names, k + 1))
  }

  /** The step-by-step check and the statement about every entry agree. */
  lemma {:induction false} FollowsFromMeans(defs: seq<Definition>, kind: IoKind, names: seq<string>, k: nat)
    ensures FollowsFrom(defs, kind, names, k) <==>
              forall i :: k <= i < |defs| ==> Documented(defs, kind, names, i)
    decreases |defs| - k
  {
    if k < |defs| {
      FollowsFromMeans(defs, kind, names, k + 1);
      assert (forall i :: k <= i < |defs| ==> Documented(defs, kind, names, i)) <==>
             Documented(defs, kind, names, k) && forall i :: k + 1 <= i < |defs| ==> Documented(defs, kind, names, i);
    }
  }

  lemma OutputSecondHalf()
    ensures FollowsFrom(DigitalOutputs, DigitalOut, OutputConvention, 8)
  {
    var t, h := DigitalOutputs, OutputConvention;
    assert FollowsFrom(t, DigitalOut, h, 12);
  }

  /** Outputs occupy DO1-DO16, one each, in the documented order. */
  lemma OutputChannels()
    ensures |DigitalOutputs| == |OutputConvention| == 16
    ensures forall i :: 0 <= i < 16 ==>
              DigitalOutputs[i].io == Io(DigitalOut, i + 1) && DigitalOutputs[i].id == OutputConvention[i]
  {
    var t, h := DigitalOutputs, OutputConvention;
    OutputSecondHalf();
    assert FollowsFrom(t, DigitalOut, h, 4);
    assert FollowsFrom(t, DigitalOut, h, 0);
    FollowsFromMeans(t, DigitalOut, h, 0);
  }

  lemma InputSecondHalf()
    ensures FollowsFrom(DigitalInputs, DigitalIn, InputConvention, 8)
  {
    var t, h := DigitalInputs, InputConvention;
    assert FollowsFrom(t, DigitalIn, h, 12);
  }

  /** Digital inputs occupy DI1-DI16, one each, in the documented order. */
  lemma InputChannels()
    ensures |DigitalInputs| == |InputConvention| == 16
    ensures forall i :: 0 <= i < 16 ==>
              DigitalInputs[i].io == Io(DigitalIn, i + 1) && DigitalInputs[i].id == InputConvention[i]
  {
    var t, h := DigitalInputs, InputConvention;
    InputSecondHalf();
    assert FollowsFrom(t, DigitalIn, h, 4);
    assert FollowsFrom(t, DigitalIn, h, 0);
    FollowsFromMeans(t, DigitalIn, h, 0);
  }

  /** Analog inputs occupy AI1-AI8, one each, in the documented order. */
  lemma AnalogChannels()
    ensures |AnalogInputs| == |AnalogConvention| == 8
    ensures forall i :: 0 <= i < 8 ==>
              AnalogInputs[i].io == Io(AnalogIn, i + 1) && AnalogInputs[i].id == AnalogConvention[i]
  {
    var t, h := AnalogInputs, AnalogConvention;
    assert FollowsFrom(t, AnalogIn, h, 4);
    assert FollowsFrom(t, AnalogIn, h, 0);
    FollowsFromMeans(t, AnalogIn, h, 0);
  }

  datatype ProfileError = UnknownProfile(profileId: string)

  /** `get_devices_for_profile`: any id but this profile's is a ValueError. */
  function GetDevicesForProfile(profileId: string): (r: Result<seq<Definition>, ProfileError>)
    ensures r.Ok? <==> profileId == ProfileId
    ensures r.Err? ==> r.error == UnknownProfile(profileId)
    ensures r.Ok? ==> |r.value| == 40 && r.value[..16] == DigitalOutputs &&
                      r.value[16..32] == DigitalInputs && r.value[32..] == AnalogInputs
  {
    if profileId != ProfileId then Err(UnknownProfile(profileId)) else Ok(DeviceDefinitions)
  }
}

=== FILE: cabin_cruiser_ids.dfy ===
/** Uniqueness of the cabin cruiser's device ids, checked name by name
    against the documented channel assignment. */
module CabinCruiserIds {
  import opened Base
  import Tables
  import opened CabinCruiser

  /** The documented names, all three lists together, never repeat. */
  lemma ConventionUnique()
    ensures Tables.Distinct(OutputConvention + InputConvention + AnalogConvention)
  {
    var o, d, a := OutputConvention, InputConvention, AnalogConvention;
    OutputRows();
    InputRows();
    AnalogRows();
    Tables.DistinctByRows(o);
    Tables.DistinctByRows(d);
    Tables.DistinctByRows(a);
    Tables.DisjointByRows(o, d);
    Tables.DisjointByRows(o, a);
    Tables.DisjointByRows(d, a);
    Tables.DistinctJoin3(o, d, a);
  }

  lemma OutputRow0()
    ensures Tables.NotInFrom(OutputConvention, OutputConvention[0], 1)
    ensures Tables.NotInFrom(InputConvention, OutputConvention[0], 0)
    ensures Tables.NotInFrom(AnalogConvention, OutputConvention[0], 0)
  {
    var x := OutputConvention[0];
    var o, d, a := OutputConvention, InputConvention, AnalogConvention;
    assert x[0] != o[4][0];
    assert x[0] != o[7][0];
    assert x[0] != o[12][0];
    assert Tables.NotInFrom(o, x, 12);
    assert Tables.NotInFrom(o, x, 8);
    assert Tables.NotInFrom(o, x, 4);
    assert Tables.NotInFrom(o, x, 1);
    assert x[4] != d[0][4];
    assert Tables.NotInFrom(d, x, 12);
    assert Tables.NotInFrom(d, x, 8);
    assert Tables.NotInFrom(d, x, 4);
    assert Tables.NotInFrom(d, x, 0);
    assert x[0] != a[2][0];
    assert x[0] != a[5][0];
    assert Tables.NotInFrom(a, x, 4);
    assert Tables.NotInFrom(a, x, 0);
  }

  lemma OutputRow1()
    ensures Tables.NotInFrom(OutputConvention, OutputConvention[1], 2)
    ensures Tables.NotInFrom(InputConvention, OutputConvention[1], 0)
    ensures Tables.NotInFrom(AnalogConvention, OutputConvention[1], 0)
  {
    var x := OutputConvention[1];
    var o, d, a := OutputConvention, InputConvention, AnalogConvention;
    assert x[0] != o[2][0];
    assert Tables.NotInFrom(o, x, 12);
    assert Tables.NotInFrom(o, x, 8);
    assert Tables.NotInFrom(o, x, 4);
    assert Tables.NotInFrom(o, x, 2);
    assert Tables.NotInFrom(d, x, 12);
    assert Tables.NotInFrom(d, x, 8);
    assert Tables.NotInFrom(d, x, 4);
    assert Tables.NotInFrom(d, x, 0);
    assert x[0] != a[0][0];
    assert x[0] != a[1][0];
    assert x[0] != a[6][0];
    assert x[0] != a[7][0];
    assert Tables.NotInFrom(a, x, 4);
    assert Tables.NotInFrom(a, x, 0);
  }

  lemma OutputRow2()
    ensures Tables.NotInFrom(OutputConvention, OutputConvention[2], 3)
    ensures Tables.NotInFrom(InputConvention, OutputConvention[2], 0)
    ensures Tables.NotInFrom(AnalogConvention, OutputConvention[2], 0)
  {
    var x := OutputConvention[2];
    var o, d, a := OutputConvention, InputConvention, AnalogConvention;
    assert Tables.NotInFrom(o, x, 12);
    assert Tables.NotInFrom(o, x, 8);
    assert Tables.NotInFrom(o, x, 4);
    assert Tables.NotInFrom(o, x, 3);
    assert Tables.NotInFrom(d, x, 12);
    assert Tables.NotInFrom(d, x, 8);
    assert Tables.NotInFrom(d, x, 4);
    assert Tables.NotInFrom(d, x, 0);
    assert x[0] != a[0][0];
    assert x[0] != a[1][0];
    assert x[1] != a[6][1];
    assert x[1] != a[7][1];
    assert Tables.NotInFrom(a, x, 4);
    assert Tables.NotInFrom(a, x, 0);
  }

  lemma OutputRow3()
    ensures Tables.NotInFrom(OutputConvention, OutputConvention[3], 4)
    ensures Tables.NotInFrom(InputConvention, OutputConvention[3], 0)
    ensures Tables.NotInFrom(AnalogConvention, OutputConvention[3], 0)
  {
    var x := OutputConvention[3];
    var o, d, a := OutputConvention, InputConvention, AnalogConvention;
    assert Tables.NotInFrom(o, x, 12);
    assert Tables.NotInFrom(o, x, 8);
    assert Tables.NotInFrom(o, x, 4);
    assert x[0] != d[8][0];
    assert x[1] != d[12][1];
    assert x[1] != d[13][1];
    assert x[1] != d[14][1];
    assert x[1] != d[15][1];
    assert Tables.NotInFrom(d, x, 12);
    assert Tables.NotInFrom(d, x, 8);
    assert Tables.NotInFrom(d, x, 4);
    assert Tables.NotInFrom(d, x, 0);
    assert Tables.NotInFrom(a, x, 4);
    assert Tables.NotInFrom(a, x, 0);
  }

  lemma OutputRow4()
    ensures Tables.NotInFrom(OutputConvention, OutputConvention[4], 5)
    ensures Tables.NotInFrom(InputConvention, OutputConvention[4], 0)
    ensures Tables.NotInFrom(AnalogConvention, OutputConvention[4], 0)
  {
    var x := OutputConvention[4];
    var o, d, a := OutputConvention, InputConvention, AnalogConvention;
    assert x[0] != o[7][0];
    assert x[0] != o[12][0];
    assert Tables.NotInFrom(o, x, 12);
    assert Tables.NotInFrom(o, x, 8);
    assert Tables.NotInFrom(o, x, 5);
    assert x[0] != d[0][0];
    assert Tables.NotInFrom(d, x, 12);
    assert Tables.NotInFrom(d, x, 8);
    assert Tables.NotInFrom(d, x, 4);
    assert Tables.NotInFrom(d, x, 0);
    assert x[0] != a[2][0];
    assert x[0] != a[5][0];
    assert Tables.NotInFrom(a, x, 4);
    assert Tables.NotInFrom(a, x, 0);
  }

  lemma OutputRow5()
    ensures Tables.NotInFrom(OutputConvention, OutputConvention[5], 6)
    ensures Tables.NotInFrom(InputConvention, OutputConvention[5], 0)
    ensures Tables.NotInFrom(AnalogConvention, OutputConvention[5], 0)
  {
    var x := OutputConvention[5];
    var o, d, a := OutputConvention, InputConvention, AnalogConvention;
    assert x[0] != o[13][0];
    assert x[0] != o[14][0];
    assert x[0] != o[15][0];
    assert Tables.NotInFrom(o, x, 12);
    assert Tables.NotInFrom(o, x, 8);
    assert Tables.NotInFrom(o, x, 6);
    assert x[6] != d[5][6];
    assert x[0] != d[9][0];
    assert Tables.NotInFrom(d, x, 12);
    assert Tables.NotInFrom(d, x, 8);
    assert Tables.NotInFrom(d, x, 4);
    assert Tables.NotInFrom(d, x, 0);
    assert Tables.NotInFrom(a, x, 4);
    assert Tables.NotInFrom(a, x, 0);
  }

  lemma OutputRow6()
    ensures Tables.NotInFrom(OutputConvention, OutputConvention[6], 7)
    ensures Tables.NotInFrom(InputConvention, OutputConvention[6], 0)
    ensures Tables.NotInFrom(AnalogConvention, OutputConvention[6], 0)
  {
    var x := OutputConvention[6];
    var o, d, a := OutputConvention, InputConvention, AnalogConvention;
    assert Tables.NotInFrom(o, x, 12);
    assert Tables.NotInFrom(o, x, 8);
    assert Tables.NotInFrom(o, x, 7);
    assert Tables.NotInFrom(d, x, 12);
    assert Tables.NotInFrom(d, x, 8);
    assert Tables.NotInFrom(d, x, 4);
    assert Tables.NotInFrom(d, x, 0);
    assert Tables.NotInFrom(a, x, 4);
    assert Tables.NotInFrom(a, x, 0);
  }

  lemma OutputRow7()
    ensures Tables.NotInFrom(OutputConvention, OutputConvention[7], 8)
    ensures Tables.NotInFrom(InputConvention, OutputConvention[7], 0)
    ensures Tables.NotInFrom(AnalogConvention, OutputConvention[7], 0)
  {
    var x := OutputConvention[7];
    var o, d, a := OutputConvention, InputConvention, AnalogConvention;
    assert x[0] != o[12][0];
    assert Tables.NotInFrom(o, x, 12);
    assert Tables.NotInFrom(o, x, 8);
    assert x[0] != d[0][0];
    assert Tables.NotInFrom(d, x, 12);
    assert Tables.NotInFrom(d, x, 8);
    assert Tables.NotInFrom(d, x, 4);
    assert Tables.NotInFrom(d, x, 0);
    assert x[1] != a[2][1];
    assert x[0] != a[5][0];
    assert Tables.NotInFrom(a, x, 4);
    assert Tables.NotInFrom(a, x, 0);
  }

  lemma OutputRow8()
    ensures Tables.NotInFrom(OutputConvention, OutputConvention[8], 9)
    ensures Tables.NotInFrom(InputConvention, OutputConvention[8], 0)
    ensures Tables.NotInFrom(AnalogConvention, OutputConvention[8], 0)
  {
    var x := OutputConvention[8];
    var o, d, a := OutputConvention, InputConvention, AnalogConvention;
    assert Tables.NotInFrom(o, x, 12);
    assert Tables.NotInFrom(o, x, 9);
    assert Tables.NotInFrom(d, x, 12);
    assert Tables.NotInFrom(d, x, 8);
    assert Tables.NotInFrom(d, x, 4);
    assert Tables.NotInFrom(d, x, 0);
    assert Tables.NotInFrom(a, x, 4);
    assert Tables.NotInFrom(a, x, 0);
  }

  lemma OutputRow9()
    ensures Tables.NotInFrom(OutputConvention, OutputConvention[9], 10)
    ensures Tables.NotInFrom(InputConvention, OutputConvention[9], 0)
    ensures Tables.NotInFrom(AnalogConvention, OutputConvention[9], 0)
  {
    var x := OutputConvention[9];
    var o, d, a := OutputConvention, InputConvention, AnalogConvention;
    assert Tables.NotInFrom(o, x, 12);
    assert Tables.NotInFrom(o, x, 10);
    assert Tables.NotInFrom(d, x, 12);
    assert Tables.NotInFrom(d, x, 8);
    assert Tables.NotInFrom(d, x, 4);
    assert Tables.NotInFrom(d, x, 0);
    assert Tables.NotInFrom(a, x, 4);
    assert Tables.NotInFrom(a, x, 0);
  }

  lemma OutputRow10()
    ensures Tables.NotInFrom(OutputConvention, OutputConvention[10], 11)
    ensures Tables.NotInFrom(InputConvention, OutputConvention[10], 0)
    ensures Tables.NotInFrom(AnalogConvention, OutputConvention[10], 0)
  {
    var x := OutputConvention[10];
    var o, d, a := OutputConvention, InputConvention, AnalogConvention;
    assert Tables.NotInFrom(o, x, 12);
    assert Tables.NotInFrom(o, x, 11);
    assert Tables.NotInFrom(d, x, 12);
    assert Tables.NotInFrom(d, x, 8);
    assert Tables.NotInFrom(d, x, 4);
    assert Tables.NotInFrom(d, x, 0);
    assert Tables.NotInFrom(a, x, 4);
    assert Tables.NotInFrom(a, x, 0);
  }

  lemma OutputRow11()
    ensures Tables.NotInFrom(OutputConvention, OutputConvention[11], 12)
    ensures Tables.NotInFrom(InputConvention, OutputConvention[11], 0)
    ensures Tables.NotInFrom(AnalogConvention, OutputConvention[11], 0)
  {
    var x := OutputConvention[11];
    var o, d, a := OutputConvention, InputConvention, AnalogConvention;
    assert Tables.NotInFrom(o, x, 12);
    assert Tables.NotInFrom(d, x, 12);
    assert Tables.NotInFrom(d, x, 8);
    assert Tables.NotInFrom(d, x, 4);
    assert Tables.NotInFrom(d, x, 0);
    assert Tables.NotInFrom(a, x, 4);
    assert Tables.NotInFrom(a, x, 0);
  }

  lemma OutputRow12()
    ensures Tables.NotInFrom(OutputConvention, OutputConvention[12], 13)
    ensures Tables.NotInFrom(InputConvention, OutputConvention[12], 0)
    ensures Tables.NotInFrom(AnalogConvention, OutputConvention[12], 0)
  {
    var x := OutputConvention[12];
    var o, d, a := OutputConvention, InputConvention, AnalogConvention;
    assert Tables.NotInFrom(o, x, 13);
    assert x[0] != d[0][0];
    assert Tables.NotInFrom(d, x, 12);
    assert Tables.NotInFrom(d, x, 8);
    assert Tables.NotInFrom(d, x, 4);
    assert Tables.NotInFrom(d, x, 0);
    assert x[0] != a[2][0];
    assert x[0] != a[5][0];
    assert Tables.NotInFrom(a, x, 4);
    assert Tables.NotInFrom(a, x, 0);
  }

  lemma OutputRow13()
    ensures Tables.NotInFrom(OutputConvention, OutputConvention[13], 14)
    ensures Tables.NotInFrom(InputConvention, OutputConvention[13], 0)
    ensures Tables.NotInFrom(AnalogConvention, OutputConvention[13], 0)
  {
    var x := OutputConvention[13];
    var o, d, a := OutputConvention, InputConvention, AnalogConvention;
    assert x[14] != o[14][14];
    assert x[14] != o[15][14];
    assert Tables.NotInFrom(o, x, 14);
    assert x[0] != d[5][0];
    assert x[0] != d[9][0];
    assert Tables.NotInFrom(d, x, 12);
    assert Tables.NotInFrom(d, x, 8);
    assert Tables.NotInFrom(d, x, 4);
    assert Tables.NotInFrom(d, x, 0);
    assert Tables.NotInFrom(a, x, 4);
    assert Tables.NotInFrom(a, x, 0);
  }

  lemma OutputRow14()
    ensures Tables.NotInFrom(OutputConvention, OutputConvention[14], 15)
    ensures Tables.NotInFrom(InputConvention, OutputConvention[14], 0)
    ensures Tables.NotInFrom(AnalogConvention, OutputConvention[14], 0)
  {
    var x := OutputConvention[14];
    var o, d, a := OutputConvention, InputConvention, AnalogConvention;
    assert x[14] != o[15][14];
    assert Tables.NotInFrom(o, x, 15);
    assert x[0] != d[5][0];
    assert x[0] != d[9][0];
    assert Tables.NotInFrom(d, x, 12);
    assert Tables.NotInFrom(d, x, 8);
    assert Tables.NotInFrom(d, x, 4);
    assert Tables.NotInFrom(d, x, 0);
    assert Tables.NotInFrom(a, x, 4);
    assert Tables.NotInFrom(a, x, 0);
  }

  lemma OutputRow15()
    ensures Tables.NotInFrom(OutputConvention, OutputConvention[15], 16)
    ensures Tables.NotInFrom(InputConvention, OutputConvention[15], 0)
    ensures Tables.NotInFrom(AnalogConvention, OutputConvention[15], 0)
  {
    var x := OutputConvention[15];
    var d, a := InputConvention, AnalogConvention;
    assert x[0] != d[5][0];
    assert x[0] != d[9][0];
    assert Tables.NotInFrom(d, x, 12);
    assert Tables.NotInFrom(d, x, 8);
    assert Tables.NotInFrom(d, x, 4);
    assert Tables.NotInFrom(d, x, 0);
    assert Tables.NotInFrom(a, x, 4);
    assert Tables.NotInFrom(a, x, 0);
  }

  /** Each documented output name against every later name. */
  lemma OutputRows()
    ensures forall k :: 0 <= k < 16 ==>
                Tables.NotInFrom(OutputConvention, OutputConvention[k], k + 1) &&
                Tables.NotInFrom(InputConvention, OutputConvention[k], 0) &&
                Tables.NotInFrom(AnalogConvention, OutputConvention[k], 0)
  {
    forall k | 0 <= k < 16
      ensures Tables.NotInFrom(OutputConvention, OutputConvention[k], k + 1) && Tables.NotInFrom(InputConvention, OutputConvention[k], 0) && Tables.NotInFrom(AnalogConvention, OutputConvention[k], 0)
    {
      if k == 0 {
        OutputRow0();
      } else if k == 1 {
        OutputRow1();
      } else if k == 2 {
        OutputRow2();
      } else if k == 3 {
        OutputRow3();
      } else if k == 4 {
        OutputRow4();
      } else if k == 5 {
        OutputRow5();
      } else if k == 6 {
        OutputRow6();
      } else if k == 7 {
        OutputRow7();
      } else if k == 8 {
        OutputRow8();
      } else if k == 9 {
        OutputRow9();
      } else if k == 10 {
        OutputRow10();
      } else if k == 11 {
        OutputRow11();
      } else if k == 12 {
        OutputRow12();
      } else if k == 13 {
        OutputRow13();
      } else if k == 14 {
        OutputRow14();
      } else {
        OutputRow15();
      }
    }
  }

  lemma InputRow0()
    ensures Tables.NotInFrom(InputConvention, InputConvention[0], 1)
    ensures Tables.NotInFrom(AnalogConvention, InputConvention[0], 0)
  {
    var x := InputConvention[0];
    var d, a := InputConvention, AnalogConvention;
    assert Tables.NotInFrom(d, x, 12);
    assert Tables.NotInFrom(d, x, 8);
    assert Tables.NotInFrom(d, x, 4);
    assert Tables.NotInFrom(d, x, 1);
    assert x[0] != a[2][0];
    assert x[0] != a[5][0];
    assert Tables.NotInFrom(a, x, 4);
    assert Tables.NotInFrom(a, x, 0);
  }

  lemma InputRow1()
    ensures Tables.NotInFrom(InputConvention, InputConvention[1], 2)
    ensures Tables.NotInFrom(AnalogConvention, InputConvention[1], 0)
  {
    var x := InputConvention[1];
    var d, a := InputConvention, AnalogConvention;
    assert Tables.NotInFrom(d, x, 12);
    assert Tables.NotInFrom(d, x, 8);
    assert Tables.NotInFrom(d, x, 4);
    assert Tables.NotInFrom(d, x, 2);
    assert Tables.NotInFrom(a, x, 4);
    assert Tables.NotInFrom(a, x, 0);
  }

  lemma InputRow2()
    ensures Tables.NotInFrom(InputConvention, InputConvention[2], 3)
    ensures Tables.NotInFrom(AnalogConvention, InputConvention[2], 0)
  {
    var x := InputConvention[2];
    var d, a := InputConvention, AnalogConvention;
    assert Tables.NotInFrom(d, x, 12);
    assert Tables.NotInFrom(d, x, 8);
    assert Tables.NotInFrom(d, x, 4);
    assert Tables.NotInFrom(d, x, 3);
    assert Tables.NotInFrom(a, x, 4);
    assert Tables.NotInFrom(a, x, 0);
  }

  lemma InputRow3()
    ensures Tables.NotInFrom(InputConvention, InputConvention[3], 4)
    ensures Tables.NotInFrom(AnalogConvention, InputConvention[3], 0)
  {
    var x := InputConvention[3];
    var d, a := InputConvention, AnalogConvention;
    assert Tables.NotInFrom(d, x, 12);
    assert Tables.NotInFrom(d, x, 8);
    assert Tables.NotInFrom(d, x, 4);
    assert Tables.NotInFrom(a, x, 4);
    assert Tables.NotInFrom(a, x, 0);
  }

  lemma InputRow4()
    ensures Tables.NotInFrom(InputConvention, InputConvention[4], 5)
    ensures Tables.NotInFrom(AnalogConvention, InputConvention[4], 0)
  {
    var x := InputConvention[4];
    var d, a := InputConvention, AnalogConvention;
    assert x[0] != d[10][0];
    assert Tables.NotInFrom(d, x, 12);
    assert Tables.NotInFrom(d, x, 8);
    assert Tables.NotInFrom(d, x, 5);
    assert Tables.NotInFrom(a, x, 4);
    assert Tables.NotInFrom(a, x, 0);
  }

  lemma InputRow5()
    ensures Tables.NotInFrom(InputConvention, InputConvention[5], 6)
    ensures Tables.NotInFrom(AnalogConvention, InputConvention[5], 0)
  {
    var x := InputConvention[5];
    var d, a := InputConvention, AnalogConvention;
    assert x[0] != d[9][0];
    assert Tables.NotInFrom(d, x, 12);
    assert Tables.NotInFrom(d, x, 8);
    assert Tables.NotInFrom(d, x, 6);
    assert Tables.NotInFrom(a, x, 4);
    assert Tables.NotInFrom(a, x, 0);
  }

  lemma InputRow6()
    ensures Tables.NotInFrom(InputConvention, InputConvention[6], 7)
    ensures Tables.NotInFrom(AnalogConvention, InputConvention[6], 0)
  {
    var x := InputConvention[6];
    var d, a := InputConvention, AnalogConvention;
    assert Tables.NotInFrom(d, x, 12);
    assert Tables.NotInFrom(d, x, 8);
    assert Tables.NotInFrom(d, x, 7);
    assert Tables.NotInFrom(a, x, 4);
    assert Tables.NotInFrom(a, x, 0);
  }

  lemma InputRow7()
    ensures Tables.NotInFrom(InputConvention, InputConvention[7], 8)
    ensures Tables.NotInFrom(AnalogConvention, InputConvention[7], 0)
  {
    var x := InputConvention[7];
    var d, a := InputConvention, AnalogConvention;
    assert Tables.NotInFrom(d, x, 12);
    assert Tables.NotInFrom(d, x, 8);
    assert x[0] != a[4][0];
    assert Tables.NotInFrom(a, x, 4);
    assert Tables.NotInFrom(a, x, 0);
  }

  lemma InputRow8()
    ensures Tables.NotInFrom(InputConvention, InputConvention[8], 9)
    ensures Tables.NotInFrom(AnalogConvention, InputConvention[8], 0)
  {
    var x := InputConvention[8];
    var d, a := InputConvention, AnalogConvention;
    assert x[0] != d[12][0];
    assert x[0] != d[13][0];
    assert x[0] != d[14][0];
    assert x[0] != d[15][0];
    assert Tables.NotInFrom(d, x, 12);
    assert Tables.NotInFrom(d, x, 9);
    assert Tables.NotInFrom(a, x, 4);
    assert Tables.NotInFrom(a, x, 0);
  }

  lemma InputRow9()
    ensures Tables.NotInFrom(InputConvention, InputConvention[9], 10)
    ensures Tables.NotInFrom(AnalogConvention, InputConvention[9], 0)
  {
    var x := InputConvention[9];
    var d, a := InputConvention, AnalogConvention;
    assert Tables.NotInFrom(d, x, 12);
    assert Tables.NotInFrom(d, x, 10);
    assert Tables.NotInFrom(a, x, 4);
    assert Tables.NotInFrom(a, x, 0);
  }

  lemma InputRow10()
    ensures Tables.NotInFrom(InputConvention, InputConvention[10], 11)
    ensures Tables.NotInFrom(AnalogConvention, InputConvention[10], 0)
  {
    var x := InputConvention[10];
    var d, a := InputConvention, AnalogConvention;
    assert Tables.NotInFrom(d, x, 12);
    assert Tables.NotInFrom(d, x, 11);
    assert Tables.NotInFrom(a, x, 4);
    assert Tables.NotInFrom(a, x, 0);
  }

  lemma InputRow11()
    ensures Tables.NotInFrom(InputConvention, InputConvention[11], 12)
    ensures Tables.NotInFrom(AnalogConvention, InputConvention[11], 0)
  {
    var x := InputConvention[11];
    var d, a := InputConvention, AnalogConvention;
    assert Tables.NotInFrom(d, x, 12);
    assert Tables.NotInFrom(a, x, 4);
    assert Tables.NotInFrom(a, x, 0);
  }

  lemma InputRow12()
    ensures Tables.NotInFrom(InputConvention, InputConvention[12], 13)
    ensures Tables.NotInFrom(AnalogConvention, InputConvention[12], 0)
  {
    var x := InputConvention[12];
    var d, a := InputConvention, AnalogConvention;
    assert x[13] != d[13][13];
    assert x[13] != d[14][13];
    assert x[13] != d[15][13];
    assert Tables.NotInFrom(d, x, 13);
    assert Tables.NotInFrom(a, x, 4);
    assert Tables.NotInFrom(a, x, 0);
  }

  lemma InputRow13()
    ensures Tables.NotInFrom(InputConvention, InputConvention[13], 14)
    ensures Tables.NotInFrom(AnalogConvention, InputConvention[13], 0)
  {
    var x := InputConvention[13];
    var d, a := InputConvention, AnalogConvention;
    assert x[13] != d[14][13];
    assert x[13] != d[15][13];
    assert Tables.NotInFrom(d, x, 14);
    assert Tables.NotInFrom(a, x, 4);
    assert Tables.NotInFrom(a, x, 0);
  }

  lemma InputRow14()
    ensures Tables.NotInFrom(InputConvention, InputConvention[14], 15)
    ensures Tables.NotInFrom(AnalogConvention, InputConvention[14], 0)
  {
    var x := InputConvention[14];
    var d, a := InputConvention, AnalogConvention;
    assert x[13] != d[15][13];
    assert Tables.NotInFrom(d, x, 15);
    assert Tables.NotInFrom(a, x, 4);
    assert Tables.NotInFrom(a, x, 0);
  }

  lemma InputRow15()
    ensures Tables.NotInFrom(InputConvention, InputConvention[15], 16)
    ensures Tables.NotInFrom(AnalogConvention, InputConvention[15], 0)
  {
    var x := InputConvention[15];
    var a := AnalogConvention;
    assert Tables.NotInFrom(a, x, 4);
    assert Tables.NotInFrom(a, x, 0);
  }

  /** Each documented input name against every later name. */
  lemma InputRows()
    ensures forall k :: 0 <= k < 16 ==>
                Tables.NotInFrom(InputConvention, InputConvention[k], k + 1) &&
                Tables.NotInFrom(AnalogConvention, InputConvention[k], 0)
  {
    forall k | 0 <= k < 16
      ensures Tables.NotInFrom(InputConvention, InputConvention[k], k + 1) && Tables.NotInFrom(AnalogConvention, InputConvention[k], 0)
    {
      if k == 0 {
        InputRow0();
      } else if k == 1 {
        InputRow1();
      } else if k == 2 {
        InputRow2();
      } else if k == 3 {
        InputRow3();
      } else if k == 4 {
        InputRow4();
      } else if k == 5 {
        InputRow5();
      } else if k == 6 {
        InputRow6();
      } else if k == 7 {
        InputRow7();
      } else if k == 8 {
        InputRow8();
      } else if k == 9 {
        InputRow9();
      } else if k == 10 {
        InputRow10();
      } else if k == 11 {
        InputRow11();
      } else if k == 12 {
        InputRow12();
      } else if k == 13 {
        InputRow13();
      } else if k == 14 {
        InputRow14();
      } else {
        InputRow15();
      }
    }
  }

  lemma AnalogRow0()
    ensures Tables.NotInFrom(AnalogConvention, AnalogConvention[0], 1)
  {
    var x := AnalogConvention[0];
    var a := AnalogConvention;
    assert x[0] != a[1][0];
    assert x[0] != a[6][0];
    assert x[0] != a[7][0];
    assert Tables.NotInFrom(a, x, 4);
    assert Tables.NotInFrom(a, x, 1);
  }

  lemma AnalogRow1()
    ensures Tables.NotInFrom(AnalogConvention, AnalogConvention[1], 2)
  {
    var x := AnalogConvention[1];
    var a := AnalogConvention;
    assert x[0] != a[6][0];
    assert x[0] != a[7][0];
    assert Tables.NotInFrom(a, x, 4);
    assert Tables.NotInFrom(a, x, 2);
  }

  lemma AnalogRow2()
    ensures Tables.NotInFrom(AnalogConvention, AnalogConvention[2], 3)
  {
    var x := AnalogConvention[2];
    var a := AnalogConvention;
    assert x[0] != a[5][0];
    assert Tables.NotInFrom(a, x, 4);
    assert Tables.NotInFrom(a, x, 3);
  }

  lemma AnalogRow3()
    ensures Tables.NotInFrom(AnalogConvention, AnalogConvention[3], 4)
  {
    var x := AnalogConvention[3];
    var a := AnalogConvention;
    assert Tables.NotInFrom(a, x, 4);
  }

  lemma AnalogRow4()
    ensures Tables.NotInFrom(AnalogConvention, AnalogConvention[4], 5)
  {
    var x := AnalogConvention[4];
    var a := AnalogConvention;
    assert Tables.NotInFrom(a, x, 5);
  }

  lemma AnalogRow5()
    ensures Tables.NotInFrom(AnalogConvention, AnalogConvention[5], 6)
  {
    var x := AnalogConvention[5];
    var a := AnalogConvention;
    assert Tables.NotInFrom(a, x, 6);
  }

  lemma AnalogRow6()
    ensures Tables.NotInFrom(AnalogConvention, AnalogConvention[6], 7)
  {
    var x := AnalogConvention[6];
    var a := AnalogConvention;
    assert x[11] != a[7][11];
    assert Tables.NotInFrom(a, x, 7);
  }

  lemma AnalogRow7()
    ensures Tables.NotInFrom(AnalogConvention, AnalogConvention[7], 8)
  {
    var x := AnalogConvention[7];
  }

  /** Each documented analog name against every later name. */
  lemma AnalogRows()
    ensures forall k :: 0 <= k < 8 ==>
                Tables.NotInFrom(AnalogConvention, AnalogConvention[k], k + 1)
  {
    forall k | 0 <= k < 8
      ensures Tables.NotInFrom(AnalogConvention, AnalogConvention[k], k + 1)
    {
      if k == 0 {
        AnalogRow0();
      } else if k == 1 {
        AnalogRow1();
      } else if k == 2 {
        AnalogRow2();
      } else if k == 3 {
        AnalogRow3();
      } else if k == 4 {
        AnalogRow4();
      } else if k == 5 {
        AnalogRow5();
      } else if k == 6 {
        AnalogRow6();
      } else {
        AnalogRow7();
      }
    }
  }

  /** No id occurs twice across the three tables. */
  lemma IdsUnique()
    ensures Tables.Distinct(Ids(DeviceDefinitions))
  {
    OutputChannels();
    InputChannels();
    AnalogChannels();
    ConventionUnique();
    var names := OutputConvention + InputConvention + AnalogConvention;
    var ids := Ids(DeviceDefinitions);
    forall i | 0 <= i < |ids|
      ensures ids[i] == names[i]
    {
      if i < 16 {
        assert DeviceDefinitions[i] == DigitalOutputs[i];
      } else if i < 32 {
        assert DeviceDefinitions[i] == DigitalInputs[i - 16];
      } else {
        assert DeviceDefinitions[i] == AnalogInputs[i - 32];
      }
    }
    assert ids == names;
  }

  /** The bilge override is DO12, and it is the one output the hard rules
      drive: its `ai_control` is True. No other definition shares its id. */
  lemma OverrideIsDo12()
    ensures exists i :: 0 <= i < |DeviceDefinitions| && DeviceDefinitions[i].id == "bilge_pump_auto_override"
    ensures forall i :: 0 <= i < |DeviceDefinitions| && DeviceDefinitions[i].id == "bilge_pump_auto_override" ==>
              DeviceDefinitions[i].io == Io(DigitalOut, 12) && DeviceDefinitions[i].aiControl == Some(true)
  {
    IdsUnique();
    var ids := Ids(DeviceDefinitions);
    assert DeviceDefinitions[11] == DigitalOutputs[11];
    assert ids[11] == "bilge_pump_auto_override";
  }
}

=== FILE: commands.dfy ===
/** The command vocabulary shared by the watchkeeper and the backend's AI
    command endpoint: one proposed action of an `actions` array, and one
    device reading of a state snapshot. */
module Commands {
  import opened Base

  /** The action `type`. `Unlisted` is any other string an advisory source
      may produce; the watchkeeper passes it through, the backend's request
      schema refuses it. */
  datatype Kind =
    | SetDeviceState
    | ActivateScene
    | DeactivateScene
    | NoOp
    | Unlisted(name: string)

  /** The four `type` strings the backend's request schema accepts. */
  const ListedTypes: set<string> := {"set_device_state", "activate_scene", "deactivate_scene", "no_op"}

  /** A kind as parsed from its string: `Unlisted` never carries one of the
      four listed names, which have constructors of their own. */
  type ActionKind = k: Kind | k.Unlisted? ==> k.name !in ListedTypes witness NoOp

  /** One proposed action. `onlyIf` is `constraints.only_if` (its device
      conditions in dictionary order); a missing `constraints` and one
      without `only_if` are both `None`. Priority is kept as its string. */
  datatype Action = Action(
    actionId: string,
    kind: ActionKind,
    deviceId: Option<string>,
    sceneId: Option<string>,
    targetState: Value,
    priority: string,
    onlyIf: Option<seq<(string, Value)>>,
    reason: string)

  /** One device of a snapshot, as far as the core reads it. A missing
      `state` or `ai_control` key reads as `VNone`. */
  datatype Reading = Reading(id: string, state: Value, aiControl: Value)

  /** Python's `next((d for d in devices if d.get("id") == id), None)`:
      the first reading with that id. */
  function FindDevice(devices: seq<Reading>, id: string): (r: Option<Reading>)
    ensures r.None? <==> forall i :: 0 <= i < |devices| ==> devices[i].id != id
    ensures r.Some? ==> exists i :: 0 <= i < |devices| && devices[i] == r.value
                          && (forall j :: 0 <= j < i ==> devices[j].id != id)
    ensures r.Some? ==> r.value.id == id
  {
    if |devices| == 0 then None
    else if devices[0].id == id then Some(devices[0])
    else
      var r := FindDevice(devices[1..], id);
      if r.Some? then
        ghost var i :| 0 <= i < |devices[1..]| && devices[1..][i] == r.value
                       && (forall j :: 0 <= j < i ==> devices[1..][j].id != id);
        assert devices[i + 1] == r.value;
        r
      else r
  }
}

=== FILE: decimal.dfy ===
/** Decimal text as the backend reads and writes it: Python's `int(text)` for a
    base-10 string, the `{n:04d}` zero-padded rendering of a count, and `==`
    between state values, where a float meets an integer through its text. */
module Decimal {
  import opened Base

  predicate IsDigit(c: char) {
    '0' <= c <= '9'
  }

  predicate AllDigits(s: string) {
    forall i :: 0 <= i < |s| ==> IsDigit(s[i])
  }

  function DigitValue(c: char): nat
    requires IsDigit(c)
  {
    c as int - '0' as int
  }

  function DigitChar(d: nat): (c: char)
    requires d < 10
    ensures IsDigit(c) && DigitValue(c) == d
  {
    ('0' as int + d) as char
  }

  /** The number a run of decimal digits denotes, most significant first;
      leading zeros are allowed, as Python's `int` allows them. */
  function DigitsValue(s: string): nat
    requires AllDigits(s)
  {
    if |s| == 0 then 0 else DigitsValue(s[..|s| - 1]) * 10 + DigitValue(s[|s| - 1])
  }

  /** The shortest decimal rendering of `n` (Python's `str(n)`). */
  function NatToDigits(n: nat): (s: string)
    ensures |s| >= 1 && AllDigits(s)
    ensures |s| > 1 ==> s[0] != '0'
  {
    if n < 10 then [DigitChar(n)] else NatToDigits(n / 10) + [DigitChar(n % 10)]
  }

  /** Python's `str(i)` for an integer. */
  function IntToDecimal(i: int): string {
    if i < 0 then "-" + NatToDigits(-i) else NatToDigits(i)
  }

  /** Whether the float written `r` (its Python `repr`) equals the integer `n`
      under Python's `==`, which compares a float and an int by value. An
      integral float of magnitude below 10^16 is written as the integer's
      digits followed by ".0"; negative zero equals 0 as well. */
  predicate FloatIsInt(r: string, n: int) {
    r == IntToDecimal(n) + ".0" || (r == "-0.0" && n == 0)
  }

  /** The integer a boolean stands for in arithmetic and comparison. */
  function BoolInt(b: bool): int {
    if b then 1 else 0
  }

  /** Python's `==` between two state values: `True == 1 == 1.0` and
      `False == 0 == 0.0 == -0.0`, and `nan` equals nothing. */
  predicate PyEq(a: Value, b: Value) {
    match (a, b)
    case (VNone, VNone) => true
    case (VBool(x), VBool(y)) => x == y
    case (VInt(x), VInt(y)) => x == y
    case (VBool(x), VInt(y)) => BoolInt(x) == y
    case (VInt(x), VBool(y)) => x == BoolInt(y)
    case (VFloat(x), VInt(y)) => FloatIsInt(x, y)
    case (VInt(x), VFloat(y)) => FloatIsInt(y, x)
    case (VFloat(x), VBool(y)) => FloatIsInt(x, BoolInt(y))
    case (VBool(x), VFloat(y)) => FloatIsInt(y, BoolInt(x))
    case (VFloat(x), VFloat(y)) =>
      (x == y && x != "nan") || (x in {"0.0", "-0.0"} && y in {"0.0", "-0.0"})
    case (VStr(x), VStr(y)) => x == y
    case _ => false
  }

  lemma {:induction false} NatToDigitsValue(n: nat)
    ensures DigitsValue(NatToDigits(n)) == n
  {
    if n >= 10 {
      NatToDigitsValue(n / 10);
      var s := NatToDigits(n);
      assert s[..|s| - 1] == NatToDigits(n / 10);
    }
  }

  /** The characters Python's `int` skips around the number (the ASCII ones:
      `str.isspace` also accepts the four separators 0x1c-0x1f). */
  predicate IsSpace(c: char) {
    c == ' ' || '\t' <= c <= '\r' || '\U{1c}' <= c <= '\U{1f}'
  }

  function StripLeft(s: string): (t: string)
    ensures |t| <= |s|
    ensures |t| > 0 ==> !IsSpace(t[0])
  {
    if |s| > 0 && IsSpace(s[0]) then StripLeft(s[1..]) else s
  }

  function StripRight(s: string): (t: string)
    ensures |t| <= |s|
    ensures |t| > 0 ==> !IsSpace(t[|t| - 1])
  {
    if |s| > 0 && IsSpace(s[|s| - 1]) then StripRight(s[..|s| - 1]) else s
  }

  /** Python's `s.strip()` restricted to the characters above. */
  function Strip(s: string): string {
    StripRight(StripLeft(s))
  }

  /** A digit run as Python's `int` accepts it: digits, with single
      underscores allowed between two digits. */
  predicate DigitRun(s: string) {
    && |s| >= 1
    && IsDigit(s[0])
    && IsDigit(s[|s| - 1])
    && (forall i :: 0 <= i < |s| ==> IsDigit(s[i]) || s[i] == '_')
    && (forall i :: 0 <= i < |s| - 1 ==> !(s[i] == '_' && s[i + 1] == '_'))
  }

  function DropUnderscores(s: string): (t: string)
    requires forall i :: 0 <= i < |s| ==> IsDigit(s[i]) || s[i] == '_'
    ensures AllDigits(t)
  {
    if |s| == 0 then ""
    else if s[0] == '_' then DropUnderscores(s[1..])
    else [s[0]] + DropUnderscores(s[1..])
  }

  /** A digit run's value, or `None` when Python's `int` refuses it. */
  function ParseRun(t: string): (r: Option<nat>)
  {
    if DigitRun(t) then Some(DigitsValue(DropUnderscores(t))) else None
  }

  /** Python's `int(text)` in base 10; `None` where Python raises ValueError. */
  function ParseInt(text: string): Option<int> {
    var t := Strip(text);
    if |t| > 0 && (t[0] == '+' || t[0] == '-') then
      match ParseRun(t[1..])
      case Some(v) => var w: int := v; Some(if t[0] == '-' then -w else w)
      case None => None
    else
      match ParseRun(t)
      case Some(v) => Some(v)
      case None => None
  }

  lemma DropUnderscoresOfDigits(s: string)
    requires AllDigits(s)
    ensures DropUnderscores(s) == s
  {
    if |s| > 0 {
      DropUnderscoresOfDigits(s[1..]);
    }
  }

  lemma StripNoSpace(s: string)
    requires |s| >= 1 && (s[0] == '-' || IsDigit(s[0])) && IsDigit(s[|s| - 1])
    ensures Strip(s) == s
  {
    assert StripLeft(s) == s;
    assert StripRight(s) == s;
  }

  lemma ParseRunDigits(d: string)
    requires |d| >= 1 && AllDigits(d)
    ensures ParseRun(d) == Some(DigitsValue(d))
  {
    DropUnderscoresOfDigits(d);
  }

  lemma ParseUnsigned(d: string)
    requires |d| >= 1 && AllDigits(d)
    ensures ParseInt(d).Some? && ParseInt(d).value == DigitsValue(d) as int
  {
    StripNoSpace(d);
    ParseRunDigits(d);
    var t := Strip(d);
    assert t == d;
    assert !(t[0] == '+' || t[0] == '-');
    assert ParseRun(t) == Some(DigitsValue(d));
  }

  lemma ParseNegative(d: string)
    requires |d| >= 1 && AllDigits(d)
    ensures ParseInt("-" + d).Some? && ParseInt("-" + d).value == -(DigitsValue(d) as int)
  {
    var t := "-" + d;
    NegativeNoSpace(d);
    ParseRunDigits(d);
    assert t[0] == '-' && t[1..] == d;
    var v: int := DigitsValue(d);
    assert ParseRun(t[1..]) == Some(DigitsValue(d));
    assert ParseInt(t).Some? && ParseInt(t).value == -v;
  }

  lemma NegativeNoSpace(d: string)
    requires |d| >= 1 && AllDigits(d)
    ensures Strip("-" + d) == "-" + d
  {
    var s := "-" + d;
    assert s[0] == '-' && s[|s| - 1] == d[|d| - 1];
    StripNoSpace(s);
  }

  /** `int(str(i)) == i` for every integer. */
  lemma {:induction false} ParseIntRoundTrip(i: int)
    ensures ParseInt(IntToDecimal(i)).Some? && ParseInt(IntToDecimal(i)).value == i
  {
    if i < 0 {
      var d := NatToDigits(-i);
      NatToDigitsValue(-i);
      assert IntToDecimal(i) == "-" + d;
      ParseNegative(d);
    } else {
      var d := NatToDigits(i);
      NatToDigitsValue(i);
      assert IntToDecimal(i) == d;
      ParseUnsigned(d);
    }
  }

  /** A float equal to an integer is that integer's text followed by ".0"
      (or negative zero), so `int()` of the text before ".0" gives the
      integer back: at most one integer equals a given float. */
  lemma FloatIsIntDenotes(r: string, n: int, m: int)
    requires PyEq(VFloat(r), VInt(n))
    ensures r == "-0.0" || (|r| >= 3 && r[|r| - 2..] == ".0"
                            && ParseInt(r[..|r| - 2]).Some? && ParseInt(r[..|r| - 2]).value == n)
    ensures PyEq(VFloat(r), VInt(m)) ==> n == m
  {
    if r != "-0.0" {
      var t := IntToDecimal(n);
      assert r == t + ".0";
      assert r[..|r| - 2] == t;
      ParseIntRoundTrip(n);
      if PyEq(VFloat(r), VInt(m)) {
        assert r == IntToDecimal(m) + ".0";
        assert r[..|r| - 2] == IntToDecimal(m);
        ParseIntRoundTrip(m);
      }
    } else {
      NoNegativeZeroText(n);
      NoNegativeZeroText(m);
    }
  }

  /** No integer prints as "-0", so "-0.0" can only equal zero. */
  lemma NoNegativeZeroText(m: int)
    ensures IntToDecimal(m) + ".0" != "-0.0"
  {
    var t := IntToDecimal(m);
    if m < 0 {
      var d := NatToDigits(-m);
      NatToDigitsValue(-m);
      assert DigitsValue("0") == 0 by {
        assert "0"[..0] == [];
      }
      assert t == "-" + d && (t + ".0")[1] == d[0];
      assert |d| == 1 ==> d == [d[0]];
    } else if m > 0 {
      assert IsDigit(t[0]) && (t + ".0")[0] == t[0];
    }
  }

  /** `n` rendered with at least `width` digits, padded with leading zeros
      (Python's `f"{n:0{width}d}"` for a non-negative `n`). */
  function ZeroPad(n: nat, width: nat): string {
    var d := NatToDigits(n);
    Zeros(width - |d|) + d
  }

  function Zeros(k: int): (z: string)
    ensures |z| == (if k < 0 then 0 else k)
    ensures forall i :: 0 <= i < |z| ==> z[i] == '0'
    decreases k
  {
    if k <= 0 then "" else "0" + Zeros(k - 1)
  }

  lemma {:induction false} LeadingZeroValue(s: string)
    requires AllDigits(s)
    ensures AllDigits("0" + s) && DigitsValue("0" + s) == DigitsValue(s)
    decreases |s|
  {
    if |s| > 0 {
      var t := "0" + s;
      assert t[..|t| - 1] == "0" + s[..|s| - 1];
      LeadingZeroValue(s[..|s| - 1]);
    }
  }

  lemma {:induction false} ZerosValue(k: int, s: string)
    requires AllDigits(s)
    ensures AllDigits(Zeros(k) + s) && DigitsValue(Zeros(k) + s) == DigitsValue(s)
    decreases k
  {
    if k > 0 {
      var rest := Zeros(k - 1) + s;
      ZerosValue(k - 1, s);
      LeadingZeroValue(rest);
      assert Zeros(k) == "0" + Zeros(k - 1);
      assert Zeros(k) + s == "0" + rest;
      assert AllDigits(Zeros(k) + s);
      assert DigitsValue("0" + rest) == DigitsValue(s);
    } else {
      assert Zeros(k) + s == s;
    }
  }

  /** The padded rendering is at least `width` long, is all digits, and still
      denotes `n`; hence distinct numbers get distinct renderings. */
  lemma ZeroPadDenotes(n: nat, width: nat)
    ensures |ZeroPad(n, width)| >= width
    ensures AllDigits(ZeroPad(n, width))
    ensures DigitsValue(ZeroPad(n, width)) == n
  {
    NatToDigitsValue(n);
    ZerosValue(width - |NatToDigits(n)|, NatToDigits(n));
  }

  lemma ZeroPadInjective(n: nat, m: nat, width: nat)
    requires ZeroPad(n, width) == ZeroPad(m, width)
    ensures n == m
  {
    ZeroPadDenotes(n, width);
    ZeroPadDenotes(m, width);
  }
}

=== FILE: devices.dfy ===
/** The device router (app/routers/devices.py): the in-memory state of every
    device per vessel, listing it, and setting one device's state. */
module DeviceState {
  import opened Base
  import opened Profiles
  import Events

  /** `DEVICE_STATE`: per vessel, the current state of each device id. */
  type StateStore = map<string, map<string, Value>>

  /** The state a vessel starts with: every device of its profile off. */
  function InitialState(devs: seq<Device>): (st: map<string, Value>)
    ensures forall id :: id in st <==> exists i :: 0 <= i < |devs| && devs[i].id == id
    ensures forall id :: id in st ==> st[id] == VBool(false)
  {
    map id | id in DeviceIds(devs) :: VBool(false)
  }

  /** `_ensure_state_for_yacht`: a vessel seen for the first time gets its
      initial state; a known vessel's state is left as it is. Returns the
      store and the vessel's state. */
  function EnsureState(store: StateStore, yachtId: string): (r: (StateStore, map<string, Value>))
    ensures yachtId in r.0 && r.0[yachtId] == r.1
    ensures yachtId in store ==> r.0 == store
    ensures yachtId !in store ==> r.1 == InitialState(DevicesForYacht(yachtId))
    ensures forall y :: y != yachtId ==> (y in r.0 <==> y in store)
    ensures forall y :: y != yachtId && y in store ==> r.0[y] == store[y]
  {
    if yachtId in store then (store, store[yachtId])
    else
      var st := InitialState(DevicesForYacht(yachtId));
      (store[yachtId := st], st)
  }

  /** A second call finds the state the first one created. */
  lemma EnsureStateIdempotent(store: StateStore, yachtId: string)
    ensures EnsureState(EnsureState(store, yachtId).0, yachtId) == EnsureState(store, yachtId)
  {
  }

  /** `state.get(id)`: a missing id reads as `None`. */
  function StateOf(st: map<string, Value>, id: string): Value {
    if id in st then st[id] else VNone
  }

  /** `list_devices`: every device of the profile, in order, its `state`
      replaced by the stored one. Reading initialises the vessel's state. */
  function ListDevices(store: StateStore, yachtId: string): (r: (StateStore, seq<Device>))
    ensures r.0 == EnsureState(store, yachtId).0
    ensures |r.1| == |DefaultDevices|
    ensures forall i :: 0 <= i < |r.1| ==>
              r.1[i] == DefaultDevices[i].(state := StateOf(r.0[yachtId], DefaultDevices[i].id))
  {
    var devs := DevicesForYacht(yachtId);
    var (store1, st) := EnsureState(store, yachtId);
    (store1, seq(|devs|, i requires 0 <= i < |devs| => devs[i].(state := StateOf(st, devs[i].id))))
  }

  /** On a vessel's first listing, every device reads as off. */
  lemma FirstListingAllOff(store: StateStore, yachtId: string)
    requires yachtId !in store
    ensures forall d :: d in ListDevices(store, yachtId).1 ==> d.state == VBool(false)
  {
    var r := ListDevices(store, yachtId);
    forall d | d in r.1
      ensures d.state == VBool(false)
    {
      var i :| 0 <= i < |r.1| && r.1[i] == d;
      assert DefaultDevices[i].id in DeviceIds(DefaultDevices);
    }
  }

  datatype DeviceError = UnknownDevice(deviceId: string)  // HTTP 404

  /** The response body of a successful write. */
  datatype Ack = Ack(yachtId: string, deviceId: string, state: Value)

  const StateChanged: string := "device_state_changed"

  /** `set_device_state`: an id outside the profile is a 404 and changes
      nothing; otherwise the device takes the new state, nothing else of any
      vessel changes, and a `device_state_changed` event is recorded, from
      `web_ui` unless the request names a source. */
  function SetDeviceState(store: StateStore, events: Events.EventStore, yachtId: string, deviceId: string,
                          state: Value, source: Option<string>, now: int)
    : (r: Result<(StateStore, Events.EventStore, Ack), DeviceError>)
    ensures r.Err? <==> deviceId !in DeviceIds(DevicesForYacht(yachtId))
    ensures r.Err? ==> r.error == UnknownDevice(deviceId)
    ensures r.Ok? ==> r.value.2 == Ack(yachtId, deviceId, state)
    ensures r.Ok? ==> yachtId in r.value.0 && r.value.0[yachtId] == EnsureState(store, yachtId).1[deviceId := state]
    ensures r.Ok? ==> forall y :: y != yachtId ==> (y in r.value.0 <==> y in store)
    ensures r.Ok? ==> forall y :: y != yachtId && y in store ==> r.value.0[y] == store[y]
    ensures r.Ok? ==> |Events.Stored(r.value.1, yachtId)| >= 1
    ensures r.Ok? ==>
              Events.Stored(r.value.1, yachtId)[0] ==
              Events.Event(now, StateChanged, if Present(source) then source.value else "web_ui",
                           map["device_id" := VStr(deviceId), "new_state" := state])
  {
    if deviceId !in DeviceIds(DevicesForYacht(yachtId)) then Err(UnknownDevice(deviceId))
    else
      var (store1, st) := EnsureState(store, yachtId);
      var src := if source.Some? && source.value != "" then source.value else "web_ui";
      var details := map["device_id" := VStr(deviceId), "new_state" := state];
      Ok((store1[yachtId := st[deviceId := state]],
          Events.RecordEvent(events, yachtId, StateChanged, src, Some(details), now),
          Ack(yachtId, deviceId, state)))
  }

  /** A write is what the next listing shows: the written device reads the
      new state, every other device reads what it read before. */
  lemma SetThenList(store: StateStore, events: Events.EventStore, yachtId: string, deviceId: string,
                    state: Value, source: Option<string>, now: int)
    requires SetDeviceState(store, events, yachtId, deviceId, state, source, now).Ok?
    ensures forall i :: 0 <= i < |DefaultDevices| ==>
              ListDevices(SetDeviceState(store, events, yachtId, deviceId, state, source, now).value.0, yachtId).1[i].state ==
                if DefaultDevices[i].id == deviceId then state else ListDevices(store, yachtId).1[i].state
  {
  }
}

=== FILE: events.dfy ===
/** The in-memory event history (app/routers/events.py): one list per vessel,
    newest first, holding at most 500 events. */
module Events {
  import opened Base

  const Capacity: nat := 500

  /** One event; `timestamp` is the caller's clock reading. */
  datatype Event = Event(timestamp: int, eventType: string, source: string, details: map<string, Value>)

  /** Each vessel's events, newest first. Reading a vessel that was never
      written creates an empty list in the source; an absent key stands for it. */
  type EventStore = map<string, seq<Event>>

  function Stored(store: EventStore, yachtId: string): seq<Event> {
    if yachtId in store then store[yachtId] else []
  }

  predicate Bounded(store: EventStore) {
    forall y :: y in store ==> |store[y]| <= Capacity
  }

  /** `appendleft` on a deque bounded to 500: the new event goes first and,
      when the deque is full, the oldest one falls off the end. */
  function Prepend(evs: seq<Event>, ev: Event): (r: seq<Event>)
    ensures |r| >= 1 && r[0] == ev
    ensures |r| == if |evs| < Capacity then |evs| + 1 else Capacity
    ensures r[1..] == evs[..|r| - 1]
  {
    [ev] + (if |evs| < Capacity then evs else evs[..Capacity - 1])
  }

  /** Records `ev` in the vessel's history; other vessels are untouched. */
  function Push(store: EventStore, yachtId: string, ev: Event): (r: EventStore)
    ensures Stored(r, yachtId) == Prepend(Stored(store, yachtId), ev)
    ensures forall y :: y != yachtId ==> (y in r <==> y in store) && Stored(r, y) == Stored(store, y)
    ensures Bounded(store) ==> Bounded(r)
  {
    store[yachtId := Prepend(Stored(store, yachtId), ev)]
  }

  /** `record_event`: `details` of `None` is stored as an empty mapping. */
  function RecordEvent(store: EventStore, yachtId: string, eventType: string, source: string,
                       details: Option<map<string, Value>>, now: int): (r: EventStore)
    ensures |Stored(r, yachtId)| >= 1
    ensures Stored(r, yachtId)[0] == Event(now, eventType, source, if details.Some? then details.value else map[])
  {
    Push(store, yachtId, Event(now, eventType, source, details.GetOr(map[])))
  }

  /** Records several events, oldest first. */
  function PushAll(store: EventStore, yachtId: string, evs: seq<Event>): (r: EventStore)
    ensures Stored(r, yachtId) == PrependAll(Stored(store, yachtId), evs)
    decreases |evs|
  {
    if |evs| == 0 then store else PushAll(Push(store, yachtId, evs[0]), yachtId, evs[1..])
  }

  function PrependAll(history: seq<Event>, evs: seq<Event>): seq<Event>
    decreases |evs|
  {
    if |evs| == 0 then history else PrependAll(Prepend(history, evs[0]), evs[1..])
  }

  function Reverse(s: seq<Event>): (r: seq<Event>)
    ensures |r| == |s|
  {
    if |s| == 0 then [] else Reverse(s[1..]) + [s[0]]
  }

  function Take(s: seq<Event>, n: nat): seq<Event> {
    if |s| <= n then s else s[..n]
  }

  /** After recording `evs`, a vessel's history is the newest 500 of the
      recorded events, latest first, followed by what was there before. */
  lemma {:induction false} PushAllHistory(store: EventStore, yachtId: string, evs: seq<Event>)
    requires |Stored(store, yachtId)| <= Capacity
    ensures Stored(PushAll(store, yachtId, evs), yachtId) == Take(Reverse(evs) + Stored(store, yachtId), Capacity)
  {
    PrependAllHistory(Stored(store, yachtId), evs);
  }

  lemma {:induction false} PrependAllHistory(history: seq<Event>, evs: seq<Event>)
    requires |history| <= Capacity
    ensures PrependAll(history, evs) == Take(Reverse(evs) + history, Capacity)
    decreases |evs|
  {
    if |evs| == 0 {
      assert Reverse(evs) + history == history;
    } else {
      var e, rest := evs[0], evs[1..];
      var mid := Prepend(history, e);
      PrependTake(history, e);
      PrependAllHistory(mid, rest);
      TakeAppend(Reverse(rest), [e] + history, Capacity);
      assert Reverse(rest) + ([e] + history) == Reverse(evs) + history;
    }
  }

  lemma PrependTake(history: seq<Event>, e: Event)
    requires |history| <= Capacity
    ensures Prepend(history, e) == Take([e] + history, Capacity)
  {
    if |history| == Capacity {
      assert ([e] + history)[..Capacity] == [e] + history[..Capacity - 1];
    }
  }

  /** Truncating the tail before or after prepending gives the same prefix. */
  lemma TakeAppend(a: seq<Event>, b: seq<Event>, n: nat)
    ensures Take(a + Take(b, n), n) == Take(a + b, n)
  {
    if |b| > n {
      assert (a + b[..n])[..n] == (a + b)[..n];
      if |a + b[..n]| > n {
        assert Take(a + Take(b, n), n) == (a + b[..n])[..n];
      } else {
        assert |a| + n <= n;
        assert a + b[..n] == (a + b)[..n];
      }
    }
  }

  /** The limit `list_events` uses when the query gives none. */
  const DefaultLimit: int := 50

  /** `list_events`: Python's `list(events)[:limit]`; a negative limit
      drops that many of the oldest events instead. */
  function ListEvents(store: EventStore, yachtId: string, limit: int): (r: seq<Event>)
    ensures limit >= 0 ==> r == Stored(store, yachtId)[..if limit < |Stored(store, yachtId)| then limit else |Stored(store, yachtId)|]
    ensures limit < 0 ==> |r| == (if |Stored(store, yachtId)| + limit < 0 then 0 else |Stored(store, yachtId)| + limit)
    ensures r <= Stored(store, yachtId)
  {
    var evs := Stored(store, yachtId);
    var n := if limit >= 0 then limit else |evs| + limit;
    evs[..if n < 0 then 0 else if n < |evs| then n else |evs|]
  }

  /** `list_events` called without a `limit`: the newest 50 events, newest
      first, or all of them when fewer are stored. */
  function ListEventsDefault(store: EventStore, yachtId: string): (r: seq<Event>)
    ensures |r| == (if |Stored(store, yachtId)| < DefaultLimit then |Stored(store, yachtId)| else DefaultLimit)
    ensures forall i :: 0 <= i < |r| ==> r[i] == Stored(store, yachtId)[i]
  {
    ListEvents(store, yachtId, DefaultLimit)
  }
}

=== FILE: policy.dfy ===
/** The backend's AI control policy table (app/ai/policy.py): how far an
    automated command may act on each device and scene. Level 0 is not
    controllable, 1 suggestion only, 2 allowed. */
module Policy {
  import opened Base

  /** One device entry of the table; absent keys are `None` / empty. */
  datatype DevicePolicy = DevicePolicy(
    level: int,
    maxOnSeconds: Option<int>,
    minOffCooldownSeconds: Option<int>,
    allowedModes: seq<string>,
    maxTogglePerHour: Option<int>)

  function LevelOnly(level: int): DevicePolicy {
    DevicePolicy(level, None, None, [], None)
  }

  const DevicePolicies: map<string, DevicePolicy> := map[
    "bilge_pump" := DevicePolicy(2, Some(600), Some(30), ["underway", "at_anchor", "harbour_mode"], None),
    "battery_low_alarm" := LevelOnly(0),
    "bilge_float_high" := LevelOnly(0),
    "bilge_float_auto" := LevelOnly(0),
    "nav_lights" := DevicePolicy(1, None, None, ["underway", "at_anchor"], None),
    "courtesy_lights" := DevicePolicy(2, None, None, ["at_anchor", "harbour_mode"], Some(20)),
    "salon_lights" := LevelOnly(1),
    "cabin_lights" := LevelOnly(0)
  ]

  const ScenePolicies: map<string, int> := map[
    "underway" := 1,
    "at_anchor" := 1,
    "harbour_mode" := 2,
    "night_mode" := 1
  ]

  /** `get_device_level`: the table's level, 0 for a device it does not list. */
  function DeviceLevel(deviceId: string): (level: int)
    ensures level in {0, 1, 2}
    ensures deviceId !in DevicePolicies ==> level == 0
  {
    if deviceId in DevicePolicies then DevicePolicies[deviceId].level else 0
  }

  /** `get_scene_level`: the table's level, 0 for a scene it does not list. */
  function SceneLevel(sceneId: string): (level: int)
    ensures level in {0, 1, 2}
    ensures sceneId !in ScenePolicies ==> level == 0
  {
    if sceneId in ScenePolicies then ScenePolicies[sceneId] else 0
  }

  /** The device table by level: exactly these devices are allowed,
      exactly these are suggestion only, every other id is level 0. */
  lemma DeviceLevels(deviceId: string)
    ensures DeviceLevel(deviceId) == 2 <==> deviceId in {"bilge_pump", "courtesy_lights"}
    ensures DeviceLevel(deviceId) == 1 <==> deviceId in {"nav_lights", "salon_lights"}
    ensures DeviceLevel(deviceId) == 0 <==>
              deviceId !in {"bilge_pump", "courtesy_lights", "nav_lights", "salon_lights"}
  {
  }

  /** The scene table by level. */
  lemma SceneLevels(sceneId: string)
    ensures SceneLevel(sceneId) == 2 <==> sceneId == "harbour_mode"
    ensures SceneLevel(sceneId) == 1 <==> sceneId in {"underway", "at_anchor", "night_mode"}
  {
  }
}

=== FILE: profile_registry.dfy ===
/** The vessel registry of the profile package
    (app/yacht_profiles/__init__.py): which physical vessel uses which I/O
    profile, and the device list that profile hands out. */
module ProfileRegistry {
  import opened Base
  import CabinCruiser

  /** One registry entry: display name and profile id. */
  datatype Entry = Entry(name: string, profileId: string)

  /** A Python dict in insertion order: key/entry pairs. */
  type Registry = seq<(string, Entry)>

  /** Dict keys never repeat. */
  predicate KeysUnique(reg: Registry) {
    forall i, j :: 0 <= i < j < |reg| ==> reg[i].0 != reg[j].0
  }

  predicate Registered(reg: Registry, yachtId: string) {
    exists i :: 0 <= i < |reg| && reg[i].0 == yachtId
  }

  /** `YACHT_REGISTRY`: one vessel, on the cabin cruiser profile. */
  const Yachts: Registry := [("marex-21-001", Entry("Marex Flexi 21", CabinCruiser.ProfileId))]

  datatype RegistryError =
    | UnknownYacht(yachtId: string)          // KeyError
    | UnsupportedProfile(profileId: string)  // ValueError

  /** `YACHT_REGISTRY[yacht_id]`: the entry stored under the key. */
  function Find(reg: Registry, yachtId: string): (r: Result<Entry, RegistryError>)
    ensures r.Ok? <==> Registered(reg, yachtId)
    ensures r.Err? ==> r.error == UnknownYacht(yachtId)
    ensures r.Ok? ==> exists i :: 0 <= i < |reg| && reg[i] == (yachtId, r.value)
  {
    if |reg| == 0 then Err(UnknownYacht(yachtId))
    else if reg[0].0 == yachtId then Ok(reg[0].1)
    else
      var r := Find(reg[1..], yachtId);
      assert r.Ok? ==> exists i :: 1 <= i < |reg| && reg[i] == (yachtId, r.value) by {
        if r.Ok? {
          var i :| 0 <= i < |reg[1..]| && reg[1..][i] == (yachtId, r.value);
          assert reg[i + 1] == (yachtId, r.value);
        }
      }
      assert Registered(reg[1..], yachtId) ==> Registered(reg, yachtId) by {
        if Registered(reg[1..], yachtId) {
          var i :| 0 <= i < |reg[1..]| && reg[1..][i].0 == yachtId;
          assert reg[i + 1].0 == yachtId;
        }
      }
      r
  }

  /** With unique keys, the entry at any index is the one found under its key. */
  lemma {:induction false} FindAt(reg: Registry, i: nat)
    requires KeysUnique(reg)
    requires i < |reg|
    ensures Find(reg, reg[i].0) == Ok(reg[i].1)
  {
    if i > 0 {
      assert reg[0].0 != reg[i].0;
      assert KeysUnique(reg[1..]) by {
        forall a, b | 0 <= a < b < |reg[1..]|
          ensures reg[1..][a].0 != reg[1..][b].0
        {
          assert reg[1..][a] == reg[a + 1] && reg[1..][b] == reg[b + 1];
        }
      }
      FindAt(reg[1..], i - 1);
      assert reg[1..][i - 1] == reg[i];
    }
  }

  /** `get_profile_for_yacht`: the vessel's profile id, or KeyError. */
  function ProfileFor(reg: Registry, yachtId: string): (r: Result<string, RegistryError>)
    ensures r.Ok? <==> Registered(reg, yachtId)
    ensures r.Err? ==> r.error == UnknownYacht(yachtId)
    ensures r.Ok? ==> exists i :: 0 <= i < |reg| && reg[i].0 == yachtId && reg[i].1.profileId == r.value
  {
    match Find(reg, yachtId)
    case Ok(e) => Ok(e.profileId)
    case Err(err) => Err(err)
  }

  /** `{id, name, profile_id}` of one vessel. */
  datatype YachtMeta = YachtMeta(id: string, name: string, profileId: string)

  /** `get_yacht_meta`: the entry under the key, with the key as its id. */
  function MetaFor(reg: Registry, yachtId: string): (r: Result<YachtMeta, RegistryError>)
    ensures r.Ok? <==> Registered(reg, yachtId)
    ensures r.Err? ==> r.error == UnknownYacht(yachtId)
    ensures r.Ok? ==> r.value.id == yachtId
    ensures r.Ok? ==> exists i :: 0 <= i < |reg| && reg[i] == (yachtId, Entry(r.value.name, r.value.profileId))
  {
    match Find(reg, yachtId)
    case Ok(e) => Ok(YachtMeta(yachtId, e.name, e.profileId))
    case Err(err) => Err(err)
  }

  /** `list_yachts`: one record per key, in insertion order. */
  function ListYachts(reg: Registry): (r: seq<YachtMeta>)
    ensures |r| == |reg|
    ensures forall i :: 0 <= i < |reg| ==> r[i].id == reg[i].0 && Entry(r[i].name, r[i].profileId) == reg[i].1
  {
    if |reg| == 0 then [] else [YachtMeta(reg[0].0, reg[0].1.name, reg[0].1.profileId)] + ListYachts(reg[1..])
  }

  /** Each listed record is exactly what `get_yacht_meta` reports for its key,
      and every registered vessel is listed. */
  lemma ListYachtsAgreesWithMeta(reg: Registry)
    requires KeysUnique(reg)
    ensures forall i :: 0 <= i < |reg| ==> MetaFor(reg, ListYachts(reg)[i].id) == Ok(ListYachts(reg)[i])
    ensures forall y :: Registered(reg, y) ==> exists i :: 0 <= i < |reg| && ListYachts(reg)[i].id == y
  {
    forall i | 0 <= i < |reg|
      ensures MetaFor(reg, ListYachts(reg)[i].id) == Ok(ListYachts(reg)[i])
    {
      FindAt(reg, i);
    }
    forall y | Registered(reg, y)
      ensures exists i :: 0 <= i < |reg| && ListYachts(reg)[i].id == y
    {
      var i :| 0 <= i < |reg| && reg[i].0 == y;
      assert ListYachts(reg)[i].id == y;
    }
  }

  /** `get_devices_for_yacht`: unknown vessels are a KeyError, vessels on a
      profile other than the cabin cruiser a ValueError; otherwise the cabin
      cruiser's device definitions. */
  function DevicesFor(reg: Registry, yachtId: string): (r: Result<seq<CabinCruiser.Definition>, RegistryError>)
    ensures r.Ok? <==> ProfileFor(reg, yachtId) == Ok(CabinCruiser.ProfileId)
    ensures !Registered(reg, yachtId) ==> r == Err(UnknownYacht(yachtId))
    ensures Registered(reg, yachtId) && r.Err? ==> r.error == UnsupportedProfile(ProfileFor(reg, yachtId).value)
    ensures r.Ok? ==> r.value == CabinCruiser.DeviceDefinitions
  {
    match ProfileFor(reg, yachtId)
    case Err(err) => Err(err)
    case Ok(pid) =>
      if pid == CabinCruiser.ProfileId then
        match CabinCruiser.GetDevicesForProfile(pid)
        case Ok(defs) => Ok(defs)
        case Err(_) => Err(UnsupportedProfile(pid))
      else Err(UnsupportedProfile(pid))
  }

  /** The shipped registry: the one vessel gets the 40 cabin cruiser
      definitions; every other id is unknown. */
  lemma ShippedRegistry(yachtId: string)
    ensures yachtId == "marex-21-001" ==> DevicesFor(Yachts, yachtId) == Ok(CabinCruiser.DeviceDefinitions)
    ensures yachtId != "marex-21-001" ==> DevicesFor(Yachts, yachtId) == Err(UnknownYacht(yachtId))
    ensures ListYachts(Yachts) == [YachtMeta("marex-21-001", "Marex Flexi 21", CabinCruiser.ProfileId)]
  {
    assert Yachts[0].0 == "marex-21-001";
  }
}

=== FILE: profiles.dfy ===
/** The JSON vessel profile and its lookups (app/yacht_profiles.py). Every
    vessel id resolves to the one shipped profile; an unregistered id gets a
    copy that carries its own id. */
module Profiles {
  import opened Base
  import Tables

  /** One entry of the profile's `devices` list. */
  datatype Device = Device(id: string, name: string, zone: string, devType: string, state: Value,
                           hwId: string, aiControl: string, maxRuntimeSeconds: Option<int>,
                           requiresHumanAck: bool)

  /** One step of a scene: which device to set, and to what. */
  datatype SceneAction = SceneAction(deviceId: Option<string>, state: Value)

  datatype Scene = Scene(id: string, name: string, description: string, actions: seq<SceneAction>)

  /** One field bus of the `hardware` section. */
  datatype Bus = Bus(id: string, busType: string, vendor: string, host: string, port: int, unitId: int)

  /** The `yacht` section; either key may be missing. */
  datatype Meta = Meta(id: Option<string>, name: Option<string>)

  datatype Profile = Profile(yacht: Option<Meta>, buses: seq<Bus>, devices: seq<Device>, scenes: seq<Scene>)

  const DefaultKey: string := "default_cabin_cruiser_20_25ft"
  const DefaultName: string := "Marex Flexi 21 #001"

  /** The seven light circuits. */
  const Lights: seq<Device> := [
    Device("salon_lights", "Salon Lights", "Salon", "light", VBool(false),
           "modbus:io_main:coil:0", "allowed", None, false),
    Device("cabin_lights", "Cabin Lights", "Cabin", "light", VBool(false),
           "modbus:io_main:coil:1", "allowed", None, false),
    Device("cockpit_lights", "Cockpit Lights", "Cockpit", "light", VBool(false),
           "modbus:io_main:coil:2", "allowed", None, false),
    Device("nav_lights", "Navigation Lights (port/starboard/stern)", "Exterior", "light", VBool(false),
           "modbus:io_main:coil:3", "limited", None, true),
    Device("anchor_light", "Anchor Light", "Mast", "light", VBool(false),
           "modbus:io_main:coil:4", "limited", None, true),
    Device("deck_flood_light", "Foredeck Flood Light", "Foredeck", "light", VBool(false),
           "modbus:io_main:coil:5", "allowed", None, false),
    Device("courtesy_lights", "Courtesy / Step Lights", "Cockpit/Side Decks", "light", VBool(false),
           "modbus:io_main:coil:6", "allowed", None, false)
  ]

  /** Pumps and switched loads, the bilge override among them. */
  const Loads: seq<Device> := [
    Device("freshwater_pump", "Fresh Water Pump", "Technical", "pump", VBool(false),
           "modbus:io_main:coil:7", "limited", Some(600), false),
    Device("shower_sump_pump", "Shower Sump Pump", "Cabin / Bilge", "pump", VBool(false),
           "modbus:io_main:coil:8", "limited", Some(600), false),
    Device("bilge_pump_main", "Main Bilge Pump", "Bilge", "pump", VBool(false),
           "modbus:io_main:coil:9", "limited", Some(600), true),
    Device("bilge_pump_auto_override", "Bilge Auto Override", "Bilge", "switch", VBool(false),
           "modbus:io_main:coil:10", "never", None, true),
    Device("fridge", "Fridge", "Galley", "switch", VBool(false),
           "modbus:io_main:coil:11", "limited", None, false),
    Device("cabin_fan", "Cabin Ventilation Fan", "Cabin", "switch", VBool(false),
           "modbus:io_main:coil:12", "allowed", None, false),
    Device("windscreen_wiper", "Windscreen Wiper", "Helm", "switch", VBool(false),
           "modbus:io_main:coil:13", "never", None, true),
    Device("horn", "Horn", "Helm", "switch", VBool(false),
           "modbus:io_main:coil:14", "never", None, true),
    Device("inverter_power", "Inverter On/Off", "Technical", "switch", VBool(false),
           "modbus:io_main:coil:15", "limited", None, true),
    Device("cabin_heater", "Cabin Heater / Diesel Heater", "Cabin/Technical", "switch", VBool(false),
           "modbus:io_main:coil:16", "limited", None, true)
  ]

  /** Sensors, alarms and helm buttons. */
  const Inputs: seq<Device> := [
    Device("bilge_float_high", "Bilge High Level Float", "Bilge", "sensor", VNone,
           "modbus:io_main:input:0", "never", None, false),
    Device("bilge_float_auto", "Bilge Auto Float", "Bilge", "sensor", VNone,
           "modbus:io_main:input:1", "never", None, false),
    Device("cabin_door_contact", "Cabin Door Contact", "Cabin", "sensor", VNone,
           "modbus:io_main:input:2", "never", None, false),
    Device("engine_room_door_contact", "Engine Space Access Hatch", "Engine Room / Aft", "sensor", VNone,
           "modbus:io_main:input:3", "never", None, false),
    Device("helm_anchor_scene_button", "Helm \U{201c}At Anchor\U{201d} Button", "Helm", "switch", VBool(false),
           "modbus:io_main:input:4", "never", None, false),
    Device("helm_night_scene_button", "Helm \U{201c}Night Mode\U{201d} Button", "Helm", "switch", VBool(false),
           "modbus:io_main:input:5", "never", None, false),
    Device("shore_power_present", "Shore Power Present", "Technical", "sensor", VNone,
           "modbus:io_main:input:6", "never", None, false),
    Device("battery_low_alarm", "Battery Low Alarm Input", "Technical", "sensor", VNone,
           "modbus:io_main:input:7", "never", None, false),
    Device("fresh_water_tank_level", "Fresh Water Tank Level", "Tanks", "sensor", VNone,
           "modbus:io_main:holding:0", "never", None, false),
    Device("fuel_tank_level", "Fuel Tank Level", "Tanks", "sensor", VNone,
           "modbus:io_main:holding:1", "never", None, false),
    Device("battery_voltage_house", "House Battery Voltage", "Electrical", "sensor", VNone,
           "modbus:io_main:holding:2", "never", None, false),
    Device("battery_voltage_engine", "Engine Battery Voltage", "Electrical", "sensor", VNone,
           "modbus:io_main:holding:3", "never", None, false),
    Device("engine_room_temp", "Engine Room Temperature", "Engine Room", "sensor", VNone,
           "modbus:io_main:holding:4", "never", None, false)
  ]

  /** The profile's `devices` list, in file order. */
  const DefaultDevices: seq<Device> := Lights + Loads + Inputs

  const DefaultScenes: seq<Scene> := [
    Scene("at_anchor", "At Anchor",
          "At anchor configuration: anchor + cockpit + courtesy lights.",
          [SceneAction(Some("anchor_light"), VBool(true)),
             SceneAction(Some("cockpit_lights"), VBool(true)),
             SceneAction(Some("salon_lights"), VBool(false)),
             SceneAction(Some("courtesy_lights"), VBool(true)),
             SceneAction(Some("nav_lights"), VBool(false))]),
    Scene("night_mode", "Night Mode",
          "Night mode for cabins and courtesy lights.",
          [SceneAction(Some("salon_lights"), VBool(false)),
             SceneAction(Some("cabin_lights"), VBool(true)),
             SceneAction(Some("cockpit_lights"), VBool(false)),
             SceneAction(Some("courtesy_lights"), VBool(true))]),
    Scene("underway", "Underway",
          "Underway running lights configuration.",
          [SceneAction(Some("nav_lights"), VBool(true)),
             SceneAction(Some("anchor_light"), VBool(false)),
             SceneAction(Some("cockpit_lights"), VBool(true)),
             SceneAction(Some("salon_lights"), VBool(false))]),
    Scene("harbour_mode", "In Harbour",
          "Harbour mode lighting.",
          [SceneAction(Some("nav_lights"), VBool(false)),
             SceneAction(Some("anchor_light"), VBool(false)),
             SceneAction(Some("cockpit_lights"), VBool(true)),
             SceneAction(Some("salon_lights"), VBool(true)),
             SceneAction(Some("courtesy_lights"), VBool(true))])
  ]

  const DefaultProfile: Profile :=
    Profile(Some(Meta(Some("marex-21-001"), Some(DefaultName))), [Bus("io_main", "modbus_tcp", "generic", "192.168.10.50", 502, 1)], DefaultDevices, DefaultScenes)

  /** `PROFILES` in insertion order: both keys share the one profile. */
  const Registry: seq<(string, Profile)> := [(DefaultKey, DefaultProfile), ("marex-21-001", DefaultProfile)]

  predicate IsKey(reg: seq<(string, Profile)>, key: string) {
    exists i :: 0 <= i < |reg| && reg[i].0 == key
  }

  /** Dictionary lookup: the entry stored under `key`. */
  function Lookup(reg: seq<(string, Profile)>, key: string): (r: Option<Profile>)
    ensures r.Some? <==> IsKey(reg, key)
    ensures r.Some? ==> exists i :: 0 <= i < |reg| && reg[i] == (key, r.value)
  {
    if |reg| == 0 then None
    else if reg[0].0 == key then Some(reg[0].1)
    else
      var r := Lookup(reg[1..], key);
      assert r.Some? ==> exists i :: 1 <= i < |reg| && reg[i] == (key, r.value) by {
        if r.Some? {
          var i :| 0 <= i < |reg[1..]| && reg[1..][i] == (key, r.value);
          assert reg[i + 1] == (key, r.value);
        }
      }
      assert IsKey(reg[1..], key) ==> IsKey(reg, key) by {
        if IsKey(reg[1..], key) {
          var i :| 0 <= i < |reg[1..]| && reg[1..][i].0 == key;
          assert reg[i + 1].0 == key;
        }
      }
      r
  }

  /** `copy.deepcopy` plus `setdefault`: the copy's `yacht.id` becomes the
      requested id; its name is kept when present, else "Boat <id>". */
  function CopyFor(base: Profile, yachtId: string): (p: Profile)
    ensures p.yacht.Some? && p.yacht.value.id == Some(yachtId)
    ensures base.yacht.Some? && base.yacht.value.name.Some? ==> p.yacht.value.name == base.yacht.value.name
    ensures base.yacht.None? || base.yacht.value.name.None? ==> p.yacht.value.name == Some("Boat " + yachtId)
    ensures p.buses == base.buses && p.devices == base.devices && p.scenes == base.scenes
  {
    var meta := base.yacht.GetOr(Meta(None, None));
    var name := if meta.name.Some? then meta.name else Some("Boat " + yachtId);
    base.(yacht := Some(Meta(Some(yachtId), name)))
  }

  /** `_get_profile_for_yacht`: a registered id gets the shared profile, any
      other id a copy naming itself; the name stays the default's, because
      `setdefault` does not overwrite it. */
  function ProfileForYacht(yachtId: string): (p: Profile)
    ensures IsKey(Registry, yachtId) ==> p == DefaultProfile
    ensures !IsKey(Registry, yachtId) ==> p.yacht == Some(Meta(Some(yachtId), Some(DefaultName)))
    ensures p.buses == DefaultProfile.buses && p.devices == DefaultDevices && p.scenes == DefaultScenes
  {
    match Lookup(Registry, yachtId)
    case Some(p) => p
    case None => CopyFor(DefaultProfile, yachtId)
  }

  /** `get_devices_for_yacht`: every vessel sees the same device list. */
  function DevicesForYacht(yachtId: string): (r: seq<Device>)
    ensures r == DefaultDevices
  {
    ProfileForYacht(yachtId).devices
  }

  /** `get_scenes_for_yacht`: every vessel sees the same scenes. */
  function ScenesForYacht(yachtId: string): (r: seq<Scene>)
    ensures r == DefaultScenes
  {
    ProfileForYacht(yachtId).scenes
  }

  /** What `get_yacht_meta` reports. */
  datatype YachtInfo = YachtInfo(id: string, name: string, buses: seq<Bus>)

  /** `get_yacht_meta`: missing keys fall back to the requested id and to
      "Boat <id>". A registered key reports the profile's own id, which for
      the default key is not the key asked for. */
  function GetYachtMeta(yachtId: string): (m: YachtInfo)
    ensures m.buses == DefaultProfile.buses
    ensures m.name == DefaultName
    ensures m.id == if IsKey(Registry, yachtId) then "marex-21-001" else yachtId
  {
    var p := ProfileForYacht(yachtId);
    var meta := p.yacht.GetOr(Meta(None, None));
    YachtInfo(meta.id.GetOr(yachtId), meta.name.GetOr("Boat " + yachtId), p.buses)
  }

  lemma DefaultKeyReportsOtherId()
    ensures GetYachtMeta(DefaultKey).id == "marex-21-001" != DefaultKey
  {
    assert Registry[0].0 == DefaultKey;
  }

  /** One entry of `list_known_yachts`. */
  datatype KnownYacht = KnownYacht(id: string, name: string)

  /** `list_known_yachts`: one entry per registry key, in order, named after
      the profile's vessel, or after the key when the profile has no name. */
  function ListKnownYachts(reg: seq<(string, Profile)>): (r: seq<KnownYacht>)
    ensures |r| == |reg|
    ensures forall i :: 0 <= i < |reg| ==> r[i].id == reg[i].0
    ensures forall i :: 0 <= i < |reg| ==>
              r[i].name == if reg[i].1.yacht.Some? && reg[i].1.yacht.value.name.Some?
                           then reg[i].1.yacht.value.name.value else reg[i].0
  {
    if |reg| == 0 then []
    else
      var meta := reg[0].1.yacht.GetOr(Meta(None, None));
      [KnownYacht(reg[0].0, meta.name.GetOr(reg[0].0))] + ListKnownYachts(reg[1..])
  }

  /** Both registry keys are listed under the one profile's name. */
  lemma KnownYachts()
    ensures ListKnownYachts(Registry) ==
              [KnownYacht(DefaultKey, DefaultName), KnownYacht("marex-21-001", DefaultName)]
  {
  }

  /** The ids of `devs`, in order. */
  function DeviceIds(devs: seq<Device>): seq<string> {
    Tables.Keys(devs, (d: Device) => d.id)
  }

  /** `devs` defines a device called `id`. */
  predicate Defines(devs: seq<Device>, id: string) {
    exists i :: 0 <= i < |devs| && devs[i].id == id
  }
}

=== FILE: profiles_ids.dfy ===
/** Consistency of the shipped JSON profile: device ids are unique, and every
    scene names devices the profile defines. */
module ProfileChecks {
  import opened Base
  import Tables
  import opened Profiles

  /** Device `i` carries the id `names[i]`. */
  predicate Named(devs: seq<Device>, names: seq<string>, i: nat)
    requires i < |devs|
  {
    i < |names| && devs[i].id == names[i]
  }

  /** Every device from index `k` on carries its listed id, checked one at a time. */
  predicate NamedFrom(devs: seq<Device>, names: seq<string>, k: nat)
    decreases |devs| - k
  {
    k >= |devs| || (Named(devs, names, k) && NamedFrom(devs, names, k + 1))
  }

  lemma {:induction false} NamedFromMeans(devs: seq<Device>, names: seq<string>, k: nat)
    ensures NamedFrom(devs, names, k) <==> forall i :: k <= i < |devs| ==> Named(devs, names, i)
    decreases |devs| - k
  {
    if k < |devs| {
      NamedFromMeans(devs, names, k + 1);
      assert (forall i :: k <= i < |devs| ==> Named(devs, names, i)) <==>
             Named(devs, names, k) && forall i :: k + 1 <= i < |devs| ==> Named(devs, names, i);
    }
  }

  /** The ids of `Lights`, written out. */
  const LightsIds: seq<string> := [
    "salon_lights", "cabin_lights", "cockpit_lights", "nav_lights", "anchor_light",
    "deck_flood_light", "courtesy_lights"
  ]

  /** The ids of `Loads`, written out. */
  const LoadsIds: seq<string> := [
    "freshwater_pump", "shower_sump_pump", "bilge_pump_main", "bilge_pump_auto_override", "fridge",
    "cabin_fan", "windscreen_wiper", "horn", "inverter_power", "cabin_heater"
  ]

  /** The ids of `Inputs`, written out. */
  const InputsIds: seq<string> := [
    "bilge_float_high", "bilge_float_auto", "cabin_door_contact", "engine_room_door_contact",
    "helm_anchor_scene_button", "helm_night_scene_button", "shore_power_present",
    "battery_low_alarm", "fresh_water_tank_level", "fuel_tank_level", "battery_voltage_house",
    "battery_voltage_engine", "engine_room_temp"
  ]

  lemma LightsRow0()
    ensures Tables.NotInFrom(LightsIds, LightsIds[0], 1)
    ensures Tables.NotInFrom(LoadsIds, LightsIds[0], 0)
    ensures Tables.NotInFrom(InputsIds, LightsIds[0], 0)
  {
    var x := LightsIds[0];
    var l, p, s := LightsIds, LoadsIds, InputsIds;
    assert x[0] != l[1][0];
    assert x[0] != l[4][0];
    assert Tables.NotInFrom(l, x, 3);
    assert Tables.NotInFrom(l, x, 1);
    assert x[0] != p[9][0];
    assert Tables.NotInFrom(p, x, 6);
    assert Tables.NotInFrom(p, x, 2);
    assert Tables.NotInFrom(p, x, 0);
    assert Tables.NotInFrom(s, x, 9);
    assert Tables.NotInFrom(s, x, 5);
    assert Tables.NotInFrom(s, x, 1);
    assert Tables.NotInFrom(s, x, 0);
  }

  lemma LightsRow1()
    ensures Tables.NotInFrom(LightsIds, LightsIds[1], 2)
    ensures Tables.NotInFrom(LoadsIds, LightsIds[1], 0)
    ensures Tables.NotInFrom(InputsIds, LightsIds[1], 0)
  {
    var x := LightsIds[1];
    var l, p, s := LightsIds, LoadsIds, InputsIds;
    assert x[0] != l[4][0];
    assert Tables.NotInFrom(l, x, 3);
    assert Tables.NotInFrom(l, x, 2);
    assert x[6] != p[9][6];
    assert Tables.NotInFrom(p, x, 6);
    assert Tables.NotInFrom(p, x, 2);
    assert Tables.NotInFrom(p, x, 0);
    assert Tables.NotInFrom(s, x, 9);
    assert Tables.NotInFrom(s, x, 5);
    assert Tables.NotInFrom(s, x, 1);
    assert Tables.NotInFrom(s, x, 0);
  }

  lemma LightsRow2()
    ensures Tables.NotInFrom(LightsIds, LightsIds[2], 3)
    ensures Tables.NotInFrom(LoadsIds, LightsIds[2], 0)
    ensures Tables.NotInFrom(InputsIds, LightsIds[2], 0)
  {
    var x := LightsIds[2];
    var l, p, s := LightsIds, LoadsIds, InputsIds;
    assert Tables.NotInFrom(l, x, 3);
    assert x[0] != p[8][0];
    assert Tables.NotInFrom(p, x, 6);
    assert Tables.NotInFrom(p, x, 2);
    assert Tables.NotInFrom(p, x, 0);
    assert Tables.NotInFrom(s, x, 9);
    assert Tables.NotInFrom(s, x, 5);
    assert Tables.NotInFrom(s, x, 1);
    assert Tables.NotInFrom(s, x, 0);
  }

  lemma LightsRow3()
    ensures Tables.NotInFrom(LightsIds, LightsIds[3], 4)
    ensures Tables.NotInFrom(LoadsIds, LightsIds[3], 0)
    ensures Tables.NotInFrom(InputsIds, LightsIds[3], 0)
  {
    var x := LightsIds[3];
    var l, p, s := LightsIds, LoadsIds, InputsIds;
    assert Tables.NotInFrom(l, x, 4);
    assert Tables.NotInFrom(p, x, 6);
    assert Tables.NotInFrom(p, x, 2);
    assert Tables.NotInFrom(p, x, 0);
    assert Tables.NotInFrom(s, x, 9);
    assert Tables.NotInFrom(s, x, 5);
    assert Tables.NotInFrom(s, x, 1);
    assert Tables.NotInFrom(s, x, 0);
  }

  lemma LightsRow4()
    ensures Tables.NotInFrom(LightsIds, LightsIds[4], 5)
    ensures Tables.NotInFrom(LoadsIds, LightsIds[4], 0)
    ensures Tables.NotInFrom(InputsIds, LightsIds[4], 0)
  {
    var x := LightsIds[4];
    var l, p, s := LightsIds, LoadsIds, InputsIds;
    assert Tables.NotInFrom(l, x, 5);
    assert x[0] != p[9][0];
    assert Tables.NotInFrom(p, x, 6);
    assert Tables.NotInFrom(p, x, 2);
    assert Tables.NotInFrom(p, x, 0);
    assert Tables.NotInFrom(s, x, 9);
    assert Tables.NotInFrom(s, x, 5);
    assert Tables.NotInFrom(s, x, 1);
    assert Tables.NotInFrom(s, x, 0);
  }

  lemma LightsRow5()
    ensures Tables.NotInFrom(LightsIds, LightsIds[5], 6)
    ensures Tables.NotInFrom(LoadsIds, LightsIds[5], 0)
    ensures Tables.NotInFrom(InputsIds, LightsIds[5], 0)
  {
    var x := LightsIds[5];
    var l, p, s := LightsIds, LoadsIds, InputsIds;
    assert Tables.NotInFrom(l, x, 6);
    assert x[0] != p[1][0];
    assert x[0] != p[6][0];
    assert Tables.NotInFrom(p, x, 6);
    assert Tables.NotInFrom(p, x, 2);
    assert Tables.NotInFrom(p, x, 0);
    assert x[0] != s[0][0];
    assert x[0] != s[1][0];
    assert x[0] != s[12][0];
    assert Tables.NotInFrom(s, x, 9);
    assert Tables.NotInFrom(s, x, 5);
    assert Tables.NotInFrom(s, x, 1);
    assert Tables.NotInFrom(s, x, 0);
  }

  lemma LightsRow6()
    ensures Tables.NotInFrom(LightsIds, LightsIds[6], 7)
    ensures Tables.NotInFrom(LoadsIds, LightsIds[6], 0)
    ensures Tables.NotInFrom(InputsIds, LightsIds[6], 0)
  {
    var x := LightsIds[6];
    var p, s := LoadsIds, InputsIds;
    assert x[0] != p[0][0];
    assert x[0] != p[2][0];
    assert Tables.NotInFrom(p, x, 6);
    assert Tables.NotInFrom(p, x, 2);
    assert Tables.NotInFrom(p, x, 0);
    assert x[0] != s[9][0];
    assert Tables.NotInFrom(s, x, 9);
    assert Tables.NotInFrom(s, x, 5);
    assert Tables.NotInFrom(s, x, 1);
    assert Tables.NotInFrom(s, x, 0);
  }

  /** Each id of `Lights` against every later id. */
  lemma LightsRows()
    ensures forall k :: 0 <= k < 7 ==>
                Tables.NotInFrom(LightsIds, LightsIds[k], k + 1) &&
                Tables.NotInFrom(LoadsIds, LightsIds[k], 0) &&
                Tables.NotInFrom(InputsIds, LightsIds[k], 0)
  {
    forall k | 0 <= k < 7
      ensures Tables.NotInFrom(LightsIds, LightsIds[k], k + 1) && Tables.NotInFrom(LoadsIds, LightsIds[k], 0) && Tables.NotInFrom(InputsIds, LightsIds[k], 0)
    {
      if k == 0 {
        LightsRow0();
      } else if k == 1 {
        LightsRow1();
      } else if k == 2 {
        LightsRow2();
      } else if k == 3 {
        LightsRow3();
      } else if k == 4 {
        LightsRow4();
      } else if k == 5 {
        LightsRow5();
      } else {
        LightsRow6();
      }
    }
  }

  lemma LoadsRow0()
    ensures Tables.NotInFrom(LoadsIds, LoadsIds[0], 1)
    ensures Tables.NotInFrom(InputsIds, LoadsIds[0], 0)
  {
    var x := LoadsIds[0];
    var p, s := LoadsIds, InputsIds;
    assert x[0] != p[2][0];
    assert Tables.NotInFrom(p, x, 6);
    assert Tables.NotInFrom(p, x, 2);
    assert Tables.NotInFrom(p, x, 1);
    assert x[1] != s[9][1];
    assert Tables.NotInFrom(s, x, 9);
    assert Tables.NotInFrom(s, x, 5);
    assert Tables.NotInFrom(s, x, 1);
    assert Tables.NotInFrom(s, x, 0);
  }

  lemma LoadsRow1()
    ensures Tables.NotInFrom(LoadsIds, LoadsIds[1], 2)
    ensures Tables.NotInFrom(InputsIds, LoadsIds[1], 0)
  {
    var x := LoadsIds[1];
    var p, s := LoadsIds, InputsIds;
    assert x[0] != p[6][0];
    assert Tables.NotInFrom(p, x, 6);
    assert Tables.NotInFrom(p, x, 2);
    assert x[0] != s[0][0];
    assert x[0] != s[1][0];
    assert x[0] != s[12][0];
    assert Tables.NotInFrom(s, x, 9);
    assert Tables.NotInFrom(s, x, 5);
    assert Tables.NotInFrom(s, x, 1);
    assert Tables.NotInFrom(s, x, 0);
  }

  lemma LoadsRow2()
    ensures Tables.NotInFrom(LoadsIds, LoadsIds[2], 3)
    ensures Tables.NotInFrom(InputsIds, LoadsIds[2], 0)
  {
    var x := LoadsIds[2];
    var p, s := LoadsIds, InputsIds;
    assert Tables.NotInFrom(p, x, 6);
    assert Tables.NotInFrom(p, x, 3);
    assert x[0] != s[9][0];
    assert Tables.NotInFrom(s, x, 9);
    assert Tables.NotInFrom(s, x, 5);
    assert Tables.NotInFrom(s, x, 1);
    assert Tables.NotInFrom(s, x, 0);
  }

  lemma LoadsRow3()
    ensures Tables.NotInFrom(LoadsIds, LoadsIds[3], 4)
    ensures Tables.NotInFrom(InputsIds, LoadsIds[3], 0)
  {
    var x := LoadsIds[3];
    var p, s := LoadsIds, InputsIds;
    assert Tables.NotInFrom(p, x, 6);
    assert Tables.NotInFrom(p, x, 4);
    assert x[0] != s[3][0];
    assert x[0] != s[4][0];
    assert Tables.NotInFrom(s, x, 9);
    assert Tables.NotInFrom(s, x, 5);
    assert Tables.NotInFrom(s, x, 1);
    assert Tables.NotInFrom(s, x, 0);
  }

  lemma LoadsRow4()
    ensures Tables.NotInFrom(LoadsIds, LoadsIds[4], 5)
    ensures Tables.NotInFrom(InputsIds, LoadsIds[4], 0)
  {
    var x := LoadsIds[4];
    var p, s := LoadsIds, InputsIds;
    assert Tables.NotInFrom(p, x, 6);
    assert Tables.NotInFrom(p, x, 5);
    assert Tables.NotInFrom(s, x, 9);
    assert Tables.NotInFrom(s, x, 5);
    assert Tables.NotInFrom(s, x, 1);
    assert Tables.NotInFrom(s, x, 0);
  }

  lemma LoadsRow5()
    ensures Tables.NotInFrom(LoadsIds, LoadsIds[5], 6)
    ensures Tables.NotInFrom(InputsIds, LoadsIds[5], 0)
  {
    var x := LoadsIds[5];
    var p, s := LoadsIds, InputsIds;
    assert Tables.NotInFrom(p, x, 6);
    assert Tables.NotInFrom(s, x, 9);
    assert Tables.NotInFrom(s, x, 5);
    assert Tables.NotInFrom(s, x, 1);
    assert Tables.NotInFrom(s, x, 0);
  }

  lemma LoadsRow6()
    ensures Tables.NotInFrom(LoadsIds, LoadsIds[6], 7)
    ensures Tables.NotInFrom(InputsIds, LoadsIds[6], 0)
  {
    var x := LoadsIds[6];
    var p, s := LoadsIds, InputsIds;
    assert Tables.NotInFrom(p, x, 7);
    assert x[0] != s[0][0];
    assert x[0] != s[1][0];
    assert x[0] != s[12][0];
    assert Tables.NotInFrom(s, x, 9);
    assert Tables.NotInFrom(s, x, 5);
    assert Tables.NotInFrom(s, x, 1);
    assert Tables.NotInFrom(s, x, 0);
  }

  lemma LoadsRow7()
    ensures Tables.NotInFrom(LoadsIds, LoadsIds[7], 8)
    ensures Tables.NotInFrom(InputsIds, LoadsIds[7], 0)
  {
    var x := LoadsIds[7];
    var p, s := LoadsIds, InputsIds;
    assert Tables.NotInFrom(p, x, 8);
    assert Tables.NotInFrom(s, x, 9);
    assert Tables.NotInFrom(s, x, 5);
    assert Tables.NotInFrom(s, x, 1);
    assert Tables.NotInFrom(s, x, 0);
  }

  lemma LoadsRow8()
    ensures Tables.NotInFrom(LoadsIds, LoadsIds[8], 9)
    ensures Tables.NotInFrom(InputsIds, LoadsIds[8], 0)
  {
    var x := LoadsIds[8];
    var p, s := LoadsIds, InputsIds;
    assert Tables.NotInFrom(p, x, 9);
    assert Tables.NotInFrom(s, x, 9);
    assert Tables.NotInFrom(s, x, 5);
    assert Tables.NotInFrom(s, x, 1);
    assert Tables.NotInFrom(s, x, 0);
  }

  lemma LoadsRow9()
    ensures Tables.NotInFrom(LoadsIds, LoadsIds[9], 10)
    ensures Tables.NotInFrom(InputsIds, LoadsIds[9], 0)
  {
    var x := LoadsIds[9];
    var s := InputsIds;
    assert Tables.NotInFrom(s, x, 9);
    assert Tables.NotInFrom(s, x, 5);
    assert Tables.NotInFrom(s, x, 1);
    assert Tables.NotInFrom(s, x, 0);
  }

  /** Each id of `Loads` against every later id. */
  lemma LoadsRows()
    ensures forall k :: 0 <= k < 10 ==>
                Tables.NotInFrom(LoadsIds, LoadsIds[k], k + 1) &&
                Tables.NotInFrom(InputsIds, LoadsIds[k], 0)
  {
    forall k | 0 <= k < 10
      ensures Tables.NotInFrom(LoadsIds, LoadsIds[k], k + 1) && Tables.NotInFrom(InputsIds, LoadsIds[k], 0)
    {
      if k == 0 {
        LoadsRow0();
      } else if k == 1 {
        LoadsRow1();
      } else if k == 2 {
        LoadsRow2();
      } else if k == 3 {
        LoadsRow3();
      } else if k == 4 {
        LoadsRow4();
      } else if k == 5 {
        LoadsRow5();
      } else if k == 6 {
        LoadsRow6();
      } else if k == 7 {
        LoadsRow7();
      } else if k == 8 {
        LoadsRow8();
      } else {
        LoadsRow9();
      }
    }
  }

  lemma InputsRow0()
    ensures Tables.NotInFrom(InputsIds, InputsIds[0], 1)
  {
    var x := InputsIds[0];
    var s := InputsIds;
    assert x[12] != s[1][12];
    assert x[0] != s[12][0];
    assert Tables.NotInFrom(s, x, 9);
    assert Tables.NotInFrom(s, x, 5);
    assert Tables.NotInFrom(s, x, 1);
  }

  lemma InputsRow1()
    ensures Tables.NotInFrom(InputsIds, InputsIds[1], 2)
  {
    var x := InputsIds[1];
    var s := InputsIds;
    assert x[0] != s[12][0];
    assert Tables.NotInFrom(s, x, 9);
    assert Tables.NotInFrom(s, x, 5);
    assert Tables.NotInFrom(s, x, 2);
  }

  lemma InputsRow2()
    ensures Tables.NotInFrom(InputsIds, InputsIds[2], 3)
  {
    var x := InputsIds[2];
    var s := InputsIds;
    assert Tables.NotInFrom(s, x, 9);
    assert Tables.NotInFrom(s, x, 5);
    assert Tables.NotInFrom(s, x, 3);
  }

  lemma InputsRow3()
    ensures Tables.NotInFrom(InputsIds, InputsIds[3], 4)
  {
    var x := InputsIds[3];
    var s := InputsIds;
    assert x[0] != s[4][0];
    assert Tables.NotInFrom(s, x, 9);
    assert Tables.NotInFrom(s, x, 5);
    assert Tables.NotInFrom(s, x, 4);
  }

  lemma InputsRow4()
    ensures Tables.NotInFrom(InputsIds, InputsIds[4], 5)
  {
    var x := InputsIds[4];
    var s := InputsIds;
    assert Tables.NotInFrom(s, x, 9);
    assert Tables.NotInFrom(s, x, 5);
  }

  lemma InputsRow5()
    ensures Tables.NotInFrom(InputsIds, InputsIds[5], 6)
  {
    var x := InputsIds[5];
    var s := InputsIds;
    assert Tables.NotInFrom(s, x, 9);
    assert Tables.NotInFrom(s, x, 6);
  }

  lemma InputsRow6()
    ensures Tables.NotInFrom(InputsIds, InputsIds[6], 7)
  {
    var x := InputsIds[6];
    var s := InputsIds;
    assert Tables.NotInFrom(s, x, 9);
    assert Tables.NotInFrom(s, x, 7);
  }

  lemma InputsRow7()
    ensures Tables.NotInFrom(InputsIds, InputsIds[7], 8)
  {
    var x := InputsIds[7];
    var s := InputsIds;
    assert Tables.NotInFrom(s, x, 9);
    assert Tables.NotInFrom(s, x, 8);
  }

  lemma InputsRow8()
    ensures Tables.NotInFrom(InputsIds, InputsIds[8], 9)
  {
    var x := InputsIds[8];
    var s := InputsIds;
    assert x[0] != s[11][0];
    assert Tables.NotInFrom(s, x, 9);
  }

  lemma InputsRow9()
    ensures Tables.NotInFrom(InputsIds, InputsIds[9], 10)
  {
    var x := InputsIds[9];
    var s := InputsIds;
    assert Tables.NotInFrom(s, x, 10);
  }

  lemma InputsRow10()
    ensures Tables.NotInFrom(InputsIds, InputsIds[10], 11)
  {
    var x := InputsIds[10];
    var s := InputsIds;
    assert Tables.NotInFrom(s, x, 11);
  }

  lemma InputsRow11()
    ensures Tables.NotInFrom(InputsIds, InputsIds[11], 12)
  {
    var x := InputsIds[11];
    var s := InputsIds;
    assert Tables.NotInFrom(s, x, 12);
  }

  lemma InputsRow12()
    ensures Tables.NotInFrom(InputsIds, InputsIds[12], 13)
  {
    var x := InputsIds[12];
  }

  /** Each id of `Inputs` against every later id. */
  lemma InputsRows()
    ensures forall k :: 0 <= k < 13 ==>
                Tables.NotInFrom(InputsIds, InputsIds[k], k + 1)
  {
    forall k | 0 <= k < 13
      ensures Tables.NotInFrom(InputsIds, InputsIds[k], k + 1)
    {
      if k == 0 {
        InputsRow0();
      } else if k == 1 {
        InputsRow1();
      } else if k == 2 {
        InputsRow2();
      } else if k == 3 {
        InputsRow3();
      } else if k == 4 {
        InputsRow4();
      } else if k == 5 {
        InputsRow5();
      } else if k == 6 {
        InputsRow6();
      } else if k == 7 {
        InputsRow7();
      } else if k == 8 {
        InputsRow8();
      } else if k == 9 {
        InputsRow9();
      } else if k == 10 {
        InputsRow10();
      } else if k == 11 {
        InputsRow11();
      } else {
        InputsRow12();
      }
    }
  }

  lemma LightsListed()
    ensures DeviceIds(Lights) == LightsIds
  {
    assert NamedFrom(Lights, LightsIds, 4);
    assert NamedFrom(Lights, LightsIds, 0);
    NamedFromMeans(Lights, LightsIds, 0);
  }

  lemma LoadsListed()
    ensures DeviceIds(Loads) == LoadsIds
  {
    assert NamedFrom(Loads, LoadsIds, 7);
    assert NamedFrom(Loads, LoadsIds, 4);
    assert NamedFrom(Loads, LoadsIds, 0);
    NamedFromMeans(Loads, LoadsIds, 0);
  }

  lemma InputsListed()
    ensures DeviceIds(Inputs) == InputsIds
  {
    assert NamedFrom(Inputs, InputsIds, 10);
    assert NamedFrom(Inputs, InputsIds, 7);
    assert NamedFrom(Inputs, InputsIds, 4);
    assert NamedFrom(Inputs, InputsIds, 0);
    NamedFromMeans(Inputs, InputsIds, 0);
  }

  /** The three written-out id lists, together, never repeat. */
  lemma ListedIdsUnique()
    ensures Tables.Distinct(LightsIds + LoadsIds + InputsIds)
  {
    var l, p, s := LightsIds, LoadsIds, InputsIds;
    LightsRows();
    LoadsRows();
    InputsRows();
    Tables.DistinctByRows(l);
    Tables.DistinctByRows(p);
    Tables.DistinctByRows(s);
    Tables.DisjointByRows(l, p);
    Tables.DisjointByRows(l, s);
    Tables.DisjointByRows(p, s);
    Tables.DistinctJoin3(l, p, s);
  }

  /** No two devices of the profile share an id, so a device id names one
      device. */
  lemma DeviceIdsUnique()
    ensures Tables.Distinct(DeviceIds(DefaultDevices))
  {
    LightsListed();
    LoadsListed();
    InputsListed();
    ListedIdsUnique();
    assert DeviceIds(DefaultDevices) == DeviceIds(Lights) + DeviceIds(Loads) + DeviceIds(Inputs);
  }

  /** Every action of `s` sets one of the light circuits to a boolean. */
  predicate SetsLights(s: Scene) {
    forall a :: a in s.actions ==> Present(a.deviceId) && a.deviceId.value in LightsIds && a.state.VBool?
  }

  lemma Scene0SetsLights()
    ensures SetsLights(DefaultScenes[0])
  {
  }

  lemma Scene1SetsLights()
    ensures SetsLights(DefaultScenes[1])
  {
  }

  lemma Scene2SetsLights()
    ensures SetsLights(DefaultScenes[2])
  {
  }

  lemma Scene3SetsLights()
    ensures SetsLights(DefaultScenes[3])
  {
  }

  /** Every scene action of the profile names a light the profile defines,
      and sets it to a boolean. */
  lemma SceneActionsNameLights()
    ensures forall s, a :: s in DefaultScenes && a in s.actions ==>
              Present(a.deviceId) && a.deviceId.value in DeviceIds(Lights) && a.state.VBool?
  {
    LightsListed();
    Scene0SetsLights();
    Scene1SetsLights();
    Scene2SetsLights();
    Scene3SetsLights();
    var sc := DefaultScenes;
    assert forall s :: s in sc ==> s == sc[0] || s == sc[1] || s == sc[2] || s == sc[3];
  }

  /** The lights are the first seven devices of the profile. */
  lemma LightsAreDevices()
    ensures forall i :: 0 <= i < |Lights| ==> DefaultDevices[i] == Lights[i]
    ensures forall id :: id in DeviceIds(Lights) ==> id in DeviceIds(DefaultDevices)
  {
    assert DeviceIds(DefaultDevices) == DeviceIds(Lights) + DeviceIds(Loads) + DeviceIds(Inputs);
  }
}

=== FILE: safety_chain.dfy ===
/** How the watchkeeper's bilge rules meet the backend's policy: the override
    device the rules drive has no entry in the policy table, so the endpoint
    refuses every command the rules emit, and the table's bilge pump limits
    are not the ones the rules use. */
module SafetyChain {
  import opened Base
  import opened Commands
  import Watchkeeper
  import Policy
  import Admission

  /** The override has policy level 0: a command on it is rejected as not
      controllable, as written and with the `only_if` check corrected. */
  lemma OverrideCommandRejected(a: Action, ctx: Admission.Context)
    requires Watchkeeper.TouchesOverride(a)
    ensures Admission.Decide(a, ctx).status == Admission.Rejected
    ensures Admission.Decide(a, ctx).reason == Admission.DeviceNotControllable(Watchkeeper.OverrideId)
    ensures Admission.DecideIntended(a, ctx) == Admission.Decide(a, ctx)
  {
    assert Watchkeeper.OverrideId !in Policy.DevicePolicies;
  }

  /** Every override command a watchkeeper cycle emits is a rule action and
      is rejected by the endpoint, whatever the snapshot, timers or
      proposals; nothing the cycle emits touches the override otherwise. */
  lemma CycleOverrideCommandsRejected(cfg: Watchkeeper.Config, st: Watchkeeper.BilgeState,
                                      devices: seq<Reading>, proposals: seq<Action>, now: int,
                                      ruleId: string, ctx: Admission.Context)
    ensures var out := Watchkeeper.Cycle(cfg, st, devices, proposals, now, ruleId).actions;
            forall i :: 0 <= i < |out| && Watchkeeper.TouchesOverride(out[i]) ==>
              out[i].actionId == ruleId &&
              Admission.Decide(out[i], ctx).status == Admission.Rejected &&
              Admission.DecideIntended(out[i], ctx).status == Admission.Rejected
  {
    var o := Watchkeeper.ApplyHardRules(cfg, st, devices, proposals, now, ruleId);
    var out := Watchkeeper.Cycle(cfg, st, devices, proposals, now, ruleId).actions;
    forall i | 0 <= i < |out| && Watchkeeper.TouchesOverride(out[i])
      ensures out[i].actionId == ruleId
      ensures Admission.Decide(out[i], ctx).status == Admission.Rejected
      ensures Admission.DecideIntended(out[i], ctx).status == Admission.Rejected
    {
      assert out == o.actions;
      OverrideCommandRejected(out[i], ctx);
    }
  }

  /** The policy table's bilge pump limits (600 s run, 30 s cool-down) are
      not the watchkeeper's (30 s run, 20 s rest), and the table's entry is
      for `bilge_pump`, not for the override the rules drive. */
  lemma PolicyLimitsDiffer()
    ensures "bilge_pump" in Policy.DevicePolicies
    ensures Policy.DevicePolicies["bilge_pump"].maxOnSeconds == Some(600)
    ensures Policy.DevicePolicies["bilge_pump"].minOffCooldownSeconds == Some(30)
    ensures Watchkeeper.WatchkeeperConfig.maxRun == 30 && Watchkeeper.WatchkeeperConfig.rest == 20
    ensures Watchkeeper.OverrideId !in Policy.DevicePolicies
  {
  }
}

=== FILE: scenes.dfy ===
/** The scene router (app/routers/scenes.py): activating a scene writes each
    of its actions into the vessel's device state, skipping actions that name
    no known device. */
module SceneActivation {
  import opened Base
  import opened Profiles
  import DeviceState
  import ProfileChecks

  /** One applied action: the device and the state it was given. */
  datatype Applied = Applied(deviceId: string, state: Value)

  /** The response of a successful activation. Every skipped entry carries
      the reason `unknown_device`, so only its device id is kept. */
  datatype Outcome = Outcome(yachtId: string, sceneId: string, applied: seq<Applied>,
                             skipped: seq<Option<string>>, source: string)

  datatype SceneError = UnknownScene(sceneId: string)  // HTTP 404

  /** `next(s for s in scenes if s["id"] == scene_id)`: the first scene with
      the id. */
  function FindScene(scenes: seq<Scene>, sceneId: string): (r: Option<Scene>)
    ensures r.Some? <==> exists i :: 0 <= i < |scenes| && scenes[i].id == sceneId
    ensures r.Some? ==> exists i :: 0 <= i < |scenes| && scenes[i] == r.value && r.value.id == sceneId &&
                                    forall j :: 0 <= j < i ==> scenes[j].id != sceneId
  {
    if |scenes| == 0 then None
    else if scenes[0].id == sceneId then Some(scenes[0])
    else
      var r := FindScene(scenes[1..], sceneId);
      assert r.Some? ==> exists i :: 1 <= i < |scenes| && scenes[i] == r.value && r.value.id == sceneId &&
                                     forall j :: 0 <= j < i ==> scenes[j].id != sceneId by {
        if r.Some? {
          var i :| 0 <= i < |scenes[1..]| && scenes[1..][i] == r.value && r.value.id == sceneId &&
                   forall j :: 0 <= j < i ==> scenes[1..][j].id != sceneId;
          assert scenes[i + 1] == r.value;
          forall j | 0 <= j < i + 1
            ensures scenes[j].id != sceneId
          {
            if j > 0 { assert scenes[j] == scenes[1..][j - 1]; }
          }
        }
      }
      assert (exists i :: 0 <= i < |scenes| && scenes[i].id == sceneId) ==>
             exists i :: 0 <= i < |scenes[1..]| && scenes[1..][i].id == sceneId by {
        if exists i :: 0 <= i < |scenes| && scenes[i].id == sceneId {
          var i :| 0 <= i < |scenes| && scenes[i].id == sceneId;
          assert scenes[1..][i - 1] == scenes[i];
        }
      }
      r
  }

  /** The action is carried out: its device id is non-empty and valid. */
  predicate Applies(a: SceneAction, validIds: seq<string>) {
    Present(a.deviceId) && a.deviceId.value in validIds
  }

  /** The `applied` list on its own: every applicable action, in scene
      order, with the device and the state it sets. */
  function AppliedOf(actions: seq<SceneAction>, validIds: seq<string>): (r: seq<Applied>)
    ensures |r| <= |actions|
    ensures forall a :: a in actions && Applies(a, validIds) ==> Applied(a.deviceId.value, a.state) in r
    ensures forall x :: x in r ==> exists a :: a in actions && Applies(a, validIds) && x == Applied(a.deviceId.value, a.state)
    ensures forall k :: 0 <= k < |r| ==> r[k].deviceId in validIds && r[k].deviceId != ""
    ensures (forall a :: a in actions ==> Applies(a, validIds)) ==> |r| == |actions|
    decreases |actions|
  {
    if |actions| == 0 then []
    else
      var rest := AppliedOf(actions[1..], validIds);
      assert forall a :: a in actions ==> a == actions[0] || a in actions[1..];
      assert forall a :: a in actions[1..] ==> a in actions;
      if Applies(actions[0], validIds) then [Applied(actions[0].deviceId.value, actions[0].state)] + rest
      else rest
  }

  /** The `skipped` list on its own: the device id of every action that is
      not applicable, in scene order. */
  function SkippedOf(actions: seq<SceneAction>, validIds: seq<string>): (r: seq<Option<string>>)
    ensures |r| + |AppliedOf(actions, validIds)| == |actions|
    ensures forall a :: a in actions && !Applies(a, validIds) ==> a.deviceId in r
    ensures forall d :: d in r ==> exists a :: a in actions && !Applies(a, validIds) && d == a.deviceId
    ensures forall k :: 0 <= k < |r| ==> r[k].None? || r[k].value == "" || r[k].value !in validIds
    decreases |actions|
  {
    if |actions| == 0 then []
    else
      var rest := SkippedOf(actions[1..], validIds);
      assert |AppliedOf(actions, validIds)| ==
             |AppliedOf(actions[1..], validIds)| + if Applies(actions[0], validIds) then 1 else 0;
      assert forall a :: a in actions ==> a == actions[0] || a in actions[1..];
      assert forall a :: a in actions[1..] ==> a in actions;
      if Applies(actions[0], validIds) then rest else [actions[0].deviceId] + rest
  }

  /** The loop over `scene["actions"]`: applies each action in turn, and
      reports the applied and the skipped ones in order. */
  function ApplyActions(st: map<string, Value>, validIds: seq<string>, actions: seq<SceneAction>)
    : (r: (map<string, Value>, seq<Applied>, seq<Option<string>>))
    ensures r.1 == AppliedOf(actions, validIds) && r.2 == SkippedOf(actions, validIds)
    ensures |r.1| + |r.2| == |actions|
    ensures forall k :: 0 <= k < |r.1| ==> r.1[k].deviceId in validIds && r.1[k].deviceId != ""
    ensures forall k :: 0 <= k < |r.2| ==> r.2[k].None? || r.2[k].value == "" || r.2[k].value !in validIds
    ensures (forall a :: a in actions ==> Applies(a, validIds)) ==> |r.1| == |actions|
    decreases |actions|
  {
    if |actions| == 0 then (st, [], [])
    else
      var a := actions[0];
      if Applies(a, validIds) then
        var rest := ApplyActions(st[a.deviceId.value := a.state], validIds, actions[1..]);
        (rest.0, [Applied(a.deviceId.value, a.state)] + rest.1, rest.2)
      else
        var rest := ApplyActions(st, validIds, actions[1..]);
        (rest.0, rest.1, [a.deviceId] + rest.2)
  }

  /** Reference meaning of a run of actions for one device: the state the
      last applicable action naming it sets, if any. */
  function LastWrite(actions: seq<SceneAction>, validIds: seq<string>, id: string): Option<Value>
    decreases |actions|
  {
    if |actions| == 0 then None
    else
      var a := actions[|actions| - 1];
      if Applies(a, validIds) && a.deviceId.value == id then Some(a.state)
      else LastWrite(actions[..|actions| - 1], validIds, id)
  }

  /** Looking from the front: a later write wins over the first action. */
  lemma {:induction false} LastWriteFront(actions: seq<SceneAction>, validIds: seq<string>, id: string)
    requires |actions| > 0
    ensures LastWrite(actions, validIds, id) ==
              if LastWrite(actions[1..], validIds, id).Some? then LastWrite(actions[1..], validIds, id)
              else if Applies(actions[0], validIds) && actions[0].deviceId.value == id then Some(actions[0].state)
              else None
    decreases |actions|
  {
    var n := |actions|;
    if n > 1 {
      var init := actions[..n - 1];
      assert init[1..] == actions[1..][..n - 2];
      assert actions[1..][n - 2] == actions[n - 1];
      assert init[0] == actions[0];
      LastWriteFront(init, validIds, id);
    } else {
      assert actions[..0] == [];
    }
  }

  /** The state after the loop: a device named by an applicable action holds
      the last such action's state; every other entry is as before. */
  lemma {:induction false} ApplyActionsLastWrite(st: map<string, Value>, validIds: seq<string>,
                                                 actions: seq<SceneAction>, id: string)
    ensures LastWrite(actions, validIds, id).Some? ==>
              id in ApplyActions(st, validIds, actions).0 &&
              ApplyActions(st, validIds, actions).0[id] == LastWrite(actions, validIds, id).value
    ensures LastWrite(actions, validIds, id).None? ==>
              (id in ApplyActions(st, validIds, actions).0 <==> id in st) &&
              (id in st ==> ApplyActions(st, validIds, actions).0[id] == st[id])
    decreases |actions|
  {
    if |actions| > 0 {
      var a := actions[0];
      LastWriteFront(actions, validIds, id);
      if Applies(a, validIds) {
        ApplyActionsLastWrite(st[a.deviceId.value := a.state], validIds, actions[1..], id);
      } else {
        ApplyActionsLastWrite(st, validIds, actions[1..], id);
      }
    }
  }

  /** `activate_scene`: an unknown scene id is a 404 and changes nothing;
      otherwise the scene's actions are applied to the vessel's state and
      nothing else changes. The source defaults to `unknown`. */
  function ActivateScene(store: DeviceState.StateStore, yachtId: string, sceneId: string, source: Option<string>)
    : (r: Result<(DeviceState.StateStore, Outcome), SceneError>)
    ensures r.Err? <==> FindScene(ScenesForYacht(yachtId), sceneId).None?
    ensures r.Err? ==> r.error == UnknownScene(sceneId)
    ensures r.Ok? ==> r.value.1.yachtId == yachtId && r.value.1.sceneId == sceneId
    ensures r.Ok? ==> r.value.1.source == if Present(source) then source.value else "unknown"
    ensures r.Ok? ==> yachtId in r.value.0
    ensures r.Ok? ==> forall y :: y != yachtId ==> (y in r.value.0 <==> y in store)
    ensures r.Ok? ==> forall y :: y != yachtId && y in store ==> r.value.0[y] == store[y]
    ensures r.Ok? ==> var scene := FindScene(ScenesForYacht(yachtId), sceneId).value;
                      var validIds := DeviceIds(DevicesForYacht(yachtId));
                      var res := ApplyActions(DeviceState.EnsureState(store, yachtId).1, validIds, scene.actions);
                      && r.value.0[yachtId] == res.0
                      && r.value.1.applied == AppliedOf(scene.actions, validIds)
                      && r.value.1.skipped == SkippedOf(scene.actions, validIds)
  {
    match FindScene(ScenesForYacht(yachtId), sceneId)
    case None => Err(UnknownScene(sceneId))
    case Some(scene) =>
      var validIds := DeviceIds(DevicesForYacht(yachtId));
      var ensured := DeviceState.EnsureState(store, yachtId);
      var res := ApplyActions(ensured.1, validIds, scene.actions);
      var src := if source.Some? && source.value != "" then source.value else "unknown";
      Ok((ensured.0[yachtId := res.0], Outcome(yachtId, sceneId, res.1, res.2, src)))
  }

  /** The device state after an activation, device by device: what the
      scene's last action on the device set, else what it was before. */
  lemma ActivationState(store: DeviceState.StateStore, yachtId: string, sceneId: string,
                        source: Option<string>, id: string)
    requires ActivateScene(store, yachtId, sceneId, source).Ok?
    ensures var scene := FindScene(ScenesForYacht(yachtId), sceneId).value;
            var before := DeviceState.EnsureState(store, yachtId).1;
            var after := ActivateScene(store, yachtId, sceneId, source).value.0[yachtId];
            var w := LastWrite(scene.actions, DeviceIds(DefaultDevices), id);
            (w.Some? ==> id in after && after[id] == w.value) &&
            (w.None? ==> (id in after <==> id in before) && (id in before ==> after[id] == before[id]))
  {
    var scene := FindScene(ScenesForYacht(yachtId), sceneId).value;
    var before := DeviceState.EnsureState(store, yachtId).1;
    ApplyActionsLastWrite(before, DeviceIds(DefaultDevices), scene.actions, id);
  }

  /** With the shipped profile nothing is ever skipped: every action of every
      scene is applied. */
  lemma ShippedScenesApplyFully(store: DeviceState.StateStore, yachtId: string, sceneId: string,
                                source: Option<string>)
    requires ActivateScene(store, yachtId, sceneId, source).Ok?
    ensures ActivateScene(store, yachtId, sceneId, source).value.1.skipped == []
    ensures |ActivateScene(store, yachtId, sceneId, source).value.1.applied| ==
            |FindScene(ScenesForYacht(yachtId), sceneId).value.actions|
  {
    var scene := FindScene(ScenesForYacht(yachtId), sceneId).value;
    ProfileChecks.SceneActionsNameLights();
    ProfileChecks.LightsAreDevices();
    assert scene in DefaultScenes;
  }
}

=== FILE: tables.dfy ===
/** Checks over literal tables that the verifier can evaluate step by step,
    and what they guarantee about every index. */
module Tables {
  /** `x` differs from every element of `s` from index `j` on. */
  predicate NotInFrom(s: seq<string>, x: string, j: nat)
    decreases |s| - j
  {
    j >= |s| || (x != s[j] && NotInFrom(s, x, j + 1))
  }

  /** The key of every row, in table order (`[row["id"] for row in rows]`). */
  function Keys<T>(rows: seq<T>, key: T -> string): (r: seq<string>)
    ensures |r| == |rows|
    ensures forall i :: 0 <= i < |rows| ==> r[i] == key(rows[i])
  {
    seq(|rows|, i requires 0 <= i < |rows| => key(rows[i]))
  }

  /** No value occurs twice. */
  predicate Distinct(s: seq<string>) {
    forall i, j :: 0 <= i < j < |s| ==> s[i] != s[j]
  }

  /** No value occurs in both. */
  predicate Disjoint(a: seq<string>, b: seq<string>) {
    forall i, j :: 0 <= i < |a| && 0 <= j < |b| ==> a[i] != b[j]
  }

  /** The step-by-step check and the statement about every index agree. */
  lemma {:induction false} NotInFromMeansAbsent(s: seq<string>, x: string, j: nat)
    ensures NotInFrom(s, x, j) <==> forall m :: j <= m < |s| ==> s[m] != x
    decreases |s| - j
  {
    if j < |s| {
      NotInFromMeansAbsent(s, x, j + 1);
    }
  }

  /** A list is duplicate-free exactly when each element is absent from
      the rest of the list after it. */
  lemma DistinctByRows(s: seq<string>)
    ensures Distinct(s) <==> forall k :: 0 <= k < |s| ==> NotInFrom(s, s[k], k + 1)
  {
    forall k | 0 <= k < |s| {
      NotInFromMeansAbsent(s, s[k], k + 1);
    }
  }

  /** Two lists share no value exactly when each element of the first is
      absent from the whole second list. */
  lemma DisjointByRows(a: seq<string>, b: seq<string>)
    ensures Disjoint(a, b) <==> forall k :: 0 <= k < |a| ==> NotInFrom(b, a[k], 0)
  {
    forall k | 0 <= k < |a| {
      NotInFromMeansAbsent(b, a[k], 0);
    }
  }

  /** Three duplicate-free lists that pairwise share no value join into one
      duplicate-free list. */
  lemma DistinctJoin3(a: seq<string>, b: seq<string>, c: seq<string>)
    requires Distinct(a) && Distinct(b) && Distinct(c)
    requires Disjoint(a, b) && Disjoint(a, c) && Disjoint(b, c)
    ensures Distinct(a + b + c)
  {
    var s := a + b + c;
    forall i, j | 0 <= i < j < |s|
      ensures s[i] != s[j]
    {
      if j < |a| {
      } else if j < |a| + |b| {
        if i >= |a| { assert s[i] == b[i - |a|]; }
      } else {
        if i < |a| {
        } else if i < |a| + |b| {
          assert s[i] == b[i - |a|];
        }
      }
    }
  }
}

=== FILE: unified_io.dfy ===
/** The hardware shim's address handling (app/hardware/unified_io.py): a
    hardware id is `kind:rest`, a Modbus rest is `bus:point:index` on a
    registered bus, a GPIO rest is a pin number. Reads and writes are stubs
    in the source; here they are the effect each handler would perform. */
module UnifiedIo {
  import opened Base
  import Decimal

  /** One entry of the hardware configuration's `buses` list; a missing key is
      `None`, and a JSON `null` is not distinguished from it. Fields the
      driver never reads are not kept. */
  datatype BusConfig = BusConfig(id: Option<string>, busType: Option<string>)

  /** Where Python raises: ValueError for a malformed id, rest, number or
      bus, KeyError for a Modbus bus entry without an `id`. */
  datatype HwError =
    | InvalidHwId(hwId: string)
    | InvalidModbusRest(rest: string)
    | InvalidInteger(text: string)
    | UnknownBus(busId: string)
    | MissingBusId

  datatype ModbusPoint = ModbusPoint(bus: BusConfig, pointType: string, index: int)

  /** What `set_output` does with a well-formed address. */
  datatype Effect =
    | ModbusWrite(busId: string, pointType: string, index: int, value: bool)
    | GpioWrite(pin: int, value: bool)
    | UnknownKind(kind: string)

  predicate IsModbusBus(b: BusConfig) {
    StartsWith(b.busType.GetOr(""), "modbus_")
  }

  /** `_init_modbus_buses`: the Modbus buses keyed by id; a later entry with
      the same id replaces an earlier one. */
  function InitModbusBuses(buses: seq<BusConfig>): (r: Result<map<string, BusConfig>, HwError>)
    ensures r.Err? <==> exists i :: 0 <= i < |buses| && IsModbusBus(buses[i]) && buses[i].id.None?
    ensures r.Ok? ==> forall k :: k in r.value <==>
              exists i :: 0 <= i < |buses| && IsModbusBus(buses[i]) && buses[i].id == Some(k)
    ensures r.Ok? ==> forall k :: k in r.value ==> IsModbusBus(r.value[k]) && r.value[k].id == Some(k)
    ensures r.Ok? ==> forall k :: k in r.value ==> LastBusWith(buses, k, r.value[k])
    decreases |buses|
  {
    if |buses| == 0 then Ok(map[])
    else
      var last := buses[|buses| - 1];
      var init := buses[..|buses| - 1];
      assert forall i :: 0 <= i < |init| ==> init[i] == buses[i];
      match InitModbusBuses(init)
      case Err(e) => Err(e)
      case Ok(m) =>
        if IsModbusBus(last) && last.id.None? then Err(MissingBusId)
        else
          var m2 := if IsModbusBus(last) then m[last.id.value := last] else m;
          BusesOfExtend(buses, m, m2);
          Ok(m2)
  }

  /** `buses[i]` is the Modbus bus `b` with id `k`, and no later Modbus bus
      carries that id: the entry the assignment in list order leaves. */
  predicate LastBusAt(buses: seq<BusConfig>, k: string, b: BusConfig, i: int) {
    && 0 <= i < |buses| && buses[i] == b
    && forall j :: i < j < |buses| ==> !(IsModbusBus(buses[j]) && buses[j].id == Some(k))
  }

  predicate LastBusWith(buses: seq<BusConfig>, k: string, b: BusConfig) {
    exists i :: 0 <= i < |buses| && LastBusAt(buses, k, b, i)
  }

  /** What the map holds after a prefix of the list: exactly the ids of its
      Modbus buses, each mapped to the last such bus carrying it. */
  ghost predicate BusesOf(buses: seq<BusConfig>, m: map<string, BusConfig>) {
    && (forall k :: k in m <==> exists i :: 0 <= i < |buses| && IsModbusBus(buses[i]) && buses[i].id == Some(k))
    && (forall k :: k in m ==> IsModbusBus(m[k]) && m[k].id == Some(k))
    && (forall k :: k in m ==> LastBusWith(buses, k, m[k]))
  }

  /** One more entry in the list: an entry that is not a Modbus bus keeps
      the map; a Modbus bus with an id becomes its key's bus. */
  lemma BusesOfExtend(buses: seq<BusConfig>, m: map<string, BusConfig>, m2: map<string, BusConfig>)
    requires |buses| > 0 && BusesOf(buses[..|buses| - 1], m)
    requires var last := buses[|buses| - 1];
             && !(IsModbusBus(last) && last.id.None?)
             && m2 == if IsModbusBus(last) then m[last.id.value := last] else m
    ensures BusesOf(buses, m2)
  {
    var last := buses[|buses| - 1];
    var init := buses[..|buses| - 1];
    forall k | k in m2
      ensures LastBusWith(buses, k, m2[k])
    {
      if IsModbusBus(last) && last.id == Some(k) {
        assert LastBusAt(buses, k, m2[k], |buses| - 1);
      } else {
        var i :| 0 <= i < |init| && LastBusAt(init, k, m[k], i);
        assert LastBusAt(buses, k, m2[k], i);
      }
    }
    forall k
      ensures k in m2 <==> exists i :: 0 <= i < |buses| && IsModbusBus(buses[i]) && buses[i].id == Some(k)
    {
      if exists i :: 0 <= i < |buses| && IsModbusBus(buses[i]) && buses[i].id == Some(k) {
        var i :| 0 <= i < |buses| && IsModbusBus(buses[i]) && buses[i].id == Some(k);
        if i < |buses| - 1 {
          assert init[i] == buses[i];
        }
      }
      if k in m && !(IsModbusBus(last) && last.id == Some(k)) {
        var i :| 0 <= i < |init| && IsModbusBus(init[i]) && init[i].id == Some(k);
        assert buses[i] == init[i];
      }
    }
  }

  /** `_split_kind`: split at the first ':' only. */
  function SplitKind(hwId: string): (r: Result<(string, string), HwError>)
    ensures r.Ok? <==> ':' in hwId
    ensures r.Err? ==> r.error == InvalidHwId(hwId)
    ensures r.Ok? ==> ':' !in r.value.0 && r.value.0 + ":" + r.value.1 == hwId
  {
    if ':' in hwId then
      var k := FirstIndex(hwId, ':');
      assert hwId == hwId[..k] + ":" + hwId[k + 1..];
      Ok((hwId[..k], hwId[k + 1..]))
    else Err(InvalidHwId(hwId))
  }

  /** `_parse_modbus_rest`: exactly three ':'-separated parts, an integer
      index, and a registered bus, checked in that order. */
  function ParseModbusRest(buses: map<string, BusConfig>, rest: string): (r: Result<ModbusPoint, HwError>)
    ensures r.Ok? <==> (&& Count(rest, ':') == 2
                        && Decimal.ParseInt(Split(rest, ':')[2]).Some?
                        && Split(rest, ':')[0] in buses)
    ensures Count(rest, ':') != 2 ==> r == Err(InvalidModbusRest(rest))
    ensures r.Ok? ==> r.value.bus == buses[Split(rest, ':')[0]]
                      && Split(rest, ':')[0] + ":" + r.value.pointType + ":" + Split(rest, ':')[2] == rest
    ensures r.Ok? ==> r.value.pointType == Split(rest, ':')[1]
                      && Decimal.ParseInt(Split(rest, ':')[2]).Some?
                      && Decimal.ParseInt(Split(rest, ':')[2]).value == r.value.index
    ensures Count(rest, ':') == 2 && Decimal.ParseInt(Split(rest, ':')[2]).None? ==>
              r == Err(InvalidInteger(Split(rest, ':')[2]))
    ensures Count(rest, ':') == 2 && Decimal.ParseInt(Split(rest, ':')[2]).Some? && Split(rest, ':')[0] !in buses ==>
              r == Err(UnknownBus(Split(rest, ':')[0]))
  {
    var parts := Split(rest, ':');
    if |parts| != 3 then Err(InvalidModbusRest(rest))
    else
      match Decimal.ParseInt(parts[2])
      case None => Err(InvalidInteger(parts[2]))
      case Some(index) =>
        if parts[0] !in buses then Err(UnknownBus(parts[0]))
        else
          JoinSplit(rest, ':');
          assert parts == [parts[0], parts[1], parts[2]];
          Join3(parts[0], parts[1], parts[2], ':');
          Ok(ModbusPoint(buses[parts[0]], parts[1], index))
  }

  /** `_parse_gpio_rest`: the whole rest is the pin number. */
  function ParseGpioRest(rest: string): (r: Result<int, HwError>)
    ensures r.Ok? <==> Decimal.ParseInt(rest).Some?
    ensures r.Ok? ==> Decimal.ParseInt(rest) == Some(r.value)
  {
    match Decimal.ParseInt(rest)
    case Some(pin) => Ok(pin)
    case None => Err(InvalidInteger(rest))
  }

  /** `set_output`: dispatch on the kind; an unknown kind does nothing. */
  function SetOutput(buses: map<string, BusConfig>, hwId: string, value: bool): (r: Result<Effect, HwError>)
    ensures ':' !in hwId ==> r == Err(InvalidHwId(hwId))
    ensures r.Ok? && r.value.ModbusWrite? ==>
              SplitKind(hwId).Ok? && SplitKind(hwId).value.0 == "modbus"
              && r.value.busId in buses && r.value.value == value
    ensures r.Ok? && r.value.GpioWrite? ==>
              SplitKind(hwId).Ok? && SplitKind(hwId).value.0 == "gpio" && r.value.value == value
    ensures r.Ok? && r.value.UnknownKind? ==>
              SplitKind(hwId).Ok? && r.value.kind == SplitKind(hwId).value.0
              && r.value.kind != "modbus" && r.value.kind != "gpio"
    ensures SplitKind(hwId).Ok? && SplitKind(hwId).value.0 !in {"modbus", "gpio"} ==> r.Ok?
    ensures r.Ok? <==> (match SplitKind(hwId)
                        case Err(_) => false
                        case Ok(kr) =>
                          if kr.0 == "modbus" then ParseModbusRest(buses, kr.1).Ok?
                          else if kr.0 == "gpio" then ParseGpioRest(kr.1).Ok?
                          else true)
    ensures SplitKind(hwId).Ok? && SplitKind(hwId).value.0 == "gpio" && r.Ok? ==>
              r.value == GpioWrite(ParseGpioRest(SplitKind(hwId).value.1).value, value)
    ensures SplitKind(hwId).Ok? && SplitKind(hwId).value.0 == "modbus" && r.Ok? ==>
              var rest := SplitKind(hwId).value.1;
              var p := ParseModbusRest(buses, rest).value;
              r.value == ModbusWrite(Split(rest, ':')[0], p.pointType, p.index, value)
  {
    match SplitKind(hwId)
    case Err(e) => Err(e)
    case Ok((kind, rest)) =>
      if kind == "modbus" then
        match ParseModbusRest(buses, rest)
        case Err(e) => Err(e)
        case Ok(p) =>
          var busId := Split(rest, ':')[0];
          Ok(ModbusWrite(busId, p.pointType, p.index, value))
      else if kind == "gpio" then
        match ParseGpioRest(rest)
        case Err(e) => Err(e)
        case Ok(pin) => Ok(GpioWrite(pin, value))
      else Ok(UnknownKind(kind))
  }

  /** `get_input`: every reading that does not raise is `False` (the Modbus
      and GPIO readers are stubs, an unknown kind answers `False`). */
  function GetInput(buses: map<string, BusConfig>, hwId: string): (r: Result<bool, HwError>)
    ensures r.Ok? ==> r.value == false
    ensures r.Ok? <==> (match SplitKind(hwId)
                        case Err(_) => false
                        case Ok(kr) =>
                          if kr.0 == "modbus" then ParseModbusRest(buses, kr.1).Ok?
                          else if kr.0 == "gpio" then ParseGpioRest(kr.1).Ok?
                          else true)
  {
    match SplitKind(hwId)
    case Err(e) => Err(e)
    case Ok((kind, rest)) =>
      if kind == "modbus" then
        match ParseModbusRest(buses, rest)
        case Err(e) => Err(e)
        case Ok(_) => Ok(false)
      else if kind == "gpio" then
        match ParseGpioRest(rest)
        case Err(e) => Err(e)
        case Ok(_) => Ok(false)
      else Ok(false)
  }

  lemma NoColonInNumber(i: int)
    ensures ':' !in Decimal.IntToDecimal(i)
  {
    var d := Decimal.NatToDigits(if i < 0 then -i else i);
    assert forall k :: 0 <= k < |d| ==> d[k] != ':';
    if i < 0 {
      assert Decimal.IntToDecimal(i) == "-" + d;
    }
  }

  /** `bus:point:index` written out from its parts parses back to them. */
  lemma {:induction false} ModbusRestRoundTrip(buses: map<string, BusConfig>, busId: string,
                                               pointType: string, index: int)
    requires busId in buses && ':' !in busId && ':' !in pointType
    ensures ParseModbusRest(buses, busId + ":" + pointType + ":" + Decimal.IntToDecimal(index))
            == Ok(ModbusPoint(buses[busId], pointType, index))
    ensures Split(busId + ":" + pointType + ":" + Decimal.IntToDecimal(index), ':')[0] == busId
  {
    var idx := Decimal.IntToDecimal(index);
    NoColonInNumber(index);
    Join3(busId, pointType, idx, ':');
    SplitJoin([busId, pointType, idx], ':');
    Decimal.ParseIntRoundTrip(index);
  }

  lemma KindsHaveNoColon()
    ensures ':' !in "modbus" && ':' !in "gpio"
  {
    var m, g := "modbus", "gpio";
    assert forall k :: 0 <= k < |m| ==> m[k] != ':';
    assert forall k :: 0 <= k < |g| ==> g[k] != ':';
  }

  lemma SplitKindOf(kind: string, rest: string)
    requires ':' !in kind
    ensures SplitKind(kind + ":" + rest) == Ok((kind, rest))
  {
    var hwId := kind + ":" + rest;
    FirstIndexAfterFree(kind, rest, ':');
    assert hwId[..|kind|] == kind && hwId[|kind| + 1..] == rest;
  }

  lemma ModbusDispatch(buses: map<string, BusConfig>, hwId: string, rest: string, p: ModbusPoint, v: bool)
    requires SplitKind(hwId) == Ok(("modbus", rest)) && ParseModbusRest(buses, rest) == Ok(p)
    ensures SetOutput(buses, hwId, v) == Ok(ModbusWrite(Split(rest, ':')[0], p.pointType, p.index, v))
    ensures GetInput(buses, hwId) == Ok(false)
  {
  }

  /** A Modbus hardware id written out from its parts is accepted: writing
      it targets that bus point, reading it answers `False`. */
  lemma ModbusAddressRoundTrip(buses: map<string, BusConfig>, busId: string,
                               pointType: string, index: int)
    requires busId in buses && ':' !in busId && ':' !in pointType
    ensures var hwId := "modbus" + ":" + (busId + ":" + pointType + ":" + Decimal.IntToDecimal(index));
            && SetOutput(buses, hwId, true) == Ok(ModbusWrite(busId, pointType, index, true))
            && GetInput(buses, hwId) == Ok(false)
  {
    var rest := busId + ":" + pointType + ":" + Decimal.IntToDecimal(index);
    var hwId := "modbus" + ":" + rest;
    var p := ModbusPoint(buses[busId], pointType, index);
    ModbusRestRoundTrip(buses, busId, pointType, index);
    KindsHaveNoColon();
    SplitKindOf("modbus", rest);
    ModbusDispatch(buses, hwId, rest, p, true);
  }
}

=== FILE: watchkeeper.dfy ===
/** The watchkeeper's hard safety rules (ai_watchkeeper.py): whatever an
    advisory source proposes, the bilge pump override is driven only by a
    small timed state machine over the high float sensor. The process-wide
    timers become an explicit `BilgeState`, the wall clock a `now` parameter
    in whole seconds, and the two tuning constants a `Config`. */
module Watchkeeper {
  import opened Base
  import opened Commands
  import Decimal

  const FloatSensorId: string := "bilge_float_high"
  const OverrideId: string := "bilge_pump_auto_override"

  /** Maximum continuous run time and the forced rest after it, in seconds. */
  datatype Config = Config(maxRun: int, rest: int)

  /** The constants at the top of the watchkeeper script. */
  const WatchkeeperConfig: Config := Config(30, 20)

  /** The timers the script keeps in module globals: when the pump was first
      seen running, and until when it must rest after a forced stop. */
  datatype BilgeState = BilgeState(onSince: Option<int>, restUntil: Option<int>)

  const InitialState: BilgeState := BilgeState(None, None)

  /** The actions after the rules ran, with the new timers. */
  datatype Outcome = Outcome(actions: seq<Action>, state: BilgeState)

  /** A proposal the rules take away from the advisory source. Other action
      types naming the override device are not matched. */
  predicate TouchesOverride(a: Action) {
    a.kind == SetDeviceState && a.deviceId == Some(OverrideId)
  }

  /** The proposals with every override command removed, order kept. */
  function StripOverride(actions: seq<Action>): (r: seq<Action>)
    ensures |r| <= |actions|
    ensures forall i :: 0 <= i < |r| ==> !TouchesOverride(r[i])
    ensures forall a :: a in r ==> a in actions
    ensures forall a :: a in actions && !TouchesOverride(a) ==> a in r
  {
    if |actions| == 0 then []
    else if TouchesOverride(actions[0]) then StripOverride(actions[1..])
    else [actions[0]] + StripOverride(actions[1..])
  }

  /** Stripping distributes over concatenation, so the surviving proposals
      keep their relative order. */
  lemma {:induction false} StripOverrideAppend(a: seq<Action>, b: seq<Action>)
    ensures StripOverride(a + b) == StripOverride(a) + StripOverride(b)
    decreases |a|
  {
    if |a| == 0 {
      assert a + b == b;
    } else {
      assert (a + b)[0] == a[0];
      assert (a + b)[1..] == a[1..] + b;
      StripOverrideAppend(a[1..], b);
    }
  }

  /** Stripping twice removes nothing more. */
  lemma {:induction false} StripOverrideIdempotent(a: seq<Action>)
    ensures StripOverride(StripOverride(a)) == StripOverride(a)
    decreases |a|
  {
    if |a| > 0 {
      StripOverrideIdempotent(a[1..]);
      if !TouchesOverride(a[0]) {
        assert StripOverride(a) == [a[0]] + StripOverride(a[1..]);
        StripOverrideAppend([a[0]], StripOverride(a[1..]));
        assert StripOverride([a[0]]) == [a[0]] by {
          assert [a[0]][1..] == [];
        }
      }
    }
  }

  /** A proposal list with no override command passes untouched. */
  lemma {:induction false} StripOverrideKeepsClean(a: seq<Action>)
    requires forall i :: 0 <= i < |a| ==> !TouchesOverride(a[i])
    ensures StripOverride(a) == a
    decreases |a|
  {
    if |a| > 0 {
      StripOverrideKeepsClean(a[1..]);
      assert a == [a[0]] + a[1..];
    }
  }

  const FloatClearedReason: string :=
    "Bilge high float cleared \U{2013} turning bilge pump override OFF."
  const RestartReason: string :=
    "Bilge high float is active and pump is OFF \U{2013} turning bilge pump override ON."

  /** The reason of a runtime-limit stop; Python's `int()` of a whole number
      of seconds is that number. */
  function RuntimeReason(runSeconds: int, rest: int): string {
    "Bilge pump has been ON for " + Decimal.IntToDecimal(runSeconds)
      + "s with high float still active \U{2013} turning OFF for a "
      + Decimal.IntToDecimal(rest) + "s rest period."
  }

  /** The command the rules append (`add_bilge_action`): critical priority,
      and an ON command guarded by the high float still reading true. */
  function RuleAction(ruleId: string, on: bool, reason: string): (a: Action)
    ensures TouchesOverride(a) && a.targetState == VBool(on) && a.priority == "critical"
    ensures on <==> a.onlyIf.Some?
    ensures on ==> a.onlyIf == Some([(FloatSensorId, VBool(true))])
  {
    Action(ruleId, SetDeviceState, Some(OverrideId), None, VBool(on), "critical",
           if on then Some([(FloatSensorId, VBool(true))]) else None, reason)
  }

  /** The rules run only when both bilge devices are in the snapshot and the
      override's `ai_control` is truthy (so the string "never" counts). */
  predicate Managed(devices: seq<Reading>) {
    && FindDevice(devices, FloatSensorId).Some?
    && FindDevice(devices, OverrideId).Some?
    && Truthy(FindDevice(devices, OverrideId).value.aiControl)
  }

  /** The float and the pump read as on only when their state is `True`. */
  predicate FloatHigh(devices: seq<Reading>)
    requires Managed(devices)
  {
    IsTrue(FindDevice(devices, FloatSensorId).value.state)
  }

  predicate PumpOn(devices: seq<Reading>)
    requires Managed(devices)
  {
    IsTrue(FindDevice(devices, OverrideId).value.state)
  }

  /** The logical state of the bilge machine at one cycle, derived from the
      snapshot and the timers before the rules run. */
  datatype Phase =
    | Unmanaged          // a bilge device is missing or AI control is off
    | FloatClearPumpOff  // float low, pump off
    | FloatClearPumpOn   // float low, pump still on
    | Running            // float high, pump on, under the run limit
    | RunLimitReached    // float high, pump on, run limit reached
    | Resting            // float high, pump off, inside the rest window
    | ReadyToRestart     // float high, pump off, no rest window in force

  function PhaseOf(cfg: Config, st: BilgeState, devices: seq<Reading>, now: int): Phase {
    if !Managed(devices) then Unmanaged
    else ManagedPhase(cfg, st, FloatHigh(devices), PumpOn(devices), now)
  }

  /** The phase of a managed cycle, from the two readings. */
  function ManagedPhase(cfg: Config, st: BilgeState, floatHigh: bool, pumpOn: bool, now: int): Phase {
    if !floatHigh then
      (if pumpOn then FloatClearPumpOn else FloatClearPumpOff)
    else if pumpOn then
      // a pump first seen running now has run for zero seconds
      (if now - st.onSince.GetOr(now) >= cfg.maxRun then RunLimitReached else Running)
    else if st.restUntil.Some? && now < st.restUntil.value then Resting
    else ReadyToRestart
  }

  /** What the rules ask of the override in one cycle. */
  datatype Command = NoCommand | TurnOn | TurnOff

  /** The command each phase calls for. */
  function ExpectedCommand(p: Phase): Command {
    match p
    case FloatClearPumpOn => TurnOff
    case RunLimitReached => TurnOff
    case ReadyToRestart => TurnOn
    case _ => NoCommand
  }

  /** The actions the rules appended after the surviving proposals. */
  function Appended(r: Outcome, proposals: seq<Action>): seq<Action> {
    var k := |StripOverride(proposals)|;
    if k <= |r.actions| then r.actions[k..] else []
  }

  /** The command carried by the appended actions (the first, if any). */
  function CommandOf(extra: seq<Action>): Command {
    if |extra| == 0 then NoCommand
    else if extra[0].targetState == VBool(true) then TurnOn
    else TurnOff
  }

  /** The timed rules on their own: the corrective command to append (none
      or one) and the new timers. */
  function BilgeStep(cfg: Config, st: BilgeState, devices: seq<Reading>, now: int, ruleId: string): (r: Outcome)
    ensures |r.actions| <= 1
    ensures forall i :: 0 <= i < |r.actions| ==>
              r.actions[i] == RuleAction(ruleId, r.actions[i].targetState == VBool(true), r.actions[i].reason)
    ensures CommandOf(r.actions) == ExpectedCommand(PhaseOf(cfg, st, devices, now))
    ensures PhaseOf(cfg, st, devices, now) == Unmanaged ==> r == Outcome([], st)
    ensures PhaseOf(cfg, st, devices, now) in {FloatClearPumpOff, FloatClearPumpOn} ==> r.state == InitialState
    ensures PhaseOf(cfg, st, devices, now) == Running ==>
              r.state == BilgeState(Some(st.onSince.GetOr(now)), st.restUntil)
    ensures PhaseOf(cfg, st, devices, now) == RunLimitReached ==>
              r.state == BilgeState(None, Some(now + cfg.rest))
    ensures PhaseOf(cfg, st, devices, now) == Resting ==> r.state == BilgeState(None, st.restUntil)
    ensures PhaseOf(cfg, st, devices, now) == ReadyToRestart ==> r.state == BilgeState(Some(now), None)
  {
    if !Managed(devices) then Outcome([], st)
    else ManagedStep(cfg, st, FloatHigh(devices), PumpOn(devices), now, ruleId)
  }

  /** The rules once both devices are present and AI control is on: the
      branches of `apply_hard_rules` after its early returns. */
  function ManagedStep(cfg: Config, st: BilgeState, floatHigh: bool, pumpOn: bool, now: int, ruleId: string)
    : (r: Outcome)
    ensures |r.actions| <= 1
    ensures forall i :: 0 <= i < |r.actions| ==>
              r.actions[i] == RuleAction(ruleId, r.actions[i].targetState == VBool(true), r.actions[i].reason)
    ensures CommandOf(r.actions) == ExpectedCommand(ManagedPhase(cfg, st, floatHigh, pumpOn, now))
    ensures ManagedPhase(cfg, st, floatHigh, pumpOn, now) in {FloatClearPumpOff, FloatClearPumpOn} ==>
              r.state == InitialState
    ensures ManagedPhase(cfg, st, floatHigh, pumpOn, now) == Running ==>
              r.state == BilgeState(Some(st.onSince.GetOr(now)), st.restUntil)
    ensures ManagedPhase(cfg, st, floatHigh, pumpOn, now) == RunLimitReached ==>
              r.state == BilgeState(None, Some(now + cfg.rest))
    ensures ManagedPhase(cfg, st, floatHigh, pumpOn, now) == Resting ==> r.state == BilgeState(None, st.restUntil)
    ensures ManagedPhase(cfg, st, floatHigh, pumpOn, now) == ReadyToRestart ==>
              r.state == BilgeState(Some(now), None)
  {
    var onSince := if pumpOn then (if st.onSince.None? then Some(now) else st.onSince) else None;
    if !floatHigh then
      var extra := if pumpOn then [RuleAction(ruleId, false, FloatClearedReason)] else [];
      Outcome(extra, BilgeState(None, None))
    else if pumpOn && onSince.Some? && now - onSince.value >= cfg.maxRun then
      var off := RuleAction(ruleId, false, RuntimeReason(now - onSince.value, cfg.rest));
      Outcome([off], BilgeState(None, Some(now + cfg.rest)))
    else if !pumpOn then
      if st.restUntil.Some? && now < st.restUntil.value then
        Outcome([], BilgeState(onSince, st.restUntil))
      else
        Outcome([RuleAction(ruleId, true, RestartReason)], BilgeState(Some(now), None))
    else
      Outcome([], BilgeState(onSince, st.restUntil))
  }

  /** `apply_hard_rules`: strip override proposals, then append at most one
      corrective override command and update the timers. */
  function ApplyHardRules(cfg: Config, st: BilgeState, devices: seq<Reading>,
                          actions: seq<Action>, now: int, ruleId: string): (r: Outcome)
    ensures |StripOverride(actions)| <= |r.actions| <= |StripOverride(actions)| + 1
    ensures r.actions[..|StripOverride(actions)|] == StripOverride(actions)
    ensures forall i :: |StripOverride(actions)| <= i < |r.actions| ==>
              r.actions[i] == RuleAction(ruleId, r.actions[i].targetState == VBool(true), r.actions[i].reason)
    ensures CommandOf(Appended(r, actions)) == ExpectedCommand(PhaseOf(cfg, st, devices, now))
    ensures PhaseOf(cfg, st, devices, now) == Unmanaged ==> r == Outcome(StripOverride(actions), st)
    ensures PhaseOf(cfg, st, devices, now) in {FloatClearPumpOff, FloatClearPumpOn} ==> r.state == InitialState
    ensures PhaseOf(cfg, st, devices, now) == Running ==>
              r.state == BilgeState(Some(st.onSince.GetOr(now)), st.restUntil)
    ensures PhaseOf(cfg, st, devices, now) == RunLimitReached ==>
              r.state == BilgeState(None, Some(now + cfg.rest))
    ensures PhaseOf(cfg, st, devices, now) == Resting ==> r.state == BilgeState(None, st.restUntil)
    ensures PhaseOf(cfg, st, devices, now) == ReadyToRestart ==> r.state == BilgeState(Some(now), None)
    ensures Managed(devices) ==>
              (r.state.onSince.Some? <==>
                 (CommandOf(Appended(r, actions)) == TurnOn
                  || (PumpOn(devices) && CommandOf(Appended(r, actions)) != TurnOff)))
  {
    var kept := StripOverride(actions);
    var step := BilgeStep(cfg, st, devices, now, ruleId);
    var r := Outcome(kept + step.actions, step.state);
    assert Appended(r, actions) == step.actions;
    assert r.actions[..|kept|] == kept;
    assert step.actions == [] ==> r.actions == kept;
    r
  }

  /** One polling cycle's inputs. */
  datatype Tick = Tick(devices: seq<Reading>, proposals: seq<Action>, now: int, ruleId: string)

  /** The timers after running the rules over consecutive cycles. */
  function Run(cfg: Config, st: BilgeState, ticks: seq<Tick>): BilgeState
    decreases |ticks|
  {
    if |ticks| == 0 then st
    else
      var t := ticks[0];
      Run(cfg, ApplyHardRules(cfg, st, t.devices, t.proposals, t.now, t.ruleId).state, ticks[1..])
  }

  /** A cycle where the float is high and the pump is off. */
  predicate HighAndOff(t: Tick) {
    Managed(t.devices) && FloatHigh(t.devices) && !PumpOn(t.devices)
  }

  /** Inside a rest window that ends at `until`, however many cycles see the
      float high and the pump off, the rules never restart the pump and the
      window is kept. */
  lemma {:induction false} RestWindowHolds(cfg: Config, until: int, ticks: seq<Tick>)
    requires forall i :: 0 <= i < |ticks| ==> HighAndOff(ticks[i]) && ticks[i].now < until
    ensures Run(cfg, BilgeState(None, Some(until)), ticks) == BilgeState(None, Some(until))
    ensures forall i :: 0 <= i < |ticks| ==>
              ApplyHardRules(cfg, BilgeState(None, Some(until)), ticks[i].devices, ticks[i].proposals,
                             ticks[i].now, ticks[i].ruleId).actions == StripOverride(ticks[i].proposals)
    decreases |ticks|
  {
    if |ticks| > 0 {
      var t := ticks[0];
      assert PhaseOf(cfg, BilgeState(None, Some(until)), t.devices, t.now) == Resting;
      RestWindowHolds(cfg, until, ticks[1..]);
      assert forall i :: 1 <= i < |ticks| ==> ticks[i] == ticks[1..][i - 1];
    }
  }

  /** A cycle where the float is high and the pump runs, at time `now`. */
  predicate HighAndOn(t: Tick) {
    Managed(t.devices) && FloatHigh(t.devices) && PumpOn(t.devices)
  }

  /** While the pump keeps running under the limit, the on-since timer keeps
      the time the pump was first seen on. */
  lemma {:induction false} RunningKeepsStart(cfg: Config, start: int, rest: Option<int>, ticks: seq<Tick>)
    requires forall i :: 0 <= i < |ticks| ==> HighAndOn(ticks[i]) && ticks[i].now - start < cfg.maxRun
    ensures Run(cfg, BilgeState(Some(start), rest), ticks) == BilgeState(Some(start), rest)
    decreases |ticks|
  {
    if |ticks| > 0 {
      var t := ticks[0];
      assert PhaseOf(cfg, BilgeState(Some(start), rest), t.devices, t.now) == Running;
      RunningKeepsStart(cfg, start, rest, ticks[1..]);
    }
  }

  /** The duty cycle from one stop to the next start: a runtime-limit stop at
      `now` opens a rest window of `cfg.rest` seconds; a cycle strictly inside
      it commands nothing, and the first cycle at or after its end restarts
      the pump. */
  lemma DutyCycle(cfg: Config, st: BilgeState, stop: Tick, later: Tick)
    requires PhaseOf(cfg, st, stop.devices, stop.now) == RunLimitReached
    requires HighAndOff(later)
    ensures var s1 := ApplyHardRules(cfg, st, stop.devices, stop.proposals, stop.now, stop.ruleId).state;
            var r := ApplyHardRules(cfg, s1, later.devices, later.proposals, later.now, later.ruleId);
            && (later.now < stop.now + cfg.rest ==>
                  CommandOf(Appended(r, later.proposals)) == NoCommand && r.state == s1)
            && (later.now >= stop.now + cfg.rest ==>
                  CommandOf(Appended(r, later.proposals)) == TurnOn && r.state == BilgeState(Some(later.now), None))
  {
  }

  /** The no-op `call_model` substitutes for an empty action list. */
  const NoOpAction: Action :=
    Action("noop-1", NoOp, None, None, VNone, "info", None, "No action required.")

  /** `call_model`'s last step: an empty list becomes the single no-op. */
  function InjectNoOp(actions: seq<Action>): (r: seq<Action>)
    ensures |r| >= 1
    ensures |actions| > 0 ==> r == actions
    ensures |actions| == 0 ==> |r| == 1 && r[0].kind == NoOp && r[0].actionId == "noop-1"
                               && r[0].priority == "info"
  {
    if |actions| == 0 then [NoOpAction] else actions
  }

  /** One watchkeeper cycle after the advisory source answered. */
  function Cycle(cfg: Config, st: BilgeState, devices: seq<Reading>,
                 proposals: seq<Action>, now: int, ruleId: string): (r: Outcome)
    ensures |r.actions| >= 1
  {
    var o := ApplyHardRules(cfg, st, devices, proposals, now, ruleId);
    Outcome(InjectNoOp(o.actions), o.state)
  }
}
